=== FILE: README.md ===
# Publishing migrated Ansible roles (x2a-convertor)

This project models the publishing half of x2a-convertor in Dafny. x2a-convertor migrates Chef and Puppet code to Ansible. The publishing half takes the migrated roles and delivers them:

- **`publish_project`** builds a deployable Ansible project from role directories. It creates the skeleton (`collections`, `inventory`, `roles`, `playbooks`), copies each role while leaving out `export-output.md`, `.checklist.json` and the `.ansible` cache directory at any depth, writes one wrapper playbook per role, and writes `ansible.cfg`, `collections/requirements.yml` and `inventory/hosts.yml`. It then checks that every file it promised exists, and returns the resolved deployment directory.
- **`publish_aap` / `sync_to_aap`** upsert a project on an Ansible Automation Platform (AAP) controller and start its sync. They report the outcome as an `AAPSyncResult`; `publish_aap` turns a disabled or failed sync into a `RuntimeError`.
- **The loaders** (`load_collections_file`, `load_inventory_file`) read a YAML or JSON file chosen by its suffix and check the shape of the document.
- **`GenerateAAPConfigTool`** is an agent tool that writes a playbook, a job template or an inventory. It reports every outcome as text, with each failure starting with `ERROR: `.
- **`LimitedListDirectoryTool`** lists a directory through the base listing tool. It cuts any listing with more than 50 entries down to the first 50 entries and a notice line.
- **`GitHubCreatePRTool`** finds the owner and repository in a GitHub URL and builds the pull-request request for the GitHub REST API.
- **`generate_usage_docs`** renders the two usage pages from one content file: a native page, and a container page whose commands are wrapped in `podman run`.

## Layout

| file | module | models |
|---|---|---|
| `results.dfy` | `Results` | `Option`, `Result`, `Outcome` and the Python exception kinds |
| `text.dfy` | `Text` | the string built-ins the code relies on: `join`, `split`, `strip`, `startswith`, `in`, `replace(x, "")`, `lower`, `str(int)`, `int(str)` |
| `paths.dfy` | `Paths` | `PurePosixPath` parsing, `str(p)`, `p / s`, `parent`, `name`, `suffix`, and resolution against the working directory |
| `yaml_value.dfy` | `YamlValue` | loaded YAML/JSON values, Python's `int()` on them, `dict.get` |
| `file_tree.dfy` | `FileTree` | the file system as a map from locations to entries; the `FileSystem` class updates it in place through `mkdir(parents=True, exist_ok=True)`, `rmtree`/`unlink`, file writes and `copytree` |
| `publisher_tools.dfy` | `PublisherTools` | `src/publishers/tools.py`: loaders, skeleton creation, role copy, generators, required-file check |
| `aap_sync.dfy` | `AapSync` | `AAPSyncResult` and `sync_to_aap` against an abstract controller client |
| `publish.dfy` | `Publish` | `src/publishers/publish.py` |
| `aap_config.dfy` | `AapConfig` | `tools/generate_aap_config.py` |
| `list_directory.dfy` | `ListDirectory` | `tools/limited_list_directory.py` |
| `github_pr.dfy` | `GithubPr` | `tools/github_create_pr.py` up to the HTTP call |
| `usage_docs.dfy` | `UsageDocs` | `scripts/generate_usage_docs.py` |

The file system is a `map<seq<string>, Entry>` from absolute component lists to `Dir` or `File(content)`. It is kept well formed: every entry's parent is a directory.

- Operations that change files in the source are methods on the `FileTree.FileSystem` class. Each method's `ensures` ties the new tree to a function of the old one, for example `CopyRoleEffect` or `GenerateFileEffect`.
- The properties are proved as lemmas about those functions.
- Generated files hold symbolic contents: a template name with its parameters, or the YAML document that is dumped. Templates and the YAML emitter are therefore not modelled text.

Code that only computes is modelled as functions, with lemmas about them. Loops that build sequences are methods whose loop invariants tie them to those functions: the playbook lines, the host merge, the `podman run` command, the missing-file collection and the ignore callback.

## Model

| member | source | states |
|---|---|---|
| Text.Split | tools/limited_list_directory.py:74 | `split` gives at least one piece, and no piece contains the separator |
| Text.Join | src/publishers/tools.py:219-223 | `sep.join(parts)`: the parts in order with `sep` between neighbours (its properties are `SplitJoin`, `JoinSplit` and `JoinAppend`) |
| Text.SplitJoin | tools/limited_list_directory.py:74-82 | splitting the join of separator-free lines at the separator gives back exactly those lines |
| Text.JoinSplit | tools/limited_list_directory.py:74 | joining the pieces of a split with the separator gives back the string |
| Text.SplitAfterSeparator | tools/limited_list_directory.py:74 | splitting `a + sep + b` with separator-free `a` gives `a` followed by the pieces of `b` |
| Text.JoinAppend | tools/limited_list_directory.py:82 | joining two non-empty lists is joining each and putting the separator between them |
| Text.RStrip | scripts/generate_usage_docs.py:55 | `rstrip` keeps a prefix, removes only whitespace, and leaves no trailing whitespace |
| Text.LStrip | tools/limited_list_directory.py:75 | `lstrip` keeps a suffix, removes only whitespace, and leaves no leading whitespace |
| Text.StripEmptyIffBlank | tools/limited_list_directory.py:75 | `line.strip()` is empty exactly when every character of the line is whitespace |
| Text.Strip | tools/limited_list_directory.py:75 | `s.strip()`: leading, then trailing whitespace removed (its property is `StripEmptyIffBlank`) |
| Text.QuotedIn | tools/generate_aap_config.py:139-142 | a message built around a quoted value starts with its head and contains the quoted value |
| Text.ErrorContains | tools/limited_list_directory.py:63-66 | an `ERROR: ` message starts with `ERROR: ` and contains what was put in it |
| Text.RemoveAll | tools/github_create_pr.py:92 | `replace(pat, "")` never lengthens the string |
| Text.RemoveAllAbsent | tools/github_create_pr.py:92 | replacing a pattern that does not occur leaves the string unchanged |
| Text.RemoveAllKeepPrefix | tools/github_create_pr.py:92 | a prefix that cannot start the pattern passes through `replace` untouched |
| Text.RemoveAllThenPattern | tools/github_create_pr.py:92 | a string without the pattern, followed by one occurrence of a pattern whose first character does not recur in it, loses exactly that occurrence |
| Text.NotContainsAround | tools/github_create_pr.py:92 | a pattern cannot occur across a character it does not contain |
| Text.NotContainsAfter | tools/github_create_pr.py:92 | a pattern cannot occur in `a + b` when it is absent from `b` and no character of `a` starts it |
| Text.LowerChar | tools/generate_aap_config.py:118 | ASCII only: the 26 upper-case ASCII letters map to their lower-case letter and every other character is kept (see Left out) |
| Text.Lower | tools/generate_aap_config.py:118 | `lower()` restricted to ASCII: it keeps the length and applies `LowerChar` to each character (see Left out) |
| Text.NatToString | src/publishers/publish.py:66-67 | `str(n)` is a non-empty string of digits, with a leading zero only for 0 |
| Text.IntToString | src/publishers/publish.py:66-67 | `str(i)` is never empty |
| Text.DigitsOfNat | src/publishers/tools.py:638 | the decimal value of `str(n)` is `n` |
| Text.ParseIntToString | src/publishers/tools.py:638 | `int(str(i)) == i` for every integer, negative ones included |
| Text.ParseUnsigned | src/publishers/tools.py:638 | `int()` of a digit string is its decimal value |
| Text.ParseNegative | src/publishers/tools.py:638 | `int()` of `-` followed by digits is minus their value |
| Text.ParseInt | src/publishers/tools.py:638 | `int(s)` in base 10: surrounding whitespace, one optional sign and at least one digit, otherwise ValueError (`None`); its properties are `ParseIntToString`, `ParseUnsigned` and `ParseNegative` |
| Paths.ParsePath | src/publishers/publish.py:76-78 | `Path(s)` has no empty or `.` component, and it is absolute exactly when `s` starts with `/` |
| Paths.KeepParts | src/publishers/publish.py:76 | the components kept by `Path()` are all proper components, and there are no more of them than pieces |
| Paths.KeepPartsOfComponents | src/publishers/publish.py:76 | pieces that are already proper components are all kept, in order |
| Paths.ParseShow | src/publishers/publish.py:94 | `Path(str(p)) == p` for every normalised path |
| Paths.Show | src/publishers/publish.py:94 | `str(p)`: `/` and the components for an absolute path, `.` for the empty relative path, else the components joined by `/` (its inverse is `ParsePath`, by `ParseShow`) |
| Paths.ParseShowExtend | src/publishers/publish.py:104 | `Path(f"{str(p)}/c1/…/cn")` is `p` extended by the components `c1…cn` |
| Paths.ParseRootExtend | src/publishers/publish.py:104 | the same, when `p` is the root `/` |
| Paths.ParseDotExtend | src/publishers/publish.py:104 | the same, when `p` is the empty relative path `.` |
| Paths.ShowExtend | src/publishers/publish.py:104 | appending `/c1/…/cn` to `str(p)` is `str` of the extended path |
| Paths.JoinPath | src/publishers/publish.py:80-92 | `p / s` is again a normalised path |
| Paths.JoinComponent | src/publishers/publish.py:80-92 | `p / c` for a proper component `c` appends exactly `c` |
| Paths.Parent | src/publishers/publish.py:88 | `p.parent` keeps absoluteness and drops exactly the last component; the parent of the root is itself |
| Paths.LocateParent | src/publishers/publish.py:140 | resolving `p` is resolving its parent and then stepping into or, for `..`, out of the last component |
| Paths.LastIndexOf | src/publishers/tools.py:77-80 | the last index of a character, or -1 when it does not occur |
| Paths.Suffix | src/publishers/tools.py:77-80 | `p.suffix` is empty, or a dot followed by at least one character that ends the name |
| Paths.Name | src/publishers/tools.py:79 | `p.name`: the last component, or empty for a path without components (used by `Suffix`) |
| Paths.Normalize | src/publishers/publish.py:140 | resolving `..` leaves no `..` and never adds components |
| Paths.NormalizeAppend | src/publishers/publish.py:140 | components without `..` appended to a path resolve to themselves |
| Paths.NormalizeNormal | src/publishers/publish.py:140 | a path without `..` resolves to itself |
| Paths.LocatePlain | src/publishers/publish.py:140 | without `..`, an absolute path resolves to its own components and a relative one to the working directory followed by them |
| Paths.Locate | src/publishers/publish.py:140 | `p.resolve()` from working directory `cwd`: the path appended to `cwd` unless absolute, with `..` resolved (its properties are `LocatePlain` and `LocateParent`) |
| YamlValue.PyInt | src/publishers/tools.py:638 | `int(v)` returns an integer unchanged; it raises TypeError on null, lists and dicts, and ValueError on a string that is not an integer literal |
| YamlValue.PyIntOfPrinted | src/publishers/tools.py:638 | `int()` of the decimal text of `i` is `i` |
| YamlValue.PyIntOfParsed | src/publishers/tools.py:638 | `int()` of any string that parses as an integer literal gives that integer |
| YamlValue.Lookup | src/publishers/tools.py:638 | `d.get(key)` finds a value exactly when some entry has the key (which value it finds is `LookupFirst`) |
| YamlValue.LookupFirst | src/publishers/tools.py:638 | the value `d.get(key)` finds is the one stored in the first entry with that key |
| YamlValue.LookupDistinct | src/publishers/tools.py:638 | in a mapping whose keys before entry `j` differ from its key, `d.get` of that key is entry `j`'s value; a loaded dict has distinct keys, so this is every lookup of a stored key |
| FileTree.FaultExc | src/publishers/tools.py:305-312 | the exception raised for a file-system fault carries the fault's text |
| FileTree.MakeDirs | src/publishers/tools.py:206-215 | `mkdir(parents=True, exist_ok=True)` succeeds exactly when no ancestor is a file and the target is not a file. It then leaves the target a directory, keeps every entry and adds only directories on the way. Its failure is NotADirectory or FileExists, depending on which |
| FileTree.RemoveTree | src/publishers/tools.py:289-293 | `rmtree` removes the target and everything under it, and keeps every other entry unchanged |
| FileTree.WriteFile | src/publishers/tools.py:296-301 | writing succeeds exactly when the parent is a directory and the target is neither blocked nor a directory; the tree then maps the target to the new content and nothing else changes |
| FileTree.CopyTargets | src/publishers/tools.py:296-301 | every location copied lies strictly under the destination, is not excluded, and comes from an existing source entry |
| FileTree.CopiedEntries | src/publishers/tools.py:296-301 | the copied entries all lie under the destination, and none of them is excluded |
| FileTree.CopiedEntry | src/publishers/tools.py:296-301 | every non-excluded source entry appears under the destination with the same content |
| FileTree.CopiedSource | src/publishers/tools.py:296-301 | every copied entry comes from the source entry at the same relative location |
| FileTree.CopyWellFormed | src/publishers/tools.py:296-301 | adding the copy below an empty destination directory keeps the tree well formed |
| FileTree.CopyTree | src/publishers/tools.py:296-301 | `copytree` succeeds exactly when the source is a directory, the destination is absent and not below a file, and the copy does not walk into its own destination. Each failure has its own fault: missing source, source not a directory, destination exists, destination below a file, walk into the destination. On success it leaves the destination a directory, keeps everything outside it, keeps the tree well formed, and copies nothing excluded |
| FileTree.EntersOwnDestination | src/publishers/tools.py:296-301 | the destination lies two or more levels under the source, and its first component below the source already exists and is not excluded, so `copytree` would copy into what it is creating |
| FileTree.CopyIntoNewChild | src/publishers/tools.py:296-301 | copying a directory into an absent direct child of itself succeeds |
| FileTree.CopyTreeContents | src/publishers/tools.py:269-301 | after `copytree`, `dst/rel` exists exactly when `src/rel` exists and no component of `rel` is excluded, and it then holds the same entry |
| FileTree.AncestorsAreDirs | src/publishers/tools.py:286 | in a well-formed tree every proper ancestor of an entry is a directory |
| FileTree.BlockedIsAbsent | src/publishers/tools.py:286 | a location below a file does not exist |
| FileTree.ObstructionPersists | src/publishers/tools.py:206-215 | once a location is a file or lies below one, adding directories does not change that |
| FileTree.NothingUnderMissing | src/publishers/tools.py:249-252 | nothing exists under a location that does not exist |
| FileTree.FileSystem.constructor | src/publishers/tools.py:188-312 | the file system starts from the given well-formed tree and working directory |
| FileTree.FileSystem.MakeDirectories | src/publishers/tools.py:206-215 | the tree becomes `MakeDirs` of the old tree, or stays the same with the fault reported |
| FileTree.FileSystem.Remove | src/publishers/tools.py:289-293 | the tree becomes `RemoveTree` of the old tree |
| FileTree.FileSystem.Write | src/publishers/tools.py:296-301 | the tree becomes `WriteFile` of the old tree, or stays the same with the fault reported |
| FileTree.FileSystem.CopyDirectory | src/publishers/tools.py:296-301 | the tree becomes `CopyTree` of the old tree, or stays the same with the fault reported |
| PublisherTools.LoadFile | src/publishers/tools.py:70-185 | a missing file gives `None`. A parse error raises ValueError, a read error RuntimeError, and a document of the wrong shape TypeError. A document of the right shape is returned, and the five cases are exclusive |
| PublisherTools.LoadCollectionsFile | src/publishers/tools.py:83-134 | a loaded collections document is a list; a failure is a ValueError, RuntimeError or TypeError |
| PublisherTools.LoadInventoryFile | src/publishers/tools.py:137-185 | a loaded inventory document is a dict; a failure is a ValueError, RuntimeError or TypeError |
| PublisherTools.LoaderBySuffix | src/publishers/tools.py:70-80 | an existing file is parsed as YAML when its lower-cased suffix is `.yaml` or `.yml`, and as JSON otherwise |
| PublisherTools.LoadMessages | src/publishers/tools.py:106-115 | the raised message names the kind of file and the path: "Failed to parse …" or "Failed to load …" |
| PublisherTools.ShapeMessage | src/publishers/tools.py:118-131 | the TypeError text of a loaded value of the wrong type: the kind of file, the path, the expected and the actual type name, and the hint (raised by `LoadFile`) |
| PublisherTools.Entries | src/publishers/tools.py:206-207 | one entry per name of the structure, each at `base / name` |
| PublisherTools.MakeEach | src/publishers/tools.py:206-215 | each entry is either created or recorded as an error |
| PublisherTools.MakeEachGrows | src/publishers/tools.py:206-215 | the loop keeps the tree well formed and only adds directories |
| PublisherTools.MakeEachAllDirs | src/publishers/tools.py:206-215 | with no errors, every entry is a directory afterwards |
| PublisherTools.MakeEachObstructed | src/publishers/tools.py:206-215 | with errors, some entry is obstructed by a file |
| PublisherTools.StructureLoopOutcome | src/publishers/tools.py:188-215 | the loop adds only directories; no errors means every entry is a directory, and errors mean some entry is obstructed |
| PublisherTools.StructureLoopIff | src/publishers/tools.py:206-217 | the loop records no error exactly when every entry of the structure ends up a directory |
| PublisherTools.CreateStructureReportsFailures | src/publishers/tools.py:188-227 | once the base directory can be made, every entry ends up a directory or obstructed by a file. `create_directory_structure` returns exactly when every entry is a directory. Otherwise it raises exactly the OSError "Some directories failed to create:" followed by one line per obstructed entry and then the created entries, in structure order |
| PublisherTools.MakeEntry | src/publishers/tools.py:207-215 | one pass of the loop: the entry is created and recorded as created, or the tree is unchanged and "Failed to create <entry>: <error>" is recorded (its property is `MakeEachRecords`) |
| PublisherTools.StructureReport | src/publishers/tools.py:217-223 | the OSError text: the failures, then the created paths, each list joined by line breaks under its heading (used by `CreateStructureReportsFailures`) |
| PublisherTools.StructureReportHead | src/publishers/tools.py:217-225 | the failure report starts with its fixed first line |
| PublisherTools.CreateDirectoryStructure | src/publishers/tools.py:188-227 | the outcome and the new tree are those of `CreateStructureEffect` |
| PublisherTools.CreateEntries | src/publishers/tools.py:206-215 | the loop's created and error lists and the new tree are those of `StructureLoop` |
| PublisherTools.CreateEntry | src/publishers/tools.py:207-215 | one iteration is one `MakeEntry` step |
| PublisherTools.CreatedIn | src/publishers/tools.py:206-210 | the entries of the structure that are directories in the final tree, as their path text, in order |
| PublisherTools.FailureLine | src/publishers/tools.py:212-214 | the error line for an entry: "Failed to create <name>: " and NotADirectory when it is below a file, FileExists when it is a file |
| PublisherTools.FailedIn | src/publishers/tools.py:212-215 | the error lines of the entries that are not directories in the final tree, in order |
| PublisherTools.FilesKept | src/publishers/tools.py:206-215 | adding only directories keeps every file a file and every location below a file below one |
| PublisherTools.RecordsStable | src/publishers/tools.py:206-215 | once every entry is a directory or obstructed, adding directories changes neither which entries are created nor which fail |
| PublisherTools.MakeEachRecords | src/publishers/tools.py:206-215 | after the loop every entry is a directory or obstructed, and the created and error lists are exactly `CreatedIn` and `FailedIn` of the final tree |
| PublisherTools.CreateStructureEffect | src/publishers/tools.py:188-227 | the base is made first and its failure raised; then every entry; an OSError listing failures and successes when some entry failed |
| PublisherTools.IgnoreFiles | src/publishers/tools.py:275-282 | the ignore callback returns exactly the listed names that are in the excluded set |
| PublisherTools.IgnoredIffNotKept | src/publishers/tools.py:269-282 | a name is ignored exactly when the copy leaves it out |
| PublisherTools.ClearDestination | src/publishers/tools.py:286-293 | clearing the destination removes everything under it, keeps every other entry, and adds only the destination's parents |
| PublisherTools.ClearDestinationIn | src/publishers/tools.py:286-293 | the tree becomes `ClearDestination` of the old tree, or stays the same with the fault reported |
| PublisherTools.CopyRoleChecksSourceFirst | src/publishers/tools.py:249-257 | a missing source raises FileNotFoundError and a non-directory source raises ValueError, both before anything changes |
| PublisherTools.CopyRoleReplacesDestination | src/publishers/tools.py:230-312 | after a successful copy, the destination is a directory. `dst/rel` exists exactly when `src/rel` existed, is not excluded and was not under the old destination, and it then holds the same entry |
| PublisherTools.SourceSurvives | src/publishers/tools.py:286-301 | when the copy does not walk into its own destination, clearing the destination keeps exactly the source entries that were not under the old destination, unchanged |
| PublisherTools.CopyAfterClear | src/publishers/tools.py:286-301 | a successful `copytree` onto the cleared destination leaves it a directory holding exactly the kept source entries that lay outside the old destination, with their contents |
| PublisherTools.ClearedAncestorAboveDestination | src/publishers/tools.py:286-293 | a location created by making the destination's parent and not under the destination is a proper ancestor of the destination |
| PublisherTools.CopyRoleEffect | src/publishers/tools.py:230-312 | the source checks, the clearing of the destination and the `copytree` call, in that order |
| PublisherTools.CopyStepEffect | src/publishers/tools.py:296-312 | a copy that walks into its own destination is re-raised with the "Failed to copy role directory: " prefix; any other fault with "Unexpected error copying role: " |
| PublisherTools.CopyRoleDirectory | src/publishers/tools.py:230-312 | the outcome and the new tree are those of `CopyRoleEffect` |
| PublisherTools.GenerateFileResult | src/publishers/tools.py:471-497 | a generator keeps the tree well formed, changes only the target and adds only directories. On success the target holds the content; on failure it raises an OSError "Failed to generate <what>: …" |
| PublisherTools.GenerateFileSucceeds | src/publishers/tools.py:482-497 | a generator succeeds exactly when the target is neither below a file nor a directory |
| PublisherTools.WriteBelowParent | src/publishers/tools.py:486-490 | making the parent and writing both succeed exactly when the target is neither below a file nor a directory |
| PublisherTools.BlockedShrinks | src/publishers/tools.py:486-490 | adding directories never puts a location below a file |
| PublisherTools.BlockedParent | src/publishers/tools.py:486-490 | a location lies below a file exactly when its parent does or its parent is a file |
| PublisherTools.PlaybookGuard | src/publishers/tools.py:315-368 | an empty role name raises ValueError and writes nothing; on success the file holds the playbook template with the role name |
| PublisherTools.ExtraVarsValue | src/publishers/tools.py:407-415 | extra vars that are empty become null; text that fails to parse, or parses to null, is kept as the string; otherwise the parsed value is used |
| PublisherTools.JobTemplateGuards | src/publishers/tools.py:397-404 | a missing playbook path, and then a missing inventory, raise ValueError and write nothing; every other failure is an OSError |
| PublisherTools.GenerateFile | src/publishers/tools.py:482-497 | the outcome and the new tree are those of `GenerateFileEffect` |
| PublisherTools.GenerateFileEffect | src/publishers/tools.py:482-497 | make the parent directory, then write the content; a failure of either becomes "Failed to generate <what>: …" |
| PublisherTools.GeneratePlaybookYaml | src/publishers/tools.py:315-368 | the outcome and the new tree are those of `PlaybookEffect` |
| PublisherTools.PlaybookEffect | src/publishers/tools.py:315-368 | an empty role name raises ValueError; otherwise the playbook template with its parameters is written |
| PublisherTools.GenerateJobTemplateYaml | src/publishers/tools.py:371-439 | the outcome and the new tree are those of `JobTemplateEffect` |
| PublisherTools.JobTemplateEffect | src/publishers/tools.py:371-439 | the playbook and inventory checks, the extra-vars parse, then the job-template file is written |
| PublisherTools.GenerateGithubActionsWorkflow | src/publishers/tools.py:442-468 | the outcome and the new tree are those of `WorkflowEffect` |
| PublisherTools.WorkflowEffect | src/publishers/tools.py:442-468 | the workflow template is written to the target |
| PublisherTools.GenerateAnsibleCfg | src/publishers/tools.py:471-497 | the outcome and the new tree are those of `AnsibleCfgEffect` |
| PublisherTools.AnsibleCfgEffect | src/publishers/tools.py:471-497 | the `ansible.cfg` template is written to the target |
| PublisherTools.GenerateCollectionsRequirements | src/publishers/tools.py:500-530 | the outcome and the new tree are those of `CollectionsEffect` |
| PublisherTools.CollectionsEffect | src/publishers/tools.py:500-530 | the requirements template is written with the collections, `None` passed on as null |
| PublisherTools.GenerateInventoryFile | src/publishers/tools.py:533-561 | the outcome and the new tree are those of `InventoryEffect` |
| PublisherTools.InventoryEffect | src/publishers/tools.py:533-561 | the inventory template is written with the inventory, `None` passed on as null |
| PublisherTools.Missing | src/publishers/tools.py:575-579 | the missing list is no longer than the list checked |
| PublisherTools.MissingMembers | src/publishers/tools.py:575-579 | a path is reported missing exactly when it was checked and does not exist |
| PublisherTools.MissingAppend | src/publishers/tools.py:575-579 | the missing paths of a concatenation are those of each part, in order |
| PublisherTools.Bullets | src/publishers/tools.py:582-584 | one bullet line per missing path |
| PublisherTools.MissingMessage | src/publishers/tools.py:581-584 | "<n> files are missing:" followed by one bullet line per missing path (used by `VerifyEffect`) |
| PublisherTools.VerifyIffAllExist | src/publishers/tools.py:564-588 | `verify_files_exist` returns exactly when every path exists |
| PublisherTools.MissingMessageLines | src/publishers/tools.py:581-586 | the error message is a count line followed by exactly one bullet per missing path |
| PublisherTools.CollectMissing | src/publishers/tools.py:575-579 | the loop collects exactly the missing paths, in order |
| PublisherTools.VerifyFilesExist | src/publishers/tools.py:564-588 | the outcome is `VerifyEffect`, which passes exactly when every path exists |
| PublisherTools.VerifyEffect | src/publishers/tools.py:564-588 | passes when nothing is missing, and otherwise raises FileNotFoundError with the missing-files message |
| PublisherTools.BulletLines | src/publishers/tools.py:582-584 | the loop builds exactly the bullet lines |
| AapSync.Disabled | src/publishers/tools.py:36-39 | a disabled result is not enabled and has no error, project id or update id |
| AapSync.FromError | src/publishers/tools.py:41-44 | an error result is enabled, carries the error, and has no project |
| AapSync.LineIf | src/publishers/tools.py:59-66 | an optional summary line appears exactly when its field is set |
| AapSync.ReportSummary | src/publishers/tools.py:46-67 | the lines built are the summary lines |
| AapSync.SummaryLines | src/publishers/tools.py:46-67 | the summary: one line when disabled, two when an error is recorded, otherwise SUCCESS and a line per set field |
| AapSync.DisabledSummary | src/publishers/tools.py:49-51 | a disabled result summarises as the single "Disabled" line |
| AapSync.FromErrorSummary | src/publishers/tools.py:53-56 | an error result summarises as FAILED and the error, and nothing else |
| AapSync.SuccessSummary | src/publishers/tools.py:58-67 | a successful result starts with SUCCESS and has one line per set field, the project first and the status last |
| AapSync.ErrorText | src/publishers/tools.py:651-652 | corrected: the recorded error text is never empty, and it is `str(e)` whenever that is non-empty (as written it is always `str(e)`; see Findings) |
| AapSync.SyncToAap | src/publishers/tools.py:591-652 | corrected (`ErrorText`): a bad configuration gives an error result and no client call, and a missing one gives a disabled result. A successful sync has a non-zero project id, and its fourth and last call starts that project's update. Only exceptions the function does not catch escape |
| AapSync.SyncToAapAsWritten | src/publishers/tools.py:611-652 | as written, with no configuration the result is disabled, and only uncaught exceptions escape |
| AapSync.SyncSteps | src/publishers/tools.py:624-650 | the calls inside the `try`: construct the client, find the organization, upsert the project, read its id, start the update; the attempt ends at the first exception |
| AapSync.CaughtRecordedAsWritten | src/publishers/tools.py:651-652 | as written, a caught exception becomes an error result carrying exactly `str(e)`, after the calls made so far |
| AapSync.SyncedResultFields | src/publishers/tools.py:618-649 | a synced result reports the project name used, the id the upsert returned, and the id and status of the update started on that project, after exactly the four client calls in order |
| AapSync.AsWrittenAgreesOnMessages | src/publishers/tools.py:611-652 | as written and corrected agree on every run whose exceptions carry a message |
| AapSync.ZeroProjectIdIsError | src/publishers/tools.py:638-640 | a missing or zero project id gives the "did not return a project id" error, and no update is started |
| AapSync.NoClientWithoutConfig | src/publishers/tools.py:611-617 | without a usable configuration no client call is made |
| AapSync.CaughtBecomesError | src/publishers/tools.py:651-652 | corrected: a RequestException, RuntimeError or ValueError inside the sync becomes an enabled result with a non-empty error |
| AapSync.Caught | src/publishers/tools.py:651 | the exceptions the sync catches are exactly RequestException, RuntimeError and ValueError (used by `CaughtBecomesError` and `CaughtRecordedAsWritten`) |
| Publish.RoleFiles | src/publishers/publish.py:133-135 | each role contributes its role directory, then its playbook, in role order |
| Publish.RequiredFiles | src/publishers/publish.py:128-135 | the required list is the three project files followed by each role's directory and playbook |
| Publish.GlobalFiles | src/publishers/publish.py:128-132 | the three project-wide files `ansible.cfg`, `collections/requirements.yml` and `inventory/hosts.yml` under the publish directory, in this order (used by `RequiredFiles`) |
| Publish.RunEachStopsAtFailure | src/publishers/publish.py:97-137 | once a step raises, the later steps change nothing |
| Publish.RunEachSnoc | src/publishers/publish.py:103-114 | after a passing prefix, the next step runs on the tree that prefix left |
| Publish.RunEach | src/publishers/publish.py:97-114 | one step per item, in order; the first exception ends the run |
| Publish.RoleSources | src/publishers/publish.py:103 | `zip(role_names, role_paths)` pairs each name with its path, in order |
| Publish.CopyStepIs | src/publishers/publish.py:104-106 | each copy goes from the role path to `<publish_dir>/roles/<role>` |
| Publish.PlaybookStepIs | src/publishers/publish.py:110-114 | each playbook is `run_<role>.yml`, named "Run <role>", for all hosts, without become or vars |
| Publish.ProjectFileStepIs | src/publishers/publish.py:117-125 | the three project files go to `ansible.cfg`, `collections/requirements.yml` and `inventory/hosts.yml` |
| Publish.FinalCheck | src/publishers/publish.py:117-137 | when the final steps pass, every required file exists |
| Publish.PipelinePassed | src/publishers/publish.py:97-137 | when the whole pipeline passes, every required file exists |
| Publish.Pipeline | src/publishers/publish.py:97-137 | skeleton, role copies, playbooks, then the project files and the check, stopping at the first exception |
| Publish.FinalEffect | src/publishers/publish.py:117-137 | the three project files, then the check of every required file |
| Publish.DeploymentPath | src/publishers/publish.py:76-92 | the deployment path is a normalised path |
| Publish.DeploymentUnderBase | src/publishers/publish.py:77-84 | with a base path, the project goes to `<base>/ansible/deployments/<leaf>` |
| Publish.DeploymentBesideRoles | src/publishers/publish.py:85-92 | without a base path, the project goes to `deployments/<leaf>` two levels above the first role path |
| Publish.Leaf | src/publishers/publish.py:79-92 | the last component of the deployment path: the role name for one role, `ansible-project` otherwise (used by `DeploymentUnderBase` and `DeploymentBesideRoles`) |
| Publish.JoinThree | src/publishers/publish.py:80 | `p / a / b / c` appends the three components |
| Publish.JoinTwo | src/publishers/publish.py:90 | `p / a / b` appends the two components |
| Publish.RoleDestinationLocation | src/publishers/publish.py:104 | the f-string destination denotes `deployment / "roles" / role` |
| Publish.PlaybookFileLocation | src/publishers/publish.py:111 | the f-string playbook path denotes `deployment / "playbooks" / "run_<role>.yml"` |
| Publish.Argument | src/publishers/publish.py:58-62 | a file is loaded only when no value was passed and a file was named |
| Publish.LengthMessageMustMatch | src/publishers/publish.py:65-68 | the length error says the numbers "must match" |
| Publish.LengthMessage | src/publishers/publish.py:65-68 | "Number of role names (<n>) must match number of role paths (<m>)" (its property is `LengthMessageMustMatch`) |
| Publish.MismatchWritesNothing | src/publishers/publish.py:58-70 | different numbers of names and paths fail without touching the tree; with both loads succeeding, the failure is the ValueError saying they must match |
| Publish.LoadingPrecedesLengthCheck | src/publishers/publish.py:58-70 | a failing collections load is raised before the length check, and leaves the tree alone |
| Publish.SuccessMeansRequiredFilesExist | src/publishers/publish.py:23-140 | a successful publish had at least one role, as many paths as names, and leaves every required file in place |
| Publish.PublishReturnsDeployment | src/publishers/publish.py:140 | a successful publish returns the resolved deployment directory |
| Publish.PublishSpec | src/publishers/publish.py:23-140 | argument loading, the length check, the deployment path, the pipeline, and the resolved directory returned |
| Publish.SingleRoleResultEndsWithName | src/publishers/publish.py:79-140 | for one role, the returned directory ends with `/<role>` |
| Publish.ResolvedDeploymentEndsWithName | src/publishers/publish.py:79-140 | for one role, the resolved deployment path ends with `/<role>` |
| Publish.LocatedEndsWithLast | src/publishers/publish.py:140 | a resolved path without `..` ends with its last component |
| Publish.ShowLocationLast | src/publishers/publish.py:140 | the text of a location ends with `/` and its last component |
| Publish.PublishProject | src/publishers/publish.py:23-140 | the result and the new tree are those of `PublishSpec` |
| Publish.RunPipeline | src/publishers/publish.py:97-137 | the outcome and the new tree are those of `Pipeline` |
| Publish.RunCopies | src/publishers/publish.py:103-106 | the copy loop runs `CopyStep` over the roles and stops at the first exception |
| Publish.RunPlaybooks | src/publishers/publish.py:109-114 | the playbook loop runs `PlaybookStep` over the roles and stops at the first exception |
| Publish.RequiredList | src/publishers/publish.py:128-135 | the loop builds exactly `RequiredFiles` |
| Publish.RunFinalSteps | src/publishers/publish.py:117-137 | the project files and the check give `FinalEffect` |
| Publish.WriteProjectFiles | src/publishers/publish.py:117-125 | the three generators run in order and stop at the first exception |
| Publish.WriteProjectFile | src/publishers/publish.py:117-125 | one project file is written by its generator |
| Publish.PublishAap | src/publishers/publish.py:158-173 | `publish_aap` returns the result exactly when it is enabled and has no error. A disabled result raises RuntimeError "not configured"; an error result raises RuntimeError carrying the error |
| Publish.PublishAapRun | src/publishers/publish.py:143-173 | an exception escaping the sync propagates; otherwise the result is judged by `PublishAap` |
| Publish.PublishAapMeansSynced | src/publishers/publish.py:143-173 | with the corrected sync, a result `publish_aap` returns has a non-zero project id, and the last client call started that project's update |
| Publish.EmptyErrorPassesAsWritten | src/publishers/publish.py:166 | as written, a caught exception with an empty message makes `publish_aap` return an enabled result with no project |
| Publish.EmptyErrorRefusedWhenCorrected | src/publishers/publish.py:166 | corrected, the same run raises RuntimeError naming the exception |
| AapConfig.ParseConfigTypeIff | tools/generate_aap_config.py:118-137 | the dispatch picks a kind exactly when the ASCII-lowered type is that kind's name, and picks none when it matches no name |
| AapConfig.ParseConfigType | tools/generate_aap_config.py:118-137 | the type, lowered, compared against "playbook", "job_template" and "inventory" in that order |
| AapConfig.ReportKinds | tools/generate_aap_config.py:138-142 | error reports start with `ERROR: ` and success reports with "Successfully", never both |
| AapConfig.InvalidTypeQuoted | tools/generate_aap_config.py:138-142 | an invalid type is reported as an error quoting the ASCII-lowered type |
| AapConfig.VarLines | tools/generate_aap_config.py:169-173 | one line per variable, in order |
| AapConfig.PlaybookLinesShape | tools/generate_aap_config.py:160-178 | the playbook has its header, host line, optional `become` line, optional vars block and role lines, each at a fixed position |
| AapConfig.PlaybookFixedLines | tools/generate_aap_config.py:160-178 | the length, first three and last two lines of the playbook |
| AapConfig.PlaybookOptionalLines | tools/generate_aap_config.py:164-173 | where the optional `become` line and the vars block sit |
| AapConfig.BecomeLineIff | tools/generate_aap_config.py:164-165 | the `become: true` line is present exactly when `become` is set |
| AapConfig.VarsBlockLines | tools/generate_aap_config.py:167-173 | the vars block is a `vars:` line then one line per variable, wherever it is placed |
| AapConfig.PlaybookTextLines | tools/generate_aap_config.py:160-193 | the text written splits back into exactly the playbook lines when no value holds a line break |
| AapConfig.PlaybookLinesNoNewlines | tools/generate_aap_config.py:160-178 | no playbook line holds a line break when no value does |
| AapConfig.BuildPlaybookLines | tools/generate_aap_config.py:160-178 | the lines appended are exactly `PlaybookLines` |
| AapConfig.AppendVarLines | tools/generate_aap_config.py:169-173 | the loop appends exactly one line per variable |
| AapConfig.PlaybookLines | tools/generate_aap_config.py:160-178 | the playbook: header, host line, optional `become`, optional vars block, role lines |
| AapConfig.PlaybookText | tools/generate_aap_config.py:193 | the playbook lines joined by line breaks (its property is `PlaybookTextLines`) |
| AapConfig.PlaybookOutcome | tools/generate_aap_config.py:144-198 | an empty role name is reported as an error. Otherwise the report is a success exactly when the writer succeeded with a success message, and any failure is an `ERROR: ` report |
| AapConfig.GeneratePlaybook | tools/generate_aap_config.py:144-198 | the report is `PlaybookResult` |
| AapConfig.PlaybookResult | tools/generate_aap_config.py:144-198 | an empty role name is an error; otherwise the text is handed to the writer tool and its answer reported |
| AapConfig.JobTemplateRequiredKeys | tools/generate_aap_config.py:219-229 | the template spec holds the name, job type "run", playbook and inventory |
| AapConfig.JobTemplateOptionalKeys | tools/generate_aap_config.py:231-242 | description, role name and extra vars appear exactly when given |
| AapConfig.JobTemplateSpec | tools/generate_aap_config.py:219-242 | the template spec: the four required keys, then description, role name and extra vars when given (its properties are `JobTemplateRequiredKeys` and `JobTemplateOptionalKeys`) |
| AapConfig.ExtraVarsEntry | tools/generate_aap_config.py:236-240 | the `extra_vars` value: what `yaml.safe_load` returns, or the raw text when it does not parse |
| AapConfig.LookupAppend | tools/generate_aap_config.py:231-242 | looking up a key in appended entries finds the first part's entry first |
| AapConfig.WriteReportOutcome | tools/generate_aap_config.py:244-267 | a success report leaves the dumped document at the path; every failure is reported with the failure prefix |
| AapConfig.WriteReported | tools/generate_aap_config.py:244-267 | the report and the new tree are those of `WriteReport` |
| AapConfig.JobTemplateOutcome | tools/generate_aap_config.py:200-267 | a missing playbook path or inventory is reported as an error and writes nothing. A success leaves the template document at the path; any other failure carries the job-template prefix |
| AapConfig.GenerateJobTemplate | tools/generate_aap_config.py:200-267 | the report and the new tree are those of `JobTemplateConfigEffect` |
| AapConfig.JobTemplateConfigEffect | tools/generate_aap_config.py:200-267 | the playbook and inventory checks, then the template document written and reported |
| AapConfig.HostsOf | tools/generate_aap_config.py:299 | a group's hosts are found exactly when the group is present |
| AapConfig.IndexOfKey | tools/generate_aap_config.py:299-302 | the index of a group's entry, or -1 exactly when it is absent |
| AapConfig.MergeSpec | tools/generate_aap_config.py:294-302 | ungrouped hosts make "all" the first group |
| AapConfig.MergeKeys | tools/generate_aap_config.py:294-302 | the merged groups have distinct names: "all" when there are ungrouped hosts, plus every given group, and no others |
| AapConfig.MergeLookup | tools/generate_aap_config.py:294-302 | each merged group's hosts are its ungrouped hosts followed by its given hosts |
| AapConfig.MergeTotal | tools/generate_aap_config.py:294-302 | the merged groups hold every host entry given, once each |
| AapConfig.HostsOfUpdate | tools/generate_aap_config.py:302 | extending one group's hosts changes only that group |
| AapConfig.HostTotalUpdate | tools/generate_aap_config.py:302 | extending one group's hosts raises the total by exactly the number of hosts added |
| AapConfig.MergeHosts | tools/generate_aap_config.py:294-302 | the loop builds exactly `MergeSpec`, and the list shared with "all" is `SharedHosts` |
| AapConfig.AsWrittenCounts | tools/generate_aap_config.py:320-325 | the figures as written exceed the true ones by the "all" group's hosts and by one group, exactly when ungrouped hosts meet a group named "all" |
| AapConfig.AsWrittenCountsCounterexample | tools/generate_aap_config.py:320-325 | one ungrouped host and a group "all" of one host are reported as 3 hosts in 2 groups; the inventory holds 2 hosts in 1 group |
| AapConfig.AsWrittenHostCount | tools/generate_aap_config.py:320-322 | as written: the shared list after the merge loop, plus every given group's size |
| AapConfig.AsWrittenGroupCount | tools/generate_aap_config.py:323-325 | as written: the number of groups given, plus one when there are ungrouped hosts |
| AapConfig.InventoryCountsExact | tools/generate_aap_config.py:320-325 | the corrected figures are the number of hosts given and the number of distinct groups written |
| AapConfig.InventoryCounts | tools/generate_aap_config.py:320-325 | corrected: the host entries and the groups of the mapping written |
| AapConfig.HostsSectionLookup | tools/generate_aap_config.py:304-305 | each group of the written hosts section maps to its merged hosts |
| AapConfig.HostsSection | tools/generate_aap_config.py:294-302 | the hosts section: each merged group, in order, mapped to `{"hosts": <its hosts>}` (its property is `HostsSectionLookup`) |
| AapConfig.InventorySpec | tools/generate_aap_config.py:285-305 | the inventory spec: name and organization "Default", then the description when given and the hosts section when some group is merged |
| AapConfig.InventoryOutcome | tools/generate_aap_config.py:269-331 | corrected counts: a success leaves the inventory document at the path and reports the number of host entries and groups written; a failure carries the inventory prefix |
| AapConfig.GenerateInventory | tools/generate_aap_config.py:269-331 | corrected counts: the report and the new tree are those of `InventoryConfigEffect` |
| AapConfig.InventoryConfigEffect | tools/generate_aap_config.py:269-331 | corrected counts: the merge, then the inventory document written and reported with `InventoryCounts` |
| AapConfig.InventoryConfigEffectAsWritten | tools/generate_aap_config.py:269-331 | as written: the same write, reported with `AsWrittenHostCount` and `AsWrittenGroupCount` |
| AapConfig.InventoryAsWrittenDiffersOnlyOnAll | tools/generate_aap_config.py:269-331 | the tool as written writes the same file as the corrected one, and reports the same message unless ungrouped hosts meet a group named "all" |
| AapConfig.JobTemplateAnswered | tools/generate_aap_config.py:200-267 | the job-template branch always answers with a success or an `ERROR: ` report |
| AapConfig.InventoryAnswered | tools/generate_aap_config.py:269-331 | the inventory branch always answers with a success or an `ERROR: ` report |
| AapConfig.RunOutcome | tools/generate_aap_config.py:75-142 | with the corrected inventory counts and ASCII lowering: every run answers with a success or an `ERROR: ` report and keeps the tree well formed. An invalid type writes nothing and quotes the type; the playbook branch leaves the tree to the writer tool |
| AapConfig.Run | tools/generate_aap_config.py:75-142 | with the corrected inventory counts and ASCII lowering: the report and the new tree are those of `RunEffect` |
| AapConfig.RunEffect | tools/generate_aap_config.py:118-142 | dispatch on the lowered type: an invalid type is quoted in an error, each kind goes to its generator |
| ListDirectory.CountedLines | tools/limited_list_directory.py:72-76 | the counted lines are no more than the listing's lines |
| ListDirectory.CountedLinesSound | tools/limited_list_directory.py:72-76 | every counted line is a non-blank, non-error line of the listing |
| ListDirectory.CountedLinesAll | tools/limited_list_directory.py:72-76 | a listing whose every line counts is kept whole |
| ListDirectory.NoticeCounted | tools/limited_list_directory.py:18-21 | the notice is a single line that itself counts as an entry |
| ListDirectory.TruncatedLines | tools/limited_list_directory.py:80-87 | a cut listing is exactly the first fifty entries, one per line, then the notice |
| ListDirectory.TruncateIdempotent | tools/limited_list_directory.py:72-89 | cutting a cut listing changes nothing |
| ListDirectory.Items | tools/limited_list_directory.py:72-77 | the counted lines of the listing split at line breaks |
| ListDirectory.Truncate | tools/limited_list_directory.py:79-89 | the listing unchanged up to fifty entries, otherwise the first fifty entries and the notice |
| ListDirectory.ListDirectoryErrors | tools/limited_list_directory.py:60-94 | a path that is not an existing directory, or a listing that fails, gives an `ERROR: ` report quoting the path |
| ListDirectory.ListDirectoryListing | tools/limited_list_directory.py:69-89 | up to fifty entries the listing passes unchanged; beyond that its entries are the first fifty and the notice |
| ListDirectory.ListDirectory | tools/limited_list_directory.py:60-94 | the existence and directory checks, the listing, and its truncation; every failure an `ERROR: ` report |
| GithubPr.IndexOf | tools/github_create_pr.py:98 | `parts.index(x)` is the first position holding `x` |
| GithubPr.ExtractRepo | tools/github_create_pr.py:93-106 | a URL is refused as not GitHub exactly when no segment is `github.com`, and as missing owner or name exactly when fewer than two segments follow the first `github.com`. Otherwise the owner and name are the two segments after the first `github.com` |
| GithubPr.StripGitSuffix | tools/github_create_pr.py:92 | only a trailing `.git` is removed |
| GithubPr.GithubUrlSegments | tools/github_create_pr.py:92 | a GitHub URL splits into scheme, empty, host, owner and name |
| GithubPr.ExtractGithubSegments | tools/github_create_pr.py:93-106 | those segments give back the owner and name |
| GithubPr.ParseRepoUrlRoundTrip | tools/github_create_pr.py:92-106 | the corrected parse gives back the owner and name of any clone URL, with or without `.git` |
| GithubPr.ParseRepoUrlAsWritten | tools/github_create_pr.py:92-106 | as written: every `.git` removed, then split at `/` and the segments after `github.com` read |
| GithubPr.ParseRepoUrl | tools/github_create_pr.py:92-106 | corrected: only a trailing `.git` removed, then the same reading |
| GithubPr.GithubUrlNoGit | tools/github_create_pr.py:92 | the clone URL of an owner and name without `.git` holds no `.git` |
| GithubPr.ParseAsWrittenPlainRepo | tools/github_create_pr.py:92-106 | as written, the clone URL of an owner and name without `.git`, with or without the suffix, gives back that owner and name |
| GithubPr.PagesSuffixRemoveAll | tools/github_create_pr.py:92 | `".github.io".replace(".git", "")` is `"hub.io"` |
| GithubPr.PagesRepoRemoveAll | tools/github_create_pr.py:92 | the replace turns the URL of repository `<o>.github.io` into that of `<o>hub.io` |
| GithubPr.PagesRepoMisread | tools/github_create_pr.py:92-106 | as written, repository `<o>.github.io` is read as `<o>hub.io` |
| GithubPr.PagesRepoAsWritten | tools/github_create_pr.py:92-106 | the as-written and corrected parses disagree on every `<o>.github.io` URL, and only the corrected one names that repository |
| GithubPr.TokenCheckedFirst | tools/github_create_pr.py:82-88 | without a token no request is built, whatever the URL |
| GithubPr.BuildRequest | tools/github_create_pr.py:113-128 | the pulls endpoint of the repository, the three headers and the four payload fields |
| GithubPr.RequestFrom | tools/github_create_pr.py:82-128 | the token check, the error reports of a failed parse, then the request |
| GithubPr.RequestFromIff | tools/github_create_pr.py:82-128 | whatever the parse gave: a request is built exactly when a token is set and the parse succeeded; it posts to that repository's pulls endpoint with the token and the four fields, and otherwise the answer is an `ERROR: ` report |
| GithubPr.PrepareRequest | tools/github_create_pr.py:82-128 | corrected: `RequestFrom` with the corrected parse |
| GithubPr.PrepareRequestAsWritten | tools/github_create_pr.py:82-128 | as written: `RequestFrom` with the as-written parse |
| GithubPr.PrepareRequestIff | tools/github_create_pr.py:82-128 | for the corrected tool and for the tool as written alike: a request is built exactly when a token is set and that tool's parse names a repository. It posts to that repository's pulls endpoint with the token and the four fields; otherwise the answer is an `ERROR: ` report |
| GithubPr.CreatePrOnRepository | tools/github_create_pr.py:92-115 | corrected parse: the clone URL of a repository yields a request to exactly that repository's pulls endpoint |
| GithubPr.CreatePrOnRepositoryAsWritten | tools/github_create_pr.py:92-115 | as written, a clone URL whose owner and name hold no `.git` gets the same request as corrected, to that repository's pulls endpoint |
| GithubPr.PagesRequestMisdirected | tools/github_create_pr.py:92-115 | for repository `<o>.github.io`, the tool as written posts to `<o>hub.io`, while the corrected tool posts to `<o>.github.io` |
| UsageDocs.EnvLines | scripts/generate_usage_docs.py:29-30 | one `-e` line per variable, in order |
| UsageDocs.DockerCommand | scripts/generate_usage_docs.py:21-33 | the command text is the parts joined by line breaks |
| UsageDocs.DockerPartsShape | scripts/generate_usage_docs.py:28-32 | the `podman run` line, the volume, one line per variable, the image and the command, in that order |
| UsageDocs.DockerParts | scripts/generate_usage_docs.py:28-32 | the lines of the `podman run` invocation (its properties are `DockerPartsShape` and `DockerCommandLines`) |
| UsageDocs.DockerCommandLines | scripts/generate_usage_docs.py:21-33 | the command text splits back into exactly its parts |
| UsageDocs.AssembleDoc | scripts/generate_usage_docs.py:41-121 | the lines appended are exactly `DocLines` |
| UsageDocs.HeadLines | scripts/generate_usage_docs.py:43-62 | the front matter and preamble lines |
| UsageDocs.FrontMatterLines | scripts/generate_usage_docs.py:44-49 | the six front-matter lines |
| UsageDocs.AppendSection | scripts/generate_usage_docs.py:64-77 | one section is appended after the existing lines |
| UsageDocs.DocLayout | scripts/generate_usage_docs.py:41-121 | the page length, front matter, optional exports, the five section headings with their command blocks and descriptions, and the optional notes, each at a fixed position |
| UsageDocs.DocLines | scripts/generate_usage_docs.py:41-121 | the page lines: front matter and preamble, then the five command sections in order (its property is `DocLayout`) |
| UsageDocs.RenderLines | scripts/generate_usage_docs.py:125 | the written text splits back into the page lines and a final empty piece |
| UsageDocs.GenerateUsageDoc | scripts/generate_usage_docs.py:36-127 | the native page goes to its output file and is the rendered page lines |
| UsageDocs.WrapCommand | scripts/generate_usage_docs.py:159-170 | a command is wrapped with its kind's variables, or a KeyError is raised for an unknown kind |
| UsageDocs.WrappedCommand | scripts/generate_usage_docs.py:159-170 | a command wrapped in `podman run` with its kind's variables, or KeyError for a kind missing from `env_vars` (computed by `WrapCommand`) |
| UsageDocs.DockerBlocks | scripts/generate_usage_docs.py:181-222 | the five wrapped blocks, or the KeyError of the first command, in page order, whose kind is missing (its property is `DockerBlocksIff`) |
| UsageDocs.GenerateDockerUsageDoc | scripts/generate_usage_docs.py:130-235 | the container page is the rendered lines with the wrapped blocks, or the KeyError of the first command that cannot be wrapped |
| UsageDocs.DockerBlocksIff | scripts/generate_usage_docs.py:159-222 | the container page is produced exactly when every command's kind is configured; each block is then the `podman run` form of its command, and otherwise the KeyError names the first unconfigured kind |
| UsageDocs.GenerateUsageDocs | scripts/generate_usage_docs.py:238-242 | the native page is always produced; the container page is produced exactly when every command's kind is configured, and it is then the rendered page lines with the wrapped blocks at its output file, otherwise the KeyError of the first unconfigured command |

## Left out

- The HTTP request of `GitHubCreatePRTool` and the reports built from its answer (tools/github_create_pr.py:132-177) are not modelled. The model stops at the request that would be posted.
- The AAP controller client (`AAPClient`), `AAPConfig.from_env()`, `get_settings()` and the name and description inference are parameters of the model: a `Client` value of answers, a `ConfigLoad`, `AapSettings` and two functions.
- The playbook branch of `GenerateAAPConfigTool` hands its text to `AnsibleWriteTool`. That tool is a `PlaybookWriter` parameter, so the playbook branch does not change the modelled tree.
- `ListDirectoryTool` is a `Lister` parameter. An exception from `Path.exists()` or `Path.is_dir()` themselves is not modelled; only a failing listing reaches the `except` branch.
- Jinja2 templates and the YAML emitter are not modelled as text. A generated file holds the template name with its parameters, or the document dumped.
- Reading the usage-docs content file, writing the two pages and printing are outside the model. The content is a parameter, and each generator returns its output path and text.
- UsageDocs.Content: the content is a typed record, so the failures of reading it from an untyped dict are not modelled. Any missing key raises KeyError in Python (`content["docker"]`, `config["container"]`, `shared["descriptions"]["init"]`, …); a non-text intro, description or command raises TypeError when the lines are joined, or AttributeError on `.rstrip()`; and `nav_order` is taken to be an integer, where Python formats whatever value is stored. Of these lookups only the `env_vars[env_type]` KeyError at scripts/generate_usage_docs.py:161 is modelled.
- Logging, in every file, is not modelled.
- Symbolic links, permissions and concurrent changes to the file system are not modelled. `Path.resolve()` is `Locate` on a tree without links.
- YamlValue.Lookup: returns the first entry with the key. A dict loaded by Python has distinct keys, so which of several equal keys is found is never observable there.
- YamlValue.PyInt: reads a boolean as 0 or 1 and a float as the truncated value it carries, but does not model strings with underscores between digits (`"1_000"`), non-ASCII digits, or an infinite or NaN float (which raise instead of converting). Its contract states only the integer, null, list, dict and string cases.
- Text.LowerChar: lowers only the 26 ASCII capitals. Python's `str.lower()` also lowers non-ASCII letters: the Kelvin sign U+212A becomes `k`, `É` becomes `é`, and `İ` becomes two code points. A string is an ASCII-only model of Python's `str`.
- Text.Lower: inherits the ASCII-only `LowerChar`, and always keeps the length, which `str.lower()` does not for `İ`.
- AapConfig.ParseConfigType: lowers with `Text.Lower`. So `"playboo\u212A"`, ending in the Kelvin sign, selects the playbook branch in Python but is an invalid type in the model.
- AapConfig.ParseConfigTypeIff: the selecting spelling is stated with ASCII lowering (see `AapConfig.ParseConfigType`).
- AapConfig.InvalidTypeQuoted: the quoted type is the ASCII-lowered one (see `Text.Lower`).
- AapConfig.RunOutcome: stated for the ASCII-lowered dispatch and the corrected inventory counts. The counts as written are `AapConfig.InventoryConfigEffectAsWritten`; `AapConfig.InventoryAsWrittenDiffersOnlyOnAll` says where the two differ.
- AapConfig.Run: the same two departures as `AapConfig.RunOutcome`: ASCII lowering and the corrected inventory counts.
- AapConfig.RunEffect: the same two departures as `AapConfig.RunOutcome`.
- AapConfig.GenerateInventory: reports the corrected counts (`InventoryCounts`). As written the tool reports `AsWrittenHostCount` and `AsWrittenGroupCount`; see Findings.
- AapConfig.InventoryConfigEffect: the corrected counterpart of `AapConfig.InventoryConfigEffectAsWritten`.
- AapConfig.InventoryOutcome: stated for the corrected counts, as `AapConfig.GenerateInventory` is.
- AapSync.ErrorText: the corrected text. As written, `str(e)` is recorded even when it is empty; see Findings and `AapSync.CaughtRecordedAsWritten`.
- AapSync.SyncToAap: the corrected function, using `AapSync.ErrorText`. As written it is `AapSync.SyncToAapAsWritten`; `AapSync.AsWrittenAgreesOnMessages` says the two agree on every run whose exceptions carry a message.
- AapSync.CaughtBecomesError: stated for the corrected `AapSync.SyncToAap`. As written, an exception without a message gives an enabled result with an empty error (`AapSync.CaughtRecordedAsWritten`).
- Publish.PublishAapMeansSynced: stated for the corrected sync. As written, `Publish.EmptyErrorPassesAsWritten` shows `publish_aap` returning a result for which no project was synced.
- GithubPr.PrepareRequest: the corrected tool, which drops only a trailing `.git`. As written it is `GithubPr.PrepareRequestAsWritten`; see Findings.
- GithubPr.PrepareRequestIff: states the same iff for the corrected and the as-written tool. Which repository the as-written tool names differs for `<o>.github.io` (`GithubPr.PagesRequestMisdirected`).
- GithubPr.CreatePrOnRepository: stated for the corrected tool. `GithubPr.CreatePrOnRepositoryAsWritten` gives the same request as written when the owner and name hold no `.git`.
- GithubPr.StripGitSuffix: drops `.git` only when it ends the URL, and the corrected parse assumes a URL without a trailing `/`. On `https://github.com/o/r.git/` it keeps the name `r.git`, where the as-written `replace` gives `r`.
- GithubPr.ParseRepoUrl: inherits the `GithubPr.StripGitSuffix` assumption; `GithubPr.ParseRepoUrlRoundTrip` is stated for URLs built without a trailing `/`.
- FileTree.CopyTree: a copy that would walk into its own destination fails at once with `EntersDestination` and leaves the tree unchanged. That is a destination at least two levels under the source whose first component below the source exists and is not excluded. `shutil.copytree` instead copies into the directories it is creating, leaving partial copies behind, or copies only the chain of directories when a deeper component is excluded. The endless case stops when a path grows too long (a `shutil.Error`) or at Python's recursion limit (a `RecursionError`, reported with the "Unexpected error copying role" prefix). The model always gives the `shutil.Error` prefix, and its fault text is not Python's message. When the destination lies below a file, the model's `NotADirectory` names the destination; `os.makedirs` names the first missing directory below the file.
- PublisherTools.CopyRoleEffect: inherits the `FileTree.CopyTree` departure. A destination that the copy would walk into is refused with the tree as cleared, where Python leaves partial copies behind.
- PublisherTools.CopyRoleDirectory: the same departure as `PublisherTools.CopyRoleEffect`, whose outcome and tree it produces.
- PublisherTools.GenerateFileSucceeds: stated only for paths whose last component is not `..`, because writing to such a path depends on how the platform resolves it.
- AapConfig.MergeHosts: the `extend` at tools/generate_aap_config.py:302 also lengthens the caller's `inventory_hosts` list through aliasing. The model keeps that only through its effect on the reported count (`SharedHosts`).
- The exception chaining (`raise … from e`) and the traceback are not modelled; only the exception kind and message are.

## Findings

| source | as written | input that shows it | evidently intended | confidence | as-written member | corrected member |
|---|---|---|---|---|---|---|
| tools/github_create_pr.py:92 | `repository_url.replace(".git", "")` removes every `.git`, not just the suffix | `https://github.com/o/o.github.io` is read as repository `ohub.io` | drop only a trailing `.git` | not executed | GithubPr.PagesRepoAsWritten | GithubPr.ParseRepoUrlRoundTrip |
| tools/generate_aap_config.py:320-325 | the host count adds `len(inventory_hosts)`, which line 302 has already extended, to every group's size; the group count adds one for "all" even when "all" is one of the groups | `inventory_hosts=["h1"]`, `groups={"all": ["h2"]}` reports 3 hosts and 2 groups for an inventory of 2 hosts in 1 group | count each host entry given once, and each written group once | not executed | AapConfig.AsWrittenCountsCounterexample | AapConfig.InventoryCountsExact |
| src/publishers/tools.py:651-652 and src/publishers/publish.py:166 | a caught exception is recorded as `str(e)`, which is empty for an exception raised without a message; `publish_aap` then treats the run as a success | `find_organization_id` raising `RuntimeError()` makes `publish_aap` return an enabled result with no project | record a non-empty error (the exception's class name) so the failure is raised | not executed | Publish.EmptyErrorPassesAsWritten | Publish.EmptyErrorRefusedWhenCorrected |

=== FILE: aap_config.dfy ===
/**
  * `GenerateAAPConfigTool`: writes an Ansible playbook, an AAP job template or
  * an AAP inventory, and reports the outcome as text. Every failure is a
  * message starting with "ERROR: ", never an exception.
  */
module AapConfig {

  import opened Results
  import opened Text
  import opened Paths
  import opened YamlValue
  import opened FileTree
  import PublisherTools

  /* ---------------- dispatch ---------------- */

  datatype ConfigType = PlaybookConfig | JobTemplateConfig | InventoryConfig

  /** The name `config_type` must have, once lower-cased, to select `k`. */
  function ConfigName(k: ConfigType): string
  {
    match k
    case PlaybookConfig => "playbook"
    case JobTemplateConfig => "job_template"
    case InventoryConfig => "inventory"
  }

  /** `config_type.lower()` compared against the three names. */
  function ParseConfigType(configType: string): (r: Option<ConfigType>)
  {
    var lowered := Lower(configType);
    if lowered == "playbook" then Some(PlaybookConfig)
    else if lowered == "job_template" then Some(JobTemplateConfig)
    else if lowered == "inventory" then Some(InventoryConfig)
    else None
  }

  /** A type is selected exactly by its own name in any letter case, and a
      string matching none of the names selects nothing. */
  lemma ParseConfigTypeIff(configType: string, k: ConfigType)
    ensures ParseConfigType(configType) == Some(k) <==> Lower(configType) == ConfigName(k)
    ensures ParseConfigType(configType).None? <==>
              forall k' :: Lower(configType) != ConfigName(k')
  {
    var lowered := Lower(configType);
    assert ConfigName(PlaybookConfig) == "playbook";
    assert ConfigName(JobTemplateConfig) == "job_template";
    assert ConfigName(InventoryConfig) == "inventory";
    assert "playbook" != "job_template" && "playbook" != "inventory" && "job_template" != "inventory";
    if ParseConfigType(configType).None? {
      forall k' ensures lowered != ConfigName(k') {
        match k'
        case PlaybookConfig =>
        case JobTemplateConfig =>
        case InventoryConfig =>
      }
    }
  }

  /** A success report. */
  function Reported(detail: string): string
  {
    "Successfully " + detail
  }

  /** Error and success reports are told apart by their first word. */
  lemma ReportKinds(detail: string)
    ensures StartsWith(Error(detail), "ERROR: ") && !StartsWith(Error(detail), "Successfully")
    ensures StartsWith(Reported(detail), "Successfully") && !StartsWith(Reported(detail), "ERROR: ")
  {
    assert Error(detail)[..7] == "ERROR: ";
    assert Error(detail)[0] == 'E';
    assert Reported(detail)[..12] == "Successfully";
    assert Reported(detail)[0] == 'S';
  }

  const ValidTypes := ". Must be 'playbook', " + "'job_template', or 'inventory'."

  function InvalidTypeMessage(configType: string): string
  {
    Error("Invalid config_type " + Quoted(Lower(configType)) + ValidTypes)
  }

  /** The rejection of an unknown type is an error report quoting the type, lower-cased. */
  lemma InvalidTypeQuoted(configType: string)
    ensures StartsWith(InvalidTypeMessage(configType), "ERROR: ")
    ensures Contains(InvalidTypeMessage(configType), Quoted(Lower(configType)))
  {
    ErrorContains("Invalid config_type ", Quoted(Lower(configType)), ValidTypes);
  }

  /* ---------------- playbooks ---------------- */

  /** A value of the `vars` mapping: a string is written quoted, anything else
      as Python prints it (`shown`). */
  datatype VarValue = StrVar(s: string) | OtherVar(shown: string)

  function VarLine(key: string, v: VarValue): string
  {
    match v
    case StrVar(s) => "    " + key + ": '" + s + "'"
    case OtherVar(shown) => "    " + key + ": " + shown
  }

  function VarLines(vars: seq<(string, VarValue)>): (r: seq<string>)
    ensures |r| == |vars|
    ensures forall i :: 0 <= i < |vars| ==> r[i] == VarLine(vars[i].0, vars[i].1)
    decreases |vars|
  {
    if |vars| == 0 then []
    else VarLines(vars[..|vars| - 1]) + [VarLine(vars[|vars| - 1].0, vars[|vars| - 1].1)]
  }

  /** The playbook's lines, before they are joined with newlines. */
  function PlaybookLines(name: string, roleName: string, hosts: string, become: bool,
                         vars: seq<(string, VarValue)>): seq<string>
  {
    PlayHead(name, hosts) + BecomeBlock(become) + VarsBlock(vars) + RolesBlock(roleName)
  }

  function PlayHead(name: string, hosts: string): seq<string>
  {
    ["---", "- name: " + name, "  hosts: " + hosts]
  }

  function BecomeBlock(become: bool): seq<string>
  {
    if become then ["  become: true"] else []
  }

  function VarsBlock(vars: seq<(string, VarValue)>): seq<string>
  {
    if |vars| > 0 then ["  vars:"] + VarLines(vars) else []
  }

  function RolesBlock(roleName: string): seq<string>
  {
    ["  roles:", "    - " + roleName]
  }

  /** The playbook text handed to the writer. */
  function PlaybookText(name: string, roleName: string, hosts: string, become: bool,
                        vars: seq<(string, VarValue)>): string
  {
    Join(PlaybookLines(name, roleName, hosts, become, vars), "\n")
  }

  /** The fixed lines of a playbook and its length. */
  lemma PlaybookFixedLines(name: string, roleName: string, hosts: string, become: bool,
                           vars: seq<(string, VarValue)>)
    ensures var lines := PlaybookLines(name, roleName, hosts, become, vars);
            && |lines| == 5 + (if become then 1 else 0) + (if |vars| > 0 then 1 + |vars| else 0)
            && lines[0] == "---" && lines[1] == "- name: " + name && lines[2] == "  hosts: " + hosts
            && lines[|lines| - 2] == "  roles:" && lines[|lines| - 1] == "    - " + roleName
  {
  }

  /** Where the optional lines of a playbook sit. */
  lemma PlaybookOptionalLines(name: string, roleName: string, hosts: string, become: bool,
                              vars: seq<(string, VarValue)>)
    ensures var lines := PlaybookLines(name, roleName, hosts, become, vars);
            var b := if become then 1 else 0;
            && (become ==> lines[3] == "  become: true")
            && (|vars| > 0 ==> lines[3 + b] == "  vars:")
            && (forall i :: 0 <= i < |vars| ==> lines[4 + b + i] == VarLine(vars[i].0, vars[i].1))
  {
    if become {
      BecomeLineAt(name, roleName, hosts, vars);
    }
    if |vars| > 0 {
      VarLinesAt(name, roleName, hosts, become, vars);
    }
  }

  lemma BecomeLineAt(name: string, roleName: string, hosts: string, vars: seq<(string, VarValue)>)
    ensures PlaybookLines(name, roleName, hosts, true, vars)[3] == "  become: true"
  {
    var a := PlayHead(name, hosts) + BecomeBlock(true);
    assert PlaybookLines(name, roleName, hosts, true, vars)[3] == a[3];
  }

  lemma VarLinesAt(name: string, roleName: string, hosts: string, become: bool, vars: seq<(string, VarValue)>)
    requires |vars| > 0
    ensures var lines := PlaybookLines(name, roleName, hosts, become, vars);
            var b := if become then 1 else 0;
            && lines[3 + b] == "  vars:"
            && (forall i :: 0 <= i < |vars| ==> lines[4 + b + i] == VarLine(vars[i].0, vars[i].1))
  {
    var a := PlayHead(name, hosts) + BecomeBlock(become);
    var lines := PlaybookLines(name, roleName, hosts, become, vars);
    VarsBlockLines(a, vars, RolesBlock(roleName));
    var b := if become then 1 else 0;
    assert |a| == 3 + b;
    forall i | 0 <= i < |vars| ensures lines[4 + b + i] == VarLine(vars[i].0, vars[i].1) {
      assert 4 + b + i == |a| + 1 + i;
    }
  }

  /** The vars block between `a` and `z`: its header, then one line per variable. */
  lemma VarsBlockLines(a: seq<string>, vars: seq<(string, VarValue)>, z: seq<string>)
    requires |vars| > 0
    ensures var lines := a + VarsBlock(vars) + z;
            && lines[|a|] == "  vars:"
            && forall i :: 0 <= i < |vars| ==> lines[|a| + 1 + i] == VarLine(vars[i].0, vars[i].1)
  {
    var vs := VarsBlock(vars);
    VarsBlockAt(vars);
    forall j | 0 <= j < |vs| ensures (a + vs + z)[|a| + j] == vs[j] {
      MiddleAt(a, vs, z, j);
    }
  }

  /** The vars block is its header followed by one line per variable. */
  lemma VarsBlockAt(vars: seq<(string, VarValue)>)
    requires |vars| > 0
    ensures var vs := VarsBlock(vars);
            && |vs| == 1 + |vars| && vs[0] == "  vars:"
            && forall i :: 0 <= i < |vars| ==> vs[1 + i] == VarLine(vars[i].0, vars[i].1)
  {
  }

  lemma MiddleAt(a: seq<string>, m: seq<string>, z: seq<string>, j: nat)
    requires j < |m|
    ensures (a + m + z)[|a| + j] == m[j]
  {
  }

  /** The playbook opens with the document marker, the play name and its
      hosts; the become line and the vars block appear only when asked for,
      every variable gets its own line in order, and the role closes the play. */
  lemma PlaybookLinesShape(name: string, roleName: string, hosts: string, become: bool,
                           vars: seq<(string, VarValue)>)
    ensures var lines := PlaybookLines(name, roleName, hosts, become, vars);
            var b := if become then 1 else 0;
            var v := if |vars| > 0 then 1 + |vars| else 0;
            |lines| == 5 + b + v
            && lines[0] == "---" && lines[1] == "- name: " + name && lines[2] == "  hosts: " + hosts
            && (become ==> lines[3] == "  become: true")
            && (|vars| > 0 ==> lines[3 + b] == "  vars:")
            && (forall i :: 0 <= i < |vars| ==> lines[4 + b + i] == VarLine(vars[i].0, vars[i].1))
            && lines[|lines| - 2] == "  roles:" && lines[|lines| - 1] == "    - " + roleName
  {
    PlaybookFixedLines(name, roleName, hosts, become, vars);
    PlaybookOptionalLines(name, roleName, hosts, become, vars);
  }

  /** The privilege-escalation line is present exactly when `become` is set:
      no other line of the playbook can read "  become: true". */
  lemma BecomeLineIff(name: string, roleName: string, hosts: string, become: bool,
                      vars: seq<(string, VarValue)>)
    ensures "  become: true" in PlaybookLines(name, roleName, hosts, become, vars) <==> become
  {
    if become {
      BecomeLinePresent(name, roleName, hosts, vars);
    } else {
      BecomeLineAbsent(name, roleName, hosts, vars);
    }
  }

  lemma BecomeLinePresent(name: string, roleName: string, hosts: string, vars: seq<(string, VarValue)>)
    ensures "  become: true" in PlaybookLines(name, roleName, hosts, true, vars)
  {
    var lines := PlaybookLines(name, roleName, hosts, true, vars);
    assert lines[3] == BecomeBlock(true)[0];
  }

  lemma BecomeLineAbsent(name: string, roleName: string, hosts: string, vars: seq<(string, VarValue)>)
    ensures "  become: true" !in PlaybookLines(name, roleName, hosts, false, vars)
  {
    BecomeNotInBlocks(name, roleName, hosts, vars);
    var head, vs, roles := PlayHead(name, hosts), VarsBlock(vars), RolesBlock(roleName);
    assert PlaybookLines(name, roleName, hosts, false, vars) == head + vs + roles;
    assert "  become: true" !in head + vs;
  }

  /** Only the become block holds the become line: every other line differs
      from it in its third character. */
  lemma BecomeNotInBlocks(name: string, roleName: string, hosts: string, vars: seq<(string, VarValue)>)
    ensures "  become: true" !in PlayHead(name, hosts)
    ensures "  become: true" !in VarsBlock(vars)
    ensures "  become: true" !in RolesBlock(roleName)
  {
    var line := "  become: true";
    assert line[2] == 'b';
    var head := PlayHead(name, hosts);
    forall i | 0 <= i < |head| ensures head[i] != line {
      assert head[i][0] == '-' || head[i][2] == 'h';
    }
    var vs := VarsBlock(vars);
    forall i | 0 <= i < |vs| ensures vs[i] != line {
      if i > 0 {
        assert vs[i] == VarLine(vars[i - 1].0, vars[i - 1].1);
      }
      assert vs[i][2] != 'b';
    }
    var roles := RolesBlock(roleName);
    forall i | 0 <= i < |roles| ensures roles[i] != line {
      assert roles[i][2] != 'b';
    }
  }

  /** Splitting the written text at newlines gives the lines back, as long as
      no argument carries a newline of its own. */
  lemma PlaybookTextLines(name: string, roleName: string, hosts: string, become: bool,
                          vars: seq<(string, VarValue)>)
    requires '\n' !in name && '\n' !in roleName && '\n' !in hosts
    requires forall i :: 0 <= i < |vars| ==> '\n' !in VarLine(vars[i].0, vars[i].1)
    ensures Split(PlaybookText(name, roleName, hosts, become, vars), '\n')
            == PlaybookLines(name, roleName, hosts, become, vars)
  {
    PlaybookLinesNoNewlines(name, roleName, hosts, become, vars);
    SplitJoin(PlaybookLines(name, roleName, hosts, become, vars), '\n');
  }

  lemma PlaybookLinesNoNewlines(name: string, roleName: string, hosts: string, become: bool,
                                vars: seq<(string, VarValue)>)
    requires '\n' !in name && '\n' !in roleName && '\n' !in hosts
    requires forall i :: 0 <= i < |vars| ==> '\n' !in VarLine(vars[i].0, vars[i].1)
    ensures NoNewlines(PlaybookLines(name, roleName, hosts, become, vars))
  {
    var head := PlayHead(name, hosts);
    var b := BecomeBlock(become);
    var v := VarsBlock(vars);
    var tail := RolesBlock(roleName);
    HeadNoNewlines(name, hosts);
    VarsNoNewlines(vars);
    RolesNoNewlines(roleName);
    NoNewlinesAppend(head, b);
    NoNewlinesAppend(head + b, v);
    NoNewlinesAppend(head + b + v, tail);
  }

  lemma HeadNoNewlines(name: string, hosts: string)
    requires '\n' !in name && '\n' !in hosts
    ensures NoNewlines(PlayHead(name, hosts))
  {
    assert '\n' !in "---" && '\n' !in "- name: " && '\n' !in "  hosts: ";
  }

  lemma VarsNoNewlines(vars: seq<(string, VarValue)>)
    requires forall i :: 0 <= i < |vars| ==> '\n' !in VarLine(vars[i].0, vars[i].1)
    ensures NoNewlines(VarsBlock(vars))
  {
    var v := VarsBlock(vars);
    if |vars| > 0 {
      forall i | 0 <= i < |v| ensures '\n' !in v[i] {
        if i > 0 {
          assert v[i] == VarLine(vars[i - 1].0, vars[i - 1].1);
        }
      }
    }
  }

  lemma RolesNoNewlines(roleName: string)
    requires '\n' !in roleName
    ensures NoNewlines(RolesBlock(roleName))
  {
    assert '\n' !in "  roles:" && '\n' !in "    - ";
  }

  predicate NoNewlines(lines: seq<string>)
  {
    forall i :: 0 <= i < |lines| ==> '\n' !in lines[i]
  }

  lemma NoNewlinesAppend(a: seq<string>, b: seq<string>)
    requires NoNewlines(a) && NoNewlines(b)
    ensures NoNewlines(a + b)
  {
    forall i | 0 <= i < |a + b| ensures '\n' !in (a + b)[i] {
      if i >= |a| {
        assert (a + b)[i] == b[i - |a|];
      }
    }
  }

  /** Building the lines the way the tool does: a list grown line by line. */
  method BuildPlaybookLines(name: string, roleName: string, hosts: string, become: bool,
                            vars: seq<(string, VarValue)>)
    returns (lines: seq<string>)
    ensures lines == PlaybookLines(name, roleName, hosts, become, vars)
  {
    lines := ["---"];
    lines := lines + ["- name: " + name];
    lines := lines + ["  hosts: " + hosts];
    if become {
      lines := lines + ["  become: true"];
    }
    assert lines == PlayHead(name, hosts) + BecomeBlock(become);
    lines := AppendVarsBlock(lines, vars);
    lines := AppendRolesBlock(lines, roleName);
  }

  /** The closing roles block. */
  method AppendRolesBlock(lines: seq<string>, roleName: string) returns (r: seq<string>)
    ensures r == lines + RolesBlock(roleName)
  {
    r := lines + ["  roles:"];
    r := r + ["    - " + roleName];
  }

  /** The vars block, appended when there are variables. */
  method AppendVarsBlock(lines: seq<string>, vars: seq<(string, VarValue)>) returns (r: seq<string>)
    ensures r == lines + VarsBlock(vars)
  {
    r := lines;
    if |vars| > 0 {
      r := r + ["  vars:"];
      r := AppendVarLines(r, vars);
    }
  }

  /** The vars block: one line per variable, appended in order. */
  method AppendVarLines(lines: seq<string>, vars: seq<(string, VarValue)>) returns (r: seq<string>)
    ensures r == lines + VarLines(vars)
  {
    r := lines;
    for i := 0 to |vars|
      invariant r == lines + VarLines(vars[..i])
    {
      assert vars[..i + 1][..i] == vars[..i];
      r := r + [VarLine(vars[i].0, vars[i].1)];
    }
    assert vars[..|vars|] == vars;
  }

  /** `AnsibleWriteTool._run(file_path, yaml_content)`: the message it returns,
      or the exception it raises. */
  type PlaybookWriter = (string, string) -> Result<string, Exc>

  function PlaybookSuccess(filePath: string, name: string, roleName: string, hosts: string): string
  {
    Reported("generated playbook YAML at " + filePath + "\nPlaybook: " + name + "\nRole: " + roleName
             + "\nHosts: " + hosts)
  }

  /** `_generate_playbook`. */
  function PlaybookResult(writer: PlaybookWriter, filePath: string, name: string, roleName: string,
                          hosts: string, become: bool, vars: seq<(string, VarValue)>): string
  {
    if roleName == "" then Error("role_name is required for playbook generation")
    else
      match writer(filePath, PlaybookText(name, roleName, hosts, become, vars))
      case Failure(e) => Error("Failed to generate playbook YAML: " + e.msg)
      case Success(res) =>
        if StartsWith(res, "Successfully") then PlaybookSuccess(filePath, name, roleName, hosts)
        else Error("Failed to generate playbook: " + res)
  }

  /** Without a role name the writer is never consulted; otherwise the writer
      receives the playbook text for the requested file, and the tool reports
      success exactly when the writer did. */
  lemma PlaybookOutcome(writer: PlaybookWriter, filePath: string, name: string, roleName: string,
                        hosts: string, become: bool, vars: seq<(string, VarValue)>)
    ensures var msg := PlaybookResult(writer, filePath, name, roleName, hosts, become, vars);
            var w := writer(filePath, PlaybookText(name, roleName, hosts, become, vars));
            (roleName == "" ==> msg == Error("role_name is required for playbook generation"))
            && (roleName != "" ==>
                  (StartsWith(msg, "Successfully") <==> w.Success? && StartsWith(w.value, "Successfully")))
            && (StartsWith(msg, "Successfully") ==> msg == PlaybookSuccess(filePath, name, roleName, hosts))
            && (!StartsWith(msg, "Successfully") ==> StartsWith(msg, "ERROR: "))
  {
    var msg := PlaybookResult(writer, filePath, name, roleName, hosts, become, vars);
    if roleName == "" {
      ReportKinds("role_name is required for playbook generation");
    } else {
      var w := writer(filePath, PlaybookText(name, roleName, hosts, become, vars));
      if w.Failure? {
        ReportKinds("Failed to generate playbook YAML: " + w.error.msg);
      } else if !StartsWith(w.value, "Successfully") {
        ReportKinds("Failed to generate playbook: " + w.value);
      } else {
        ReportKinds("generated playbook YAML at " + filePath + "\nPlaybook: " + name + "\nRole: " + roleName
                    + "\nHosts: " + hosts);
      }
    }
  }

  method GeneratePlaybook(writer: PlaybookWriter, filePath: string, name: string, roleName: string,
                          hosts: string, become: bool, vars: seq<(string, VarValue)>)
    returns (msg: string)
    ensures msg == PlaybookResult(writer, filePath, name, roleName, hosts, become, vars)
  {
    if roleName == "" {
      return Error("role_name is required for playbook generation");
    }
    var lines := BuildPlaybookLines(name, roleName, hosts, become, vars);
    var result := writer(filePath, Join(lines, "\n"));
    if result.Failure? {
      return Error("Failed to generate playbook YAML: " + result.error.msg);
    }
    if StartsWith(result.value, "Successfully") {
      msg := PlaybookSuccess(filePath, name, roleName, hosts);
    } else {
      msg := Error("Failed to generate playbook: " + result.value);
    }
  }

  /* ---------------- job templates ---------------- */

  /** The `extra_vars` entry: whatever `yaml.safe_load` returns (an empty
      document included), or the raw text when it does not parse. */
  function ExtraVarsEntry(parseText: PublisherTools.TextParser, extraVars: string): Yaml
  {
    match parseText(extraVars)
    case Success(v) => v
    case Failure(_) => YStr(extraVars)
  }

  function JobTemplateSpec(parseText: PublisherTools.TextParser, name: string, playbookPath: string,
                           inventory: string, roleName: string, description: string, extraVars: string)
    : seq<(string, Yaml)>
  {
    [("name", YStr(name)), ("job_type", YStr("run")), ("playbook", YStr(playbookPath)),
     ("inventory", YStr(inventory))]
    + (if description != "" then [("description", YStr(description))] else [])
    + (if roleName != "" then [("role_name", YStr(roleName))] else [])
    + (if extraVars != "" then [("extra_vars", ExtraVarsEntry(parseText, extraVars))] else [])
  }

  function JobTemplateDoc(parseText: PublisherTools.TextParser, name: string, playbookPath: string,
                          inventory: string, roleName: string, description: string, extraVars: string): Yaml
  {
    YDict([("apiVersion", YStr("tower.ansible.com/v1beta1")), ("kind", YStr("JobTemplate")),
           ("metadata", YDict([("name", YStr(name))])),
           ("spec", YDict(JobTemplateSpec(parseText, name, playbookPath, inventory, roleName, description,
                                          extraVars)))])
  }

  /** The job template's spec runs the given playbook against the given
      inventory as a "run" job under the given name. */
  lemma JobTemplateRequiredKeys(parseText: PublisherTools.TextParser, name: string, playbookPath: string,
                                inventory: string, roleName: string, description: string, extraVars: string)
    ensures var spec := JobTemplateSpec(parseText, name, playbookPath, inventory, roleName, description, extraVars);
            Lookup(spec, "name") == Some(YStr(name))
            && Lookup(spec, "job_type") == Some(YStr("run"))
            && Lookup(spec, "playbook") == Some(YStr(playbookPath))
            && Lookup(spec, "inventory") == Some(YStr(inventory))
  {
    var spec := JobTemplateSpec(parseText, name, playbookPath, inventory, roleName, description, extraVars);
    assert spec[0] == ("name", YStr(name)) && spec[1] == ("job_type", YStr("run"))
           && spec[2] == ("playbook", YStr(playbookPath)) && spec[3] == ("inventory", YStr(inventory));
    LookupDistinct(spec, 0);
    LookupDistinct(spec, 1);
    LookupDistinct(spec, 2);
    LookupDistinct(spec, 3);
  }

  /** The spec carries a description, a role name and extra variables exactly
      when those arguments are non-empty. */
  lemma JobTemplateOptionalKeys(parseText: PublisherTools.TextParser, name: string, playbookPath: string,
                                inventory: string, roleName: string, description: string, extraVars: string)
    ensures var spec := JobTemplateSpec(parseText, name, playbookPath, inventory, roleName, description, extraVars);
            Lookup(spec, "description") == (if description != "" then Some(YStr(description)) else None)
            && Lookup(spec, "role_name") == (if roleName != "" then Some(YStr(roleName)) else None)
            && Lookup(spec, "extra_vars") ==
                 (if extraVars != "" then Some(ExtraVarsEntry(parseText, extraVars)) else None)
  {
    var base := [("name", YStr(name)), ("job_type", YStr("run")), ("playbook", YStr(playbookPath)),
                 ("inventory", YStr(inventory))];
    var d := if description != "" then [("description", YStr(description))] else [];
    var r := if roleName != "" then [("role_name", YStr(roleName))] else [];
    var x := if extraVars != "" then [("extra_vars", ExtraVarsEntry(parseText, extraVars))] else [];
    assert JobTemplateSpec(parseText, name, playbookPath, inventory, roleName, description, extraVars)
           == base + (d + (r + x));
    assert Lookup(base, "description").None? && Lookup(base, "role_name").None? && Lookup(base, "extra_vars").None?;
    LookupAppend(base, d + (r + x), "description");
    LookupAppend(d, r + x, "description");
    LookupAppend(base, d + (r + x), "role_name");
    LookupAppend(d, r + x, "role_name");
    LookupAppend(r, x, "role_name");
    LookupAppend(base, d + (r + x), "extra_vars");
    LookupAppend(d, r + x, "extra_vars");
    LookupAppend(r, x, "extra_vars");
  }

  /** Looking a key up in two mappings written one after the other. */
  lemma {:induction false} LookupAppend(a: seq<(string, Yaml)>, b: seq<(string, Yaml)>, key: string)
    ensures Lookup(a + b, key) == if Lookup(a, key).Some? then Lookup(a, key) else Lookup(b, key)
  {
    if |a| > 0 {
      assert (a + b)[1..] == a[1..] + b;
      LookupAppend(a[1..], b, key);
    } else {
      assert a + b == b;
    }
  }

  function JobTemplateSuccess(filePath: string, name: string, playbookPath: string, inventory: string): string
  {
    Reported("generated job template YAML at " + filePath + "\nJob template: " + name
             + "\nPlaybook: " + playbookPath + "\nInventory: " + inventory)
  }

  /** Writing a generated document the way both generators do (parent
      directories first, then the file), reporting `success`, or the error as
      "ERROR: Failed to generate <what>: " followed by the OS error. */
  function WriteReport(t: Tree, cwd: seq<string>, filePath: string, doc: Yaml, what: string, success: string)
    : (string, Tree)
  {
    var (o, t') := PublisherTools.GenerateFileEffect(t, cwd, filePath, Dumped(doc), what);
    (if o.Fail? then Error(o.error.msg) else success, t')
  }

  /** A reported success leaves the document at the file; anything else is
      the write error. Either way the tree stays well formed. */
  lemma WriteReportOutcome(t: Tree, cwd: seq<string>, filePath: string, doc: Yaml, what: string, success: string)
    requires WellFormed(t)
    requires StartsWith(success, "Successfully")
    ensures var (msg, t') := WriteReport(t, cwd, filePath, doc, what, success);
            var k := Locate(cwd, ParsePath(filePath));
            WellFormed(t')
            && (StartsWith(msg, "Successfully") ==> msg == success && k in t' && t'[k] == File(Dumped(doc)))
            && (!StartsWith(msg, "Successfully") ==> StartsWith(msg, FailedPrefix(what)))
  {
    PublisherTools.GenerateFileResult(t, cwd, filePath, Dumped(doc), what);
    var r := PublisherTools.GenerateFileEffect(t, cwd, filePath, Dumped(doc), what);
    if r.0.Fail? {
      ErrorPrefix(r.0.error.msg, "Failed to generate " + what + ": ");
      ReportKinds(r.0.error.msg);
    }
  }

  method WriteReported(fs: FileSystem, filePath: string, doc: Yaml, what: string, success: string)
    returns (msg: string)
    requires fs.Valid()
    modifies fs
    ensures fs.Valid()
    ensures (msg, fs.tree) == WriteReport(old(fs.tree), fs.cwd, filePath, doc, what, success)
  {
    var o := PublisherTools.GenerateFile(fs, filePath, Dumped(doc), what);
    if o.Fail? {
      msg := Error(o.error.msg);
    } else {
      msg := success;
    }
  }

  /** `_generate_job_template`: both required arguments are checked, in
      order, before the document is written. */
  function JobTemplateConfigEffect(t: Tree, cwd: seq<string>, parseText: PublisherTools.TextParser,
                                   filePath: string, name: string, playbookPath: string, inventory: string,
                                   roleName: string, description: string, extraVars: string): (string, Tree)
  {
    if playbookPath == "" then (Error("playbook_path is required for job_template generation"), t)
    else if inventory == "" then (Error("inventory is required for job_template generation"), t)
    else
      WriteReport(t, cwd, filePath,
                  JobTemplateDoc(parseText, name, playbookPath, inventory, roleName, description, extraVars),
                  "job template YAML", JobTemplateSuccess(filePath, name, playbookPath, inventory))
  }

  /** A missing playbook or inventory leaves the tree alone; a reported success
      leaves the job template document at the file; any other outcome is the
      write error. */
  lemma JobTemplateOutcome(t: Tree, cwd: seq<string>, parseText: PublisherTools.TextParser, filePath: string,
                           name: string, playbookPath: string, inventory: string, roleName: string,
                           description: string, extraVars: string)
    requires WellFormed(t)
    ensures var (msg, t') := JobTemplateConfigEffect(t, cwd, parseText, filePath, name, playbookPath, inventory,
                                                     roleName, description, extraVars);
            var k := Locate(cwd, ParsePath(filePath));
            WellFormed(t')
            && ((playbookPath == "" || inventory == "") ==> t' == t && StartsWith(msg, "ERROR: "))
            && (StartsWith(msg, "Successfully") ==>
                  k in t' && t'[k] == File(Dumped(JobTemplateDoc(parseText, name, playbookPath, inventory,
                                                                 roleName, description, extraVars))))
            && (playbookPath != "" && inventory != "" && !StartsWith(msg, "Successfully") ==>
                  StartsWith(msg, FailedPrefix("job template YAML")))
  {
    if playbookPath == "" {
      ReportKinds("playbook_path is required for job_template generation");
    } else if inventory == "" {
      ReportKinds("inventory is required for job_template generation");
    } else {
      var success := JobTemplateSuccess(filePath, name, playbookPath, inventory);
      ReportKinds("generated job template YAML at " + filePath + "\nJob template: " + name
                  + "\nPlaybook: " + playbookPath + "\nInventory: " + inventory);
      WriteReportOutcome(t, cwd, filePath,
                         JobTemplateDoc(parseText, name, playbookPath, inventory, roleName, description, extraVars),
                         "job template YAML", success);
    }
  }

  /** How a write error report begins. */
  function FailedPrefix(what: string): string
  {
    "ERROR: " + ("Failed to generate " + what + ": ")
  }

  method GenerateJobTemplate(fs: FileSystem, parseText: PublisherTools.TextParser, filePath: string, name: string,
                             playbookPath: string, inventory: string, roleName: string, description: string,
                             extraVars: string)
    returns (msg: string)
    requires fs.Valid()
    modifies fs
    ensures fs.Valid()
    ensures (msg, fs.tree) == JobTemplateConfigEffect(old(fs.tree), fs.cwd, parseText, filePath, name, playbookPath,
                                                      inventory, roleName, description, extraVars)
  {
    if playbookPath == "" {
      return Error("playbook_path is required for job_template generation");
    }
    if inventory == "" {
      return Error("inventory is required for job_template generation");
    }
    var doc := JobTemplateDoc(parseText, name, playbookPath, inventory, roleName, description, extraVars);
    msg := WriteReported(fs, filePath, doc, "job template YAML", JobTemplateSuccess(filePath, name, playbookPath,
                                                                                    inventory));
  }

  /* ---------------- inventories ---------------- */

  /** Group names with their host lists, in insertion order (a Python dict of lists). */
  type HostGroups = seq<(string, seq<string>)>

  predicate DistinctKeys(entries: HostGroups)
  {
    forall i, j :: 0 <= i < j < |entries| ==> entries[i].0 != entries[j].0
  }

  predicate HasKey(entries: HostGroups, key: string)
  {
    exists i :: 0 <= i < |entries| && entries[i].0 == key
  }

  /** `d.get(key)` on a group mapping. */
  function HostsOf(entries: HostGroups, key: string): (r: Option<seq<string>>)
    ensures r.Some? <==> HasKey(entries, key)
    decreases |entries|
  {
    if |entries| == 0 then None
    else if entries[|entries| - 1].0 == key then Some(entries[|entries| - 1].1)
    else
      var r := HostsOf(entries[..|entries| - 1], key);
      assert forall i :: 0 <= i < |entries| - 1 ==> entries[..|entries| - 1][i] == entries[i];
      r
  }

  /** Where `key` sits in a group mapping, or -1. */
  function IndexOfKey(entries: HostGroups, key: string): (i: int)
    ensures -1 <= i < |entries|
    ensures 0 <= i ==> entries[i].0 == key
    ensures i < 0 <==> !HasKey(entries, key)
    decreases |entries|
  {
    if |entries| == 0 then -1
    else if entries[|entries| - 1].0 == key then |entries| - 1
    else
      assert forall i :: 0 <= i < |entries| - 1 ==> entries[..|entries| - 1][i] == entries[i];
      IndexOfKey(entries[..|entries| - 1], key)
  }

  /** Total number of host entries over all groups. */
  function HostTotal(entries: HostGroups): nat
    decreases |entries|
  {
    if |entries| == 0 then 0
    else HostTotal(entries[..|entries| - 1]) + |entries[|entries| - 1].1|
  }

  /** The mapping written under `spec.hosts`: an "all" group for the ungrouped
      hosts when there are any, then each group in turn, a group already
      present having the new hosts appended to its list. */
  function MergeSpec(inventoryHosts: seq<string>, groups: HostGroups): (m: HostGroups)
    ensures |inventoryHosts| > 0 ==> |m| > 0 && m[0].0 == "all"
    decreases |groups|
  {
    if |groups| == 0 then (if |inventoryHosts| > 0 then [("all", inventoryHosts)] else [])
    else
      var prev := MergeSpec(inventoryHosts, groups[..|groups| - 1]);
      var g := groups[|groups| - 1].0;
      var hs := groups[|groups| - 1].1;
      var j := IndexOfKey(prev, g);
      if j < 0 then prev + [(g, hs)] else prev[j := (g, prev[j].1 + hs)]
  }

  /** Two optional host lists put together, the first one's hosts first. */
  function Combine(a: Option<seq<string>>, b: Option<seq<string>>): Option<seq<string>>
  {
    if a.None? then b else if b.None? then a else Some(a.value + b.value)
  }

  /** The ungrouped hosts, as the "all" group. */
  function Ungrouped(inventoryHosts: seq<string>, key: string): Option<seq<string>>
  {
    if key == "all" && |inventoryHosts| > 0 then Some(inventoryHosts) else None
  }

  lemma HostsOfAppend(entries: HostGroups, g: string, hs: seq<string>, key: string)
    ensures HostsOf(entries + [(g, hs)], key) == if g == key then Some(hs) else HostsOf(entries, key)
  {
    assert (entries + [(g, hs)])[..|entries|] == entries;
  }

  lemma {:induction false} HostsOfUpdate(entries: HostGroups, j: int, hs: seq<string>, key: string)
    requires 0 <= j < |entries|
    requires DistinctKeys(entries)
    ensures HostsOf(entries[j := (entries[j].0, hs)], key) ==
              if entries[j].0 == key then Some(hs) else HostsOf(entries, key)
    decreases |entries|
  {
    var n := |entries|;
    var u := entries[j := (entries[j].0, hs)];
    if j == n - 1 {
      assert u[..n - 1] == entries[..n - 1];
      if entries[j].0 != key {
        assert HostsOf(u, key) == HostsOf(u[..n - 1], key);
      }
    } else {
      var front := entries[..n - 1];
      assert u[..n - 1] == front[j := (front[j].0, hs)];
      HostsOfUpdate(front, j, hs, key);
      assert entries[n - 1].0 != entries[j].0;
    }
  }

  lemma {:induction false} HostTotalUpdate(entries: HostGroups, j: int, more: seq<string>)
    requires 0 <= j < |entries|
    ensures HostTotal(entries[j := (entries[j].0, entries[j].1 + more)]) == HostTotal(entries) + |more|
    decreases |entries|
  {
    var n := |entries|;
    var u := entries[j := (entries[j].0, entries[j].1 + more)];
    if j == n - 1 {
      assert u[..n - 1] == entries[..n - 1];
    } else {
      var front := entries[..n - 1];
      assert u[..n - 1] == front[j := (front[j].0, front[j].1 + more)];
      HostTotalUpdate(front, j, more);
    }
  }

  lemma HostTotalAppend(entries: HostGroups, g: string, hs: seq<string>)
    ensures HostTotal(entries + [(g, hs)]) == HostTotal(entries) + |hs|
  {
    assert (entries + [(g, hs)])[..|entries|] == entries;
  }

  /** The merged mapping has one entry per group name and one for "all" when
      there are ungrouped hosts and no group of that name. */
  lemma {:induction false} MergeKeys(inventoryHosts: seq<string>, groups: HostGroups)
    requires DistinctKeys(groups)
    ensures var m := MergeSpec(inventoryHosts, groups);
            DistinctKeys(m)
            && (forall key :: HasKey(m, key) <==> Ungrouped(inventoryHosts, key).Some? || HasKey(groups, key))
            && |m| == |groups| + (if |inventoryHosts| > 0 && !HasKey(groups, "all") then 1 else 0)
    decreases |groups|
  {
    if |groups| > 0 {
      var front := groups[..|groups| - 1];
      assert DistinctKeys(front);
      MergeKeys(inventoryHosts, front);
      var prev := MergeSpec(inventoryHosts, front);
      var g := groups[|groups| - 1].0;
      var m := MergeSpec(inventoryHosts, groups);
      var j := IndexOfKey(prev, g);
      assert !HasKey(front, g);
      HasKeySnoc(groups);
      if j < 0 {
        assert m[..|m| - 1] == prev;
        HasKeySnoc(m);
      } else {
        assert g == "all" && |inventoryHosts| > 0;
        HasKeySameKeys(m, prev);
      }
    }
  }

  /** The keys of a non-empty mapping are those of all but its last entry, and the last. */
  lemma HasKeySnoc(entries: HostGroups)
    requires |entries| > 0
    ensures forall key :: HasKey(entries, key) <==>
              HasKey(entries[..|entries| - 1], key) || key == entries[|entries| - 1].0
  {
    var front := entries[..|entries| - 1];
    forall key ensures HasKey(entries, key) ==> HasKey(front, key) || key == entries[|entries| - 1].0 {
      if HasKey(entries, key) {
        var i :| 0 <= i < |entries| && entries[i].0 == key;
        if i < |front| {
          assert front[i].0 == key;
        }
      }
    }
    forall key | HasKey(front, key) ensures HasKey(entries, key) {
      var i :| 0 <= i < |front| && front[i].0 == key;
      assert entries[i].0 == key;
    }
  }

  /** Mappings with the same keys in the same places have the same keys. */
  lemma HasKeySameKeys(a: HostGroups, b: HostGroups)
    requires |a| == |b| && forall i :: 0 <= i < |a| ==> a[i].0 == b[i].0
    ensures forall key :: HasKey(a, key) <==> HasKey(b, key)
  {
    forall key | HasKey(a, key) ensures HasKey(b, key) {
      var i :| 0 <= i < |a| && a[i].0 == key;
      assert b[i].0 == key;
    }
    forall key | HasKey(b, key) ensures HasKey(a, key) {
      var i :| 0 <= i < |b| && b[i].0 == key;
      assert a[i].0 == key;
    }
  }

  /** Under every group name the merged mapping holds the ungrouped hosts (for
      "all") followed by that group's own hosts: no host is lost, duplicated
      or moved to another group. */
  lemma {:induction false} MergeLookup(inventoryHosts: seq<string>, groups: HostGroups, key: string)
    requires DistinctKeys(groups)
    ensures HostsOf(MergeSpec(inventoryHosts, groups), key) ==
              Combine(Ungrouped(inventoryHosts, key), HostsOf(groups, key))
    decreases |groups|
  {
    if |groups| > 0 {
      var front := groups[..|groups| - 1];
      assert DistinctKeys(front);
      var prev := MergeSpec(inventoryHosts, front);
      var g := groups[|groups| - 1].0;
      var hs := groups[|groups| - 1].1;
      var j := IndexOfKey(prev, g);
      MergeLookup(inventoryHosts, front, key);
      MergeLookup(inventoryHosts, front, g);
      MergeKeys(inventoryHosts, front);
      if j < 0 {
        HostsOfAppend(prev, g, hs, key);
      } else {
        HostsOfUpdate(prev, j, prev[j].1 + hs, key);
        HostsOfKeyAt(prev, j);
      }
    }
  }

  lemma {:induction false} HostsOfKeyAt(entries: HostGroups, j: int)
    requires 0 <= j < |entries| && DistinctKeys(entries)
    ensures HostsOf(entries, entries[j].0) == Some(entries[j].1)
    decreases |entries|
  {
    if j < |entries| - 1 {
      HostsOfKeyAt(entries[..|entries| - 1], j);
    }
  }

  /** Every host entry given is written exactly once: the merged mapping holds
      as many host entries as the ungrouped list and the groups together. */
  lemma {:induction false} MergeTotal(inventoryHosts: seq<string>, groups: HostGroups)
    ensures HostTotal(MergeSpec(inventoryHosts, groups)) == |inventoryHosts| + HostTotal(groups)
    decreases |groups|
  {
    if |groups| == 0 {
      if |inventoryHosts| > 0 {
        assert HostTotal([("all", inventoryHosts)]) == HostTotal([]) + |inventoryHosts|;
      }
    } else {
      var front := groups[..|groups| - 1];
      MergeTotal(inventoryHosts, front);
      var prev := MergeSpec(inventoryHosts, front);
      var g := groups[|groups| - 1].0;
      var hs := groups[|groups| - 1].1;
      var j := IndexOfKey(prev, g);
      if j < 0 {
        HostTotalAppend(prev, g, hs);
      } else {
        HostTotalUpdate(prev, j, hs);
      }
    }
  }

  /** The merge loop of `_generate_inventory`. The "all" entry is built around
      the caller's `inventory_hosts` list itself, so extending that entry also
      extends the caller's list: `shared` is that list afterwards. */
  method MergeHosts(inventoryHosts: seq<string>, groups: HostGroups)
    returns (merged: HostGroups, shared: seq<string>)
    ensures merged == MergeSpec(inventoryHosts, groups)
    ensures shared == SharedHosts(inventoryHosts, groups)
  {
    merged := [];
    shared := inventoryHosts;
    if |inventoryHosts| > 0 {
      merged := [("all", inventoryHosts)];
    }
    for i := 0 to |groups|
      invariant merged == MergeSpec(inventoryHosts, groups[..i])
      invariant |inventoryHosts| > 0 ==> shared == merged[0].1
      invariant |inventoryHosts| == 0 ==> shared == inventoryHosts
    {
      assert groups[..i + 1][..i] == groups[..i];
      var g := groups[i].0;
      var hs := groups[i].1;
      var j := IndexOfKey(merged, g);
      if j < 0 {
        merged := merged + [(g, hs)];
      } else {
        merged := merged[j := (g, merged[j].1 + hs)];
        if |inventoryHosts| > 0 && j == 0 {
          shared := merged[0].1;
        }
      }
    }
    assert groups[..|groups|] == groups;
  }

  /** The caller's `inventory_hosts` after the merge loop. */
  function SharedHosts(inventoryHosts: seq<string>, groups: HostGroups): seq<string>
  {
    if |inventoryHosts| > 0 then MergeSpec(inventoryHosts, groups)[0].1 else inventoryHosts
  }

  /** The host count the tool reports as written: `len(inventory_hosts)`, taken
      after the loop has extended the shared list, plus every group's size. */
  function AsWrittenHostCount(inventoryHosts: seq<string>, groups: HostGroups): nat
  {
    |SharedHosts(inventoryHosts, groups)| + HostTotal(groups)
  }

  /** The group count the tool reports as written: one per group, plus one for
      the ungrouped hosts. */
  function AsWrittenGroupCount(inventoryHosts: seq<string>, groups: HostGroups): nat
  {
    |groups| + (if |SharedHosts(inventoryHosts, groups)| > 0 then 1 else 0)
  }

  /** As written, a group named "all" next to ungrouped hosts is counted twice:
      its hosts once through the shared list and once as a group, and the
      group once as "all" and once by name. Otherwise the figures agree with
      what is written. */
  lemma AsWrittenCounts(inventoryHosts: seq<string>, groups: HostGroups)
    requires DistinctKeys(groups)
    ensures var m := MergeSpec(inventoryHosts, groups);
            var clash := |inventoryHosts| > 0 && HasKey(groups, "all");
            AsWrittenHostCount(inventoryHosts, groups) ==
              HostTotal(m) + (if clash then |HostsOf(groups, "all").value| else 0)
            && AsWrittenGroupCount(inventoryHosts, groups) == |m| + (if clash then 1 else 0)
  {
    var m := MergeSpec(inventoryHosts, groups);
    MergeTotal(inventoryHosts, groups);
    MergeKeys(inventoryHosts, groups);
    if |inventoryHosts| > 0 {
      MergeLookup(inventoryHosts, groups, "all");
      HostsOfKeyAt(m, 0);
    }
  }

  /** One ungrouped host h1 and a group "all" holding h2: the file lists two
      hosts in one group, the tool reports three hosts in two groups. */
  lemma AsWrittenCountsCounterexample()
    ensures AsWrittenHostCount(["h1"], [("all", ["h2"])]) == 3
    ensures AsWrittenGroupCount(["h1"], [("all", ["h2"])]) == 2
    ensures InventoryCounts(MergeSpec(["h1"], [("all", ["h2"])])) == (2, 1)
  {
    var groups: HostGroups := [("all", ["h2"])];
    assert groups[..0] == [];
    var prev := MergeSpec(["h1"], groups[..0]);
    assert prev == [("all", ["h1"])];
    assert IndexOfKey(prev, "all") == 0;
    assert MergeSpec(["h1"], groups) == prev[0 := ("all", ["h1"] + ["h2"])];
    assert ["h1"] + ["h2"] == ["h1", "h2"];
    assert HostTotal(groups) == HostTotal(groups[..0]) + 1;
    var m: HostGroups := [("all", ["h1", "h2"])];
    assert m[..0] == [];
    assert HostTotal(m) == HostTotal(m[..0]) + 2;
  }

  /** The figures the success message reports: host entries and groups of
      the mapping that is written. */
  function InventoryCounts(merged: HostGroups): (r: (nat, nat))
  {
    (HostTotal(merged), |merged|)
  }

  /** The reported figures count each host entry given exactly once, and each
      group name (with "all" for ungrouped hosts) exactly once. */
  lemma InventoryCountsExact(inventoryHosts: seq<string>, groups: HostGroups)
    requires DistinctKeys(groups)
    ensures var (hosts, groupCount) := InventoryCounts(MergeSpec(inventoryHosts, groups));
            hosts == |inventoryHosts| + HostTotal(groups)
            && groupCount == |groups| + (if |inventoryHosts| > 0 && !HasKey(groups, "all") then 1 else 0)
  {
    MergeTotal(inventoryHosts, groups);
    MergeKeys(inventoryHosts, groups);
  }

  function HostEntry(hosts: seq<string>): Yaml
  {
    YDict([("hosts", YList(seq(|hosts|, i requires 0 <= i < |hosts| => YStr(hosts[i]))))])
  }

  function HostsSection(merged: HostGroups): seq<(string, Yaml)>
  {
    seq(|merged|, i requires 0 <= i < |merged| => (merged[i].0, HostEntry(merged[i].1)))
  }

  function InventorySpec(name: string, description: string, merged: HostGroups): seq<(string, Yaml)>
  {
    [("name", YStr(name)), ("organization", YStr("Default"))]
    + (if description != "" then [("description", YStr(description))] else [])
    + (if |merged| > 0 then [("hosts", YDict(HostsSection(merged)))] else [])
  }

  function InventoryDoc(name: string, description: string, merged: HostGroups): Yaml
  {
    YDict([("apiVersion", YStr("tower.ansible.com/v1beta1")), ("kind", YStr("Inventory")),
           ("metadata", YDict([("name", YStr(name))])),
           ("spec", YDict(InventorySpec(name, description, merged)))])
  }

  /** The written hosts section lists, under each group name, exactly the
      hosts the merged mapping holds for it. */
  lemma {:induction false} HostsSectionLookup(merged: HostGroups, key: string)
    requires DistinctKeys(merged)
    ensures Lookup(HostsSection(merged), key) ==
              if HostsOf(merged, key).Some? then Some(HostEntry(HostsOf(merged, key).value)) else None
  {
    var s := HostsSection(merged);
    if HasKey(merged, key) {
      var j := IndexOfKey(merged, key);
      HostsOfKeyAt(merged, j);
      LookupDistinct(s, j);
    } else {
      assert forall i :: 0 <= i < |s| ==> s[i].0 == merged[i].0;
    }
  }

  function InventorySuccess(filePath: string, name: string, counts: (nat, nat)): string
  {
    Reported("generated inventory YAML at " + filePath + "\nInventory: " + name
             + "\nTotal hosts: " + NatToString(counts.0) + "\nGroups: " + NatToString(counts.1))
  }

  /** `_generate_inventory`, reporting the figures of the mapping written. */
  function InventoryConfigEffect(t: Tree, cwd: seq<string>, filePath: string, name: string, description: string,
                                 inventoryHosts: seq<string>, groups: HostGroups): (string, Tree)
  {
    var merged := MergeSpec(inventoryHosts, groups);
    WriteReport(t, cwd, filePath, InventoryDoc(name, description, merged), "inventory YAML",
                InventorySuccess(filePath, name, InventoryCounts(merged)))
  }

  /** `_generate_inventory` as written, reporting `AsWrittenHostCount` and
      `AsWrittenGroupCount`. */
  function InventoryConfigEffectAsWritten(t: Tree, cwd: seq<string>, filePath: string, name: string,
                                          description: string, inventoryHosts: seq<string>, groups: HostGroups)
    : (string, Tree)
  {
    var merged := MergeSpec(inventoryHosts, groups);
    WriteReport(t, cwd, filePath, InventoryDoc(name, description, merged), "inventory YAML",
                InventorySuccess(filePath, name, (AsWrittenHostCount(inventoryHosts, groups),
                                                  AsWrittenGroupCount(inventoryHosts, groups))))
  }

  /** The tool as written writes the same file as the corrected one, and
      reports the same message unless ungrouped hosts meet a group "all". */
  lemma InventoryAsWrittenDiffersOnlyOnAll(t: Tree, cwd: seq<string>, filePath: string, name: string,
                                           description: string, inventoryHosts: seq<string>, groups: HostGroups)
    requires DistinctKeys(groups)
    ensures var asWritten := InventoryConfigEffectAsWritten(t, cwd, filePath, name, description, inventoryHosts, groups);
            var corrected := InventoryConfigEffect(t, cwd, filePath, name, description, inventoryHosts, groups);
            asWritten.1 == corrected.1
            && (!(|inventoryHosts| > 0 && HasKey(groups, "all")) ==> asWritten.0 == corrected.0)
  {
    AsWrittenCounts(inventoryHosts, groups);
  }

  /** A reported success leaves the inventory document, built from the merged
      groups, at the file; anything else is the write error. */
  lemma InventoryOutcome(t: Tree, cwd: seq<string>, filePath: string, name: string, description: string,
                         inventoryHosts: seq<string>, groups: HostGroups)
    requires WellFormed(t)
    ensures var (msg, t') := InventoryConfigEffect(t, cwd, filePath, name, description, inventoryHosts, groups);
            var k := Locate(cwd, ParsePath(filePath));
            var merged := MergeSpec(inventoryHosts, groups);
            WellFormed(t')
            && (StartsWith(msg, "Successfully") ==>
                  msg == InventorySuccess(filePath, name, InventoryCounts(merged))
                  && k in t' && t'[k] == File(Dumped(InventoryDoc(name, description, merged))))
            && (!StartsWith(msg, "Successfully") ==>
                  StartsWith(msg, FailedPrefix("inventory YAML")))
  {
    var merged := MergeSpec(inventoryHosts, groups);
    var counts := InventoryCounts(merged);
    ReportKinds("generated inventory YAML at " + filePath + "\nInventory: " + name
                + "\nTotal hosts: " + NatToString(counts.0) + "\nGroups: " + NatToString(counts.1));
    WriteReportOutcome(t, cwd, filePath, InventoryDoc(name, description, merged), "inventory YAML",
                       InventorySuccess(filePath, name, counts));
  }

  method GenerateInventory(fs: FileSystem, filePath: string, name: string, description: string,
                           inventoryHosts: seq<string>, groups: HostGroups)
    returns (msg: string)
    requires fs.Valid()
    modifies fs
    ensures fs.Valid()
    ensures (msg, fs.tree) == InventoryConfigEffect(old(fs.tree), fs.cwd, filePath, name, description,
                                                    inventoryHosts, groups)
  {
    var merged, _ := MergeHosts(inventoryHosts, groups);
    var doc := InventoryDoc(name, description, merged);
    msg := WriteReported(fs, filePath, doc, "inventory YAML", InventorySuccess(filePath, name, InventoryCounts(merged)));
  }

  /* ---------------- the tool ---------------- */

  /** The tool's arguments; `None` stands for an argument left at its default. */
  datatype Request = Request(
    configType: string, filePath: string, name: string, roleName: string, hosts: string, become: bool,
    vars: Option<seq<(string, VarValue)>>, playbookPath: string, inventory: string, description: string,
    extraVars: string, inventoryHosts: Option<seq<string>>, groups: Option<HostGroups>)

  /** `GenerateAAPConfigTool._run`. */
  function RunEffect(t: Tree, cwd: seq<string>, writer: PlaybookWriter, parseText: PublisherTools.TextParser,
                     q: Request): (string, Tree)
  {
    match ParseConfigType(q.configType)
    case None => (InvalidTypeMessage(q.configType), t)
    case Some(PlaybookConfig) =>
      (PlaybookResult(writer, q.filePath, q.name, q.roleName, q.hosts, q.become, q.vars.GetOr([])), t)
    case Some(JobTemplateConfig) =>
      JobTemplateConfigEffect(t, cwd, parseText, q.filePath, q.name, q.playbookPath, q.inventory, q.roleName,
                              q.description, q.extraVars)
    case Some(InventoryConfig) =>
      InventoryConfigEffect(t, cwd, q.filePath, q.name, q.description, q.inventoryHosts.GetOr([]),
                            q.groups.GetOr([]))
  }

  /** The tool answers every request with a message: an "ERROR: " message or a
      success report. An unknown type is rejected, quoting the lower-cased type,
      without touching the tree, and a playbook goes through the writer, never
      the tree. */
  lemma RunOutcome(t: Tree, cwd: seq<string>, writer: PlaybookWriter, parseText: PublisherTools.TextParser,
                   q: Request)
    requires WellFormed(t)
    ensures var (msg, t') := RunEffect(t, cwd, writer, parseText, q);
            WellFormed(t')
            && (StartsWith(msg, "Successfully") || StartsWith(msg, "ERROR: "))
            && (ParseConfigType(q.configType).None? ==>
                  t' == t && StartsWith(msg, "ERROR: ") && Contains(msg, Quoted(Lower(q.configType))))
            && (ParseConfigType(q.configType) == Some(PlaybookConfig) ==> t' == t)
  {
    match ParseConfigType(q.configType)
    case None =>
      InvalidTypeQuoted(q.configType);
    case Some(PlaybookConfig) =>
      PlaybookOutcome(writer, q.filePath, q.name, q.roleName, q.hosts, q.become, q.vars.GetOr([]));
    case Some(JobTemplateConfig) =>
      JobTemplateAnswered(t, cwd, parseText, q.filePath, q.name, q.playbookPath, q.inventory, q.roleName,
                          q.description, q.extraVars);
    case Some(InventoryConfig) =>
      InventoryAnswered(t, cwd, q.filePath, q.name, q.description, q.inventoryHosts.GetOr([]), q.groups.GetOr([]));
  }

  /** A job template request is answered with a success or an error report. */
  lemma JobTemplateAnswered(t: Tree, cwd: seq<string>, parseText: PublisherTools.TextParser, filePath: string,
                            name: string, playbookPath: string, inventory: string, roleName: string,
                            description: string, extraVars: string)
    requires WellFormed(t)
    ensures var (msg, t') := JobTemplateConfigEffect(t, cwd, parseText, filePath, name, playbookPath, inventory,
                                                     roleName, description, extraVars);
            WellFormed(t') && (StartsWith(msg, "Successfully") || StartsWith(msg, "ERROR: "))
  {
    JobTemplateOutcome(t, cwd, parseText, filePath, name, playbookPath, inventory, roleName, description, extraVars);
    var msg := JobTemplateConfigEffect(t, cwd, parseText, filePath, name, playbookPath, inventory, roleName,
                                       description, extraVars).0;
    if playbookPath != "" && inventory != "" && !StartsWith(msg, "Successfully") {
      ReportPrefix(msg, "job template YAML");
    }
  }

  /** An inventory request is answered with a success or an error report. */
  lemma InventoryAnswered(t: Tree, cwd: seq<string>, filePath: string, name: string, description: string,
                          inventoryHosts: seq<string>, groups: HostGroups)
    requires WellFormed(t)
    ensures var (msg, t') := InventoryConfigEffect(t, cwd, filePath, name, description, inventoryHosts, groups);
            WellFormed(t') && (StartsWith(msg, "Successfully") || StartsWith(msg, "ERROR: "))
  {
    InventoryOutcome(t, cwd, filePath, name, description, inventoryHosts, groups);
    var msg := InventoryConfigEffect(t, cwd, filePath, name, description, inventoryHosts, groups).0;
    if !StartsWith(msg, "Successfully") {
      ReportPrefix(msg, "inventory YAML");
    }
  }

  /** A write error report is an error report. */
  lemma ReportPrefix(msg: string, what: string)
    requires StartsWith(msg, FailedPrefix(what))
    ensures StartsWith(msg, "ERROR: ")
  {
    assert msg[..7] == FailedPrefix(what)[..7];
  }

  method Run(fs: FileSystem, writer: PlaybookWriter, parseText: PublisherTools.TextParser, q: Request)
    returns (msg: string)
    requires fs.Valid()
    modifies fs
    ensures fs.Valid()
    ensures (msg, fs.tree) == RunEffect(old(fs.tree), fs.cwd, writer, parseText, q)
  {
    var vars := q.vars.GetOr([]);
    var inventoryHosts := q.inventoryHosts.GetOr([]);
    var groups := q.groups.GetOr([]);
    var kind := ParseConfigType(q.configType);
    match kind {
      case None =>
        msg := InvalidTypeMessage(q.configType);
      case Some(PlaybookConfig) =>
        msg := GeneratePlaybook(writer, q.filePath, q.name, q.roleName, q.hosts, q.become, vars);
      case Some(JobTemplateConfig) =>
        msg := GenerateJobTemplate(fs, parseText, q.filePath, q.name, q.playbookPath, q.inventory, q.roleName,
                                   q.description, q.extraVars);
      case Some(InventoryConfig) =>
        msg := GenerateInventory(fs, q.filePath, q.name, q.description, inventoryHosts, groups);
    }
  }
}

=== FILE: aap_sync.dfy ===
/**
  * Syncing a published repository to an Ansible Automation Platform (AAP)
  * controller: the `AAPSyncResult` value, its summary lines, and the
  * `sync_to_aap` sequence run against an abstract controller client
  * (src/publishers/tools.py).
  */
module AapSync {

  import opened Results
  import opened Text
  import opened YamlValue

  /** `AAPSyncResult`; the defaults are the dataclass's field defaults. */
  datatype AAPSyncResult = AAPSyncResult(
    enabled: bool,
    projectName: string,
    projectId: Option<int>,
    projectUpdateId: Option<int>,
    projectUpdateStatus: string,
    error: string)

  /** `AAPSyncResult.disabled()`. */
  function Disabled(): (r: AAPSyncResult)
    ensures !r.enabled && r.error == "" && r.projectId.None? && r.projectUpdateId.None?
  {
    AAPSyncResult(false, "", None, None, "", "")
  }

  /** `AAPSyncResult.from_error(e)`. */
  function FromError(e: string): (r: AAPSyncResult)
    ensures r.enabled && r.error == e && r.projectName == "" && r.projectId.None? && r.projectUpdateId.None?
  {
    AAPSyncResult(true, "", None, None, "", e)
  }

  /** A line that is present only when its field is populated. */
  function LineIf(populated: bool, line: string): (r: seq<string>)
    ensures |r| == (if populated then 1 else 0)
  {
    if populated then [line] else []
  }

  /** What `report_summary` returns: one line when disabled, two when an
      error is recorded, and otherwise a SUCCESS line followed by a line for
      each populated field in a fixed order. */
  function SummaryLines(r: AAPSyncResult): seq<string>
  {
    if !r.enabled then ["  Disabled (AAP not configured)."]
    else if r.error != "" then ["  Result: FAILED", "  Error: " + r.error]
    else
      ["  Result: SUCCESS"]
      + LineIf(r.projectName != "", "  Project: " + r.projectName)
      + LineIf(r.projectId.Some?, "  Project ID: " + IntToString(r.projectId.GetOr(0)))
      + LineIf(r.projectUpdateId.Some?, "  Sync job ID: " + IntToString(r.projectUpdateId.GetOr(0)))
      + LineIf(r.projectUpdateStatus != "", "  Sync job status: " + r.projectUpdateStatus)
  }

  /** `report_summary`, appending line by line. */
  method ReportSummary(r: AAPSyncResult) returns (lines: seq<string>)
    ensures lines == SummaryLines(r)
  {
    lines := [];
    if !r.enabled {
      lines := lines + ["  Disabled (AAP not configured)."];
      return;
    }
    if r.error != "" {
      lines := lines + ["  Result: FAILED"];
      lines := lines + ["  Error: " + r.error];
      return;
    }
    lines := lines + ["  Result: SUCCESS"];
    ghost var expected := ["  Result: SUCCESS"];
    if r.projectName != "" {
      lines := lines + ["  Project: " + r.projectName];
    }
    expected := expected + LineIf(r.projectName != "", "  Project: " + r.projectName);
    assert lines == expected;
    if r.projectId.Some? {
      lines := lines + ["  Project ID: " + IntToString(r.projectId.value)];
    }
    expected := expected + LineIf(r.projectId.Some?, "  Project ID: " + IntToString(r.projectId.GetOr(0)));
    assert lines == expected;
    if r.projectUpdateId.Some? {
      lines := lines + ["  Sync job ID: " + IntToString(r.projectUpdateId.value)];
    }
    expected := expected + LineIf(r.projectUpdateId.Some?, "  Sync job ID: " + IntToString(r.projectUpdateId.GetOr(0)));
    assert lines == expected;
    if r.projectUpdateStatus != "" {
      lines := lines + ["  Sync job status: " + r.projectUpdateStatus];
    }
    expected := expected + LineIf(r.projectUpdateStatus != "", "  Sync job status: " + r.projectUpdateStatus);
    assert lines == expected;
  }

  /** The disabled result's summary is the single "Disabled" line. */
  lemma DisabledSummary()
    ensures SummaryLines(Disabled()) == ["  Disabled (AAP not configured)."]
    ensures !Disabled().enabled
  {
  }

  /** A recorded error gives exactly the FAILED line and the error line. */
  lemma FromErrorSummary(e: string)
    requires e != ""
    ensures SummaryLines(FromError(e)) == ["  Result: FAILED", "  Error: " + e]
  {
  }

  /** A successful result starts with SUCCESS and has one more line per
      populated field; the fields appear in the order name, id, job id, status. */
  lemma SuccessSummary(r: AAPSyncResult)
    requires r.enabled && r.error == ""
    ensures var lines := SummaryLines(r);
            lines[0] == "  Result: SUCCESS"
            && |lines| == 1 + (if r.projectName != "" then 1 else 0) + (if r.projectId.Some? then 1 else 0)
                          + (if r.projectUpdateId.Some? then 1 else 0)
                          + (if r.projectUpdateStatus != "" then 1 else 0)
            && (r.projectName != "" ==> lines[1] == "  Project: " + r.projectName)
            && (r.projectUpdateStatus != "" ==> lines[|lines| - 1] == "  Sync job status: " + r.projectUpdateStatus)
  {
  }

  // --------------------------------------------------------------- sync run

  /** What `AAPConfig.from_env()` gives: it raises ValueError on a bad
      configuration, returns None when no controller URL is set, and
      otherwise a configuration naming the organisation. */
  datatype ConfigLoad = ConfigInvalid(msg: string) | NotConfigured | Configured(organizationName: string)

  /** The project settings `get_settings().aap` supplies. */
  datatype AapSettings = AapSettings(projectName: string, scmCredentialId: Option<int>)

  /** The replies of the controller API that the sync reads. */
  datatype ProjectReply = ProjectReply(id: Option<Yaml>)
  datatype UpdateReply = UpdateReply(id: Option<Yaml>, status: Option<string>)

  /** The controller client, as the answers it gives; each call may raise. */
  datatype Client = Client(
    construct: Outcome<Exc>,
    findOrganizationId: string -> Result<int, Exc>,
    upsertProject: (int, string, string, string, string, Option<int>) -> Result<ProjectReply, Exc>,
    startProjectUpdate: int -> Result<UpdateReply, Exc>)

  /** The client calls made, in order. */
  datatype Call =
    | ConstructClient
    | FindOrganization(name: string)
    | UpsertProject(orgId: int, name: string, scmUrl: string, scmBranch: string, description: string,
                    scmCredentialId: Option<int>)
    | StartProjectUpdate(projectId: int)

  /** How far the sync got: a result, or an exception, with the calls made. */
  datatype Attempt = Done(result: AAPSyncResult, calls: seq<Call>) | Raised(exc: Exc, calls: seq<Call>)

  /** The exceptions `sync_to_aap` turns into an error result. */
  predicate Caught(e: Exc)
  {
    e.RequestException? || e.RuntimeError? || e.ValueError?
  }

  /** The steps inside the `try` of `sync_to_aap`, for a loaded configuration. */
  function SyncSteps(organizationName: string, projectName: string, settings: AapSettings, client: Client,
                     inferDescription: (string, string) -> string, repositoryUrl: string, branch: string): Attempt
  {
    if client.construct.Fail? then Raised(client.construct.error, [ConstructClient])
    else if organizationName == "" then Raised(AssertionError(""), [ConstructClient])
    else
      var c1 := [ConstructClient, FindOrganization(organizationName)];
      match client.findOrganizationId(organizationName)
      case Failure(e) => Raised(e, c1)
      case Success(orgId) =>
        var description := inferDescription(repositoryUrl, branch);
        var upsert := UpsertProject(orgId, projectName, repositoryUrl, branch, description, settings.scmCredentialId);
        var c2 := c1 + [upsert];
        match client.upsertProject(orgId, projectName, repositoryUrl, branch, description, settings.scmCredentialId)
        case Failure(e) => Raised(e, c2)
        case Success(project) =>
          match PyInt(project.id.GetOr(YInt(0)))
          case Failure(e) => Raised(e, c2)
          case Success(projectId) =>
            if projectId == 0 then Done(FromError("AAP API did not return a project id"), c2)
            else
              var c3 := c2 + [StartProjectUpdate(projectId)];
              match client.startProjectUpdate(projectId)
              case Failure(e) => Raised(e, c3)
              case Success(update) =>
                var updateId := if update.id.Some? then PyInt(update.id.value) else Success(0);
                if updateId.Failure? then Raised(updateId.error, c3)
                else
                  Done(AAPSyncResult(true, projectName, Some(projectId),
                                     if update.id.Some? then Some(updateId.value) else None,
                                     update.status.GetOr(""), ""), c3)
  }

  /** The outcome of `sync_to_aap`: a result, or an exception that escapes it,
      with the client calls made. */
  datatype SyncRun = SyncRun(outcome: Result<AAPSyncResult, Exc>, calls: seq<Call>)

  /** The text recorded for a caught exception: `str(e)`, or the exception's
      class name when `str(e)` is empty. */
  function ErrorText(e: Exc): (s: string)
    ensures s != ""
    ensures e.msg != "" ==> s == e.msg
  {
    if e.msg != "" then e.msg else e.KindName()
  }

  /** `sync_to_aap(repository_url, branch)`, recording caught exceptions with
      `ErrorText`. */
  function SyncToAap(cfg: ConfigLoad, settings: AapSettings, client: Client, inferName: string -> string,
                     inferDescription: (string, string) -> string, repositoryUrl: string, branch: string)
    : (run: SyncRun)
    ensures cfg.ConfigInvalid? ==> run == SyncRun(Success(FromError(ErrorText(ValueError(cfg.msg)))), [])
    ensures cfg.NotConfigured? ==> run == SyncRun(Success(Disabled()), [])
    ensures run.outcome.Success? && run.outcome.value.enabled && run.outcome.value.error == "" ==>
              run.outcome.value.projectId.Some? && run.outcome.value.projectId.value != 0
              && |run.calls| == 4 && run.calls[3] == StartProjectUpdate(run.outcome.value.projectId.value)
    ensures run.outcome.Failure? ==> !Caught(run.outcome.error)
  {
    match cfg
    case ConfigInvalid(m) => SyncRun(Success(FromError(ErrorText(ValueError(m)))), [])
    case NotConfigured => SyncRun(Success(Disabled()), [])
    case Configured(org) =>
      var projectName := if settings.projectName != "" then settings.projectName else inferName(repositoryUrl);
      match SyncSteps(org, projectName, settings, client, inferDescription, repositoryUrl, branch)
      case Done(r, calls) => SyncRun(Success(r), calls)
      case Raised(e, calls) =>
        if Caught(e) then SyncRun(Success(FromError(ErrorText(e))), calls) else SyncRun(Failure(e), calls)
  }

  /** `sync_to_aap` as written: a caught exception is recorded as `str(e)`,
      which may be empty. */
  function SyncToAapAsWritten(cfg: ConfigLoad, settings: AapSettings, client: Client, inferName: string -> string,
                              inferDescription: (string, string) -> string, repositoryUrl: string, branch: string)
    : (run: SyncRun)
    ensures cfg.NotConfigured? ==> run == SyncRun(Success(Disabled()), [])
    ensures run.outcome.Failure? ==> !Caught(run.outcome.error)
  {
    match cfg
    case ConfigInvalid(m) => SyncRun(Success(FromError(m)), [])
    case NotConfigured => SyncRun(Success(Disabled()), [])
    case Configured(org) =>
      var projectName := if settings.projectName != "" then settings.projectName else inferName(repositoryUrl);
      match SyncSteps(org, projectName, settings, client, inferDescription, repositoryUrl, branch)
      case Done(r, calls) => SyncRun(Success(r), calls)
      case Raised(e, calls) =>
        if Caught(e) then SyncRun(Success(FromError(e.msg)), calls) else SyncRun(Failure(e), calls)
  }

  /** The two versions agree whenever the caught exception has a message. */
  lemma AsWrittenAgreesOnMessages(cfg: ConfigLoad, settings: AapSettings, client: Client, inferName: string -> string,
                                  inferDescription: (string, string) -> string, repositoryUrl: string, branch: string)
    requires cfg.ConfigInvalid? ==> cfg.msg != ""
    requires cfg.Configured? ==>
               var projectName := if settings.projectName != "" then settings.projectName else inferName(repositoryUrl);
               var a := SyncSteps(cfg.organizationName, projectName, settings, client, inferDescription, repositoryUrl, branch);
               a.Raised? ==> a.exc.msg != ""
    ensures SyncToAapAsWritten(cfg, settings, client, inferName, inferDescription, repositoryUrl, branch)
            == SyncToAap(cfg, settings, client, inferName, inferDescription, repositoryUrl, branch)
  {
  }

  /** A project id of zero, or none at all, is an error result, and the
      update is never started. */
  lemma ZeroProjectIdIsError(org: string, settings: AapSettings, client: Client, inferName: string -> string,
                             inferDescription: (string, string) -> string, repositoryUrl: string, branch: string)
    requires org != "" && client.construct.Pass?
    requires client.findOrganizationId(org).Success?
    requires var projectName := if settings.projectName != "" then settings.projectName else inferName(repositoryUrl);
             var orgId := client.findOrganizationId(org).value;
             var reply := client.upsertProject(orgId, projectName, repositoryUrl, branch,
                                               inferDescription(repositoryUrl, branch), settings.scmCredentialId);
             reply.Success? && (reply.value.id.None? || reply.value.id == Some(YInt(0)))
    ensures var run := SyncToAap(Configured(org), settings, client, inferName, inferDescription, repositoryUrl, branch);
            run.outcome == Success(FromError("AAP API did not return a project id"))
            && |run.calls| == 3
            && forall i :: 0 <= i < |run.calls| ==> !run.calls[i].StartProjectUpdate?
  {
  }

  /** Until the configuration is loaded and enabled, no client is made. */
  lemma NoClientWithoutConfig(cfg: ConfigLoad, settings: AapSettings, client: Client, inferName: string -> string,
                              inferDescription: (string, string) -> string, repositoryUrl: string, branch: string)
    requires !cfg.Configured?
    ensures SyncToAap(cfg, settings, client, inferName, inferDescription, repositoryUrl, branch).calls == []
  {
  }

  /** Any exception of a caught kind becomes an error result carrying its text. */
  lemma CaughtBecomesError(org: string, settings: AapSettings, client: Client, inferName: string -> string,
                           inferDescription: (string, string) -> string, repositoryUrl: string, branch: string)
    requires var projectName := if settings.projectName != "" then settings.projectName else inferName(repositoryUrl);
             var a := SyncSteps(org, projectName, settings, client, inferDescription, repositoryUrl, branch);
             a.Raised? && Caught(a.exc)
    ensures var run := SyncToAap(Configured(org), settings, client, inferName, inferDescription, repositoryUrl, branch);
            run.outcome.Success? && run.outcome.value.enabled && run.outcome.value.error != ""
  {
  }

  /** As written, a caught exception becomes an error result carrying exactly
      `str(e)`, whatever it is. */
  lemma CaughtRecordedAsWritten(org: string, settings: AapSettings, client: Client, inferName: string -> string,
                                inferDescription: (string, string) -> string, repositoryUrl: string, branch: string)
    requires var projectName := if settings.projectName != "" then settings.projectName else inferName(repositoryUrl);
             var a := SyncSteps(org, projectName, settings, client, inferDescription, repositoryUrl, branch);
             a.Raised? && Caught(a.exc)
    ensures var projectName := if settings.projectName != "" then settings.projectName else inferName(repositoryUrl);
            var a := SyncSteps(org, projectName, settings, client, inferDescription, repositoryUrl, branch);
            SyncToAapAsWritten(Configured(org), settings, client, inferName, inferDescription, repositoryUrl, branch)
              == SyncRun(Success(FromError(a.exc.msg)), a.calls)
  {
  }

  /** A synced result reports the project name used, the id the upsert
      returned, and the id and status of the update started on it, after
      exactly the four client calls in order. */
  lemma SyncedResultFields(org: string, settings: AapSettings, client: Client, inferName: string -> string,
                           inferDescription: (string, string) -> string, repositoryUrl: string, branch: string)
    ensures var run := SyncToAap(Configured(org), settings, client, inferName, inferDescription, repositoryUrl, branch);
            var projectName := if settings.projectName != "" then settings.projectName else inferName(repositoryUrl);
            var description := inferDescription(repositoryUrl, branch);
            var r := run.outcome;
            r.Success? && r.value.enabled && r.value.error == "" ==>
              r.value.projectName == projectName
              && client.construct.Pass? && client.findOrganizationId(org).Success?
              && var orgId := client.findOrganizationId(org).value;
                 var reply := client.upsertProject(orgId, projectName, repositoryUrl, branch, description,
                                                   settings.scmCredentialId);
                 reply.Success? && r.value.projectId.Some?
                 && PyInt(reply.value.id.GetOr(YInt(0))) == Success(r.value.projectId.value)
                 && client.startProjectUpdate(r.value.projectId.value).Success?
                 && var update := client.startProjectUpdate(r.value.projectId.value).value;
                    r.value.projectUpdateStatus == update.status.GetOr("")
                    && (update.id.None? ==> r.value.projectUpdateId.None?)
                    && (update.id.Some? ==>
                          r.value.projectUpdateId.Some? && PyInt(update.id.value) == Success(r.value.projectUpdateId.value))
                    && run.calls == [ConstructClient, FindOrganization(org),
                                     UpsertProject(orgId, projectName, repositoryUrl, branch, description,
                                                   settings.scmCredentialId),
                                     StartProjectUpdate(r.value.projectId.value)]
  {
  }
}

=== FILE: file_tree.dfy ===
/**
  * The part of a POSIX file system the publisher touches: directories and
  * files keyed by their absolute component lists, and the effects of
  * `Path.mkdir(parents=True, exist_ok=True)`, `shutil.rmtree` / `unlink`,
  * `shutil.copytree` with an ignore list, and writing a file.
  */
module FileTree {

  import opened Results
  import opened Paths

  import opened YamlValue

  /** What a file holds. Generated files are kept symbolically: the template
      and the parameters it was rendered with, or the document YAML dumped. */
  datatype Content =
    | Plain(text: string)
    | Rendered(template: string, params: seq<(string, Yaml)>)
    | Dumped(doc: Yaml)

  datatype Node = Dir | File(content: Content)

  /** Every entry below the root, by its absolute location; the root `[]`
      itself is an implicit directory. */
  type Tree = map<seq<string>, Node>

  predicate Exists(t: Tree, k: seq<string>)
  {
    k == [] || k in t
  }

  predicate IsDir(t: Tree, k: seq<string>)
  {
    k == [] || (k in t && t[k].Dir?)
  }

  predicate IsFile(t: Tree, k: seq<string>)
  {
    k in t && t[k].File?
  }

  /** The location of the directory holding `k`. */
  function Up(k: seq<string>): seq<string>
    requires |k| > 0
  {
    k[..|k| - 1]
  }

  /** Every entry hangs below a directory; the root is not an entry. */
  predicate WellFormed(t: Tree)
  {
    [] !in t && forall k {:trigger Up(k)} :: k in t ==> IsDir(t, Up(k))
  }

  /** `k` is `base` or lies below it. */
  predicate Under(k: seq<string>, base: seq<string>)
  {
    |base| <= |k| && k[..|base|] == base
  }

  /** Some proper ancestor of `k` is a file, so the kernel's walk to `k`
      stops with ENOTDIR. */
  predicate Blocked(t: Tree, k: seq<string>)
  {
    exists i :: 0 < i < |k| && IsFile(t, k[..i])
  }

  /** Entries of `t` are kept, unchanged, in `r`. */
  predicate Extends(t: Tree, r: Tree)
  {
    forall key :: key in t ==> key in r && r[key] == t[key]
  }

  /** The OS errors these operations raise; `shown` is the path as the failing
      call printed it. */
  datatype Fault =
    | FileExists(shown: string)
    | NotADirectory(shown: string)
    | IsADirectory(shown: string)
    | NoSuchFile(shown: string)
    | EntersDestination(shown: string)

  /** `str(e)` for the error. */
  function FaultText(f: Fault): string
  {
    match f
    case FileExists(p) => "[Errno 17] File exists: '" + p + "'"
    case NotADirectory(p) => "[Errno 20] Not a directory: '" + p + "'"
    case IsADirectory(p) => "[Errno 21] Is a directory: '" + p + "'"
    case NoSuchFile(p) => "[Errno 2] No such file or directory: '" + p + "'"
    case EntersDestination(p) => "copytree walked into its own destination: '" + p + "'"
  }

  /** The exception class Python raises for the error. */
  function FaultExc(f: Fault): (e: Exc)
    ensures e.msg == FaultText(f)
  {
    match f
    case FileExists(_) => FileExistsError(FaultText(f))
    case NotADirectory(_) => NotADirectoryError(FaultText(f))
    case IsADirectory(_) => IsADirectoryError(FaultText(f))
    case NoSuchFile(_) => FileNotFoundError(FaultText(f))
    case EntersDestination(_) => OSError(FaultText(f))
  }

  function Prefixes(k: seq<string>): set<seq<string>>
  {
    set i | 1 <= i <= |k| :: k[..i]
  }

  /** `Path.mkdir(parents=True, exist_ok=True)` at location `k`: succeeds when
      `k` already is a directory, fails when `k` or an ancestor is a file, and
      otherwise creates every missing directory on the way. */
  function MakeDirs(t: Tree, k: seq<string>, shown: string): (r: Result<Tree, Fault>)
    ensures r.Success? <==> !Blocked(t, k) && !IsFile(t, k)
    ensures r.Failure? ==> r.error == (if Blocked(t, k) then NotADirectory(shown) else FileExists(shown))
    ensures r.Success? ==> IsDir(r.value, k) && Extends(t, r.value)
    ensures r.Success? ==> forall key :: key in r.value && key !in t ==> Under(k, key) && r.value[key] == Dir
    ensures r.Success? && WellFormed(t) ==> WellFormed(r.value)
  {
    if Blocked(t, k) then Failure(NotADirectory(shown))
    else if IsFile(t, k) then Failure(FileExists(shown))
    else if IsDir(t, k) then Success(t)
    else
      var added := map p | p in Prefixes(k) :: Dir;
      var r := t + added;
      assert k[..|k|] == k;
      assert k in Prefixes(k);
      assert Extends(t, r) by {
        forall key | key in t ensures key in r && r[key] == t[key] {
          if key in Prefixes(k) {
            var i :| 1 <= i <= |k| && key == k[..i];
            assert !IsFile(t, k[..i]);
          }
        }
      }
      assert WellFormed(t) ==> WellFormed(r) by {
        if WellFormed(t) {
          forall key | key in r ensures IsDir(r, Up(key)) {
            if key in Prefixes(k) {
              var i :| 1 <= i <= |k| && key == k[..i];
              if i > 1 {
                assert key[..|key| - 1] == k[..i - 1];
                assert k[..i - 1] in Prefixes(k);
              }
            }
          }
        }
      }
      Success(r)
  }

  /** `shutil.rmtree(k)` for a directory, `unlink` for a file: `k` and
      everything below it disappear, everything else stays. */
  function RemoveTree(t: Tree, k: seq<string>): (r: Tree)
    ensures forall key :: key in r ==> !Under(key, k)
    ensures forall key :: key in t && !Under(key, k) ==> key in r && r[key] == t[key]
    ensures forall key :: key in r ==> key in t
    ensures WellFormed(t) ==> WellFormed(r)
  {
    var r := map key | key in t && !Under(key, k) :: t[key];
    assert WellFormed(t) ==> WellFormed(r) by {
      if WellFormed(t) {
        forall key | key in r ensures IsDir(r, Up(key)) {
          assert !Under(key[..|key| - 1], k);
        }
      }
    }
    r
  }

  /** Writing `c` to the file at `k` (`open(k, "w")`): fails on a directory or
      when the parent is missing; otherwise creates or overwrites the file. */
  function WriteFile(t: Tree, k: seq<string>, c: Content, shown: string): (r: Result<Tree, Fault>)
    ensures r.Success? <==> !Blocked(t, k) && !IsDir(t, k) && IsDir(t, Up(k))
    ensures r.Success? ==> r.value == t[k := File(c)]
    ensures r.Success? && WellFormed(t) ==> WellFormed(r.value)
  {
    if Blocked(t, k) then Failure(NotADirectory(shown))
    else if IsDir(t, k) then Failure(IsADirectory(shown))
    else if !IsDir(t, Up(k)) then Failure(NoSuchFile(shown))
    else Success(t[k := File(c)])
  }

  /** A relative location none of whose components is one of `excluded`:
      the ignore function is consulted in every directory copytree enters. */
  predicate Kept(rel: seq<string>, excluded: set<string>)
  {
    forall i :: 0 <= i < |rel| ==> rel[i] !in excluded
  }

  /** Where the kept entries strictly below `src` land under `dst`. */
  function CopyTargets(t: Tree, src: seq<string>, dst: seq<string>, excluded: set<string>): (s: set<seq<string>>)
    ensures forall key :: key in s ==>
              |dst| < |key| && Under(key, dst) && Kept(key[|dst|..], excluded) && src + key[|dst|..] in t
  {
    var s := set key | key in t && |src| < |key| && Under(key, src) && Kept(key[|src|..], excluded)
      :: dst + key[|src|..];
    assert forall key :: key in s ==>
              |dst| < |key| && Under(key, dst) && Kept(key[|dst|..], excluded) && src + key[|dst|..] in t by {
      forall key | key in s
        ensures |dst| < |key| && Under(key, dst) && Kept(key[|dst|..], excluded) && src + key[|dst|..] in t
      {
        var orig :| orig in t && |src| < |orig| && Under(orig, src) && Kept(orig[|src|..], excluded)
          && key == dst + orig[|src|..];
        assert key[|dst|..] == orig[|src|..];
        assert orig == src + orig[|src|..];
      }
    }
    s
  }

  /** The kept entries strictly below `src`, moved under `dst`. */
  function CopiedEntries(t: Tree, src: seq<string>, dst: seq<string>, excluded: set<string>): (m: Tree)
    ensures forall key :: key in m ==> |dst| < |key| && Under(key, dst) && Kept(key[|dst|..], excluded)
  {
    map key | key in CopyTargets(t, src, dst, excluded) :: t[src + key[|dst|..]]
  }

  /** A kept entry below `src` is copied, with its node, to the same place below `dst`. */
  lemma CopiedEntry(t: Tree, src: seq<string>, dst: seq<string>, excluded: set<string>, rel: seq<string>)
    requires |rel| > 0 && src + rel in t && Kept(rel, excluded)
    ensures dst + rel in CopiedEntries(t, src, dst, excluded)
    ensures CopiedEntries(t, src, dst, excluded)[dst + rel] == t[src + rel]
  {
    var key := src + rel;
    assert key[..|src|] == src && key[|src|..] == rel;
    assert dst + key[|src|..] in CopyTargets(t, src, dst, excluded);
    assert (dst + rel)[|dst|..] == rel;
  }

  /** Every copied entry comes from the same place below `src`. */
  lemma CopiedSource(t: Tree, src: seq<string>, dst: seq<string>, excluded: set<string>, key: seq<string>)
    requires key in CopiedEntries(t, src, dst, excluded)
    ensures src + key[|dst|..] in t
    ensures CopiedEntries(t, src, dst, excluded)[key] == t[src + key[|dst|..]]
  {
  }

  /** In a well-formed tree, an entry's ancestors all exist. */
  lemma {:induction false} UnderAncestorExists(t: Tree, key: seq<string>, anc: seq<string>)
    requires WellFormed(t)
    requires key in t
    requires Under(key, anc)
    ensures Exists(t, anc)
    decreases |key|
  {
    if |key| > |anc| {
      var up := Up(key);
      assert up[..|anc|] == key[..|anc|];
      if up != [] {
        UnderAncestorExists(t, up, anc);
      } else {
        assert anc == [];
      }
    } else {
      assert key[..|anc|] == key;
    }
  }

  /** Nothing lies below a location that does not exist. */
  lemma NothingUnderMissing(t: Tree, dst: seq<string>)
    requires WellFormed(t)
    requires !Exists(t, dst)
    ensures forall key :: key in t ==> !Under(key, dst)
  {
    forall key | key in t && Under(key, dst) ensures false {
      UnderAncestorExists(t, key, dst);
    }
  }

  /** The parent of a copied entry is a directory after the copy. */
  lemma CopiedParentIsDir(t: Tree, t1: Tree, src: seq<string>, dst: seq<string>, excluded: set<string>,
                          key: seq<string>)
    requires WellFormed(t) && IsDir(t1, dst)
    requires key in CopiedEntries(t, src, dst, excluded)
    ensures IsDir(t1 + CopiedEntries(t, src, dst, excluded), Up(key))
  {
    var m := CopiedEntries(t, src, dst, excluded);
    CopiedSource(t, src, dst, excluded, key);
    var rel := key[|dst|..];
    var up := key[..|key| - 1];
    if |rel| > 1 {
      var orig := src + rel;
      assert Up(orig) == src + rel[..|rel| - 1];
      CopiedEntry(t, src, dst, excluded, rel[..|rel| - 1]);
      assert up == dst + rel[..|rel| - 1];
    } else {
      assert up == dst;
    }
  }

  /** The parent of an entry that was there before the copy is still a directory. */
  lemma KeptParentIsDir(t: Tree, t1: Tree, src: seq<string>, dst: seq<string>, excluded: set<string>,
                        key: seq<string>)
    requires WellFormed(t1)
    requires forall k :: k in t1 ==> !Under(k, dst) || k == dst
    requires key in t1
    ensures IsDir(t1 + CopiedEntries(t, src, dst, excluded), Up(key))
  {
  }

  /** The copy keeps the tree well formed. */
  lemma CopyWellFormed(t: Tree, t1: Tree, src: seq<string>, dst: seq<string>, excluded: set<string>)
    requires WellFormed(t) && WellFormed(t1) && IsDir(t1, dst)
    requires forall k :: k in t1 ==> !Under(k, dst) || k == dst
    ensures WellFormed(t1 + CopiedEntries(t, src, dst, excluded))
  {
    var m := CopiedEntries(t, src, dst, excluded);
    forall key | key in t1 + m ensures IsDir(t1 + m, Up(key)) {
      if key in m {
        CopiedParentIsDir(t, t1, src, dst, excluded, key);
      } else {
        KeptParentIsDir(t, t1, src, dst, excluded, key);
      }
    }
  }

  /** `dst` lies two or more levels below `src`, and its first component
      below `src` is an entry that is already there and not excluded.
      copytree lists `src` before it creates `dst`, but lists that entry only
      after, and so walks down into the directories it is creating. */
  predicate EntersOwnDestination(t: Tree, src: seq<string>, dst: seq<string>, excluded: set<string>)
  {
    |src| + 1 < |dst| && Under(dst, src) && dst[..|src| + 1] in t && dst[|src|] !in excluded
  }

  /** `shutil.copytree(src, dst, dirs_exist_ok=False, ignore=...)`: lists
      `src`, creates `dst` and copies the kept entries of `src` below it, as
      they were before `dst` was created. A destination below the source is
      copied like any other unless copytree walks into it. */
  function CopyTree(t: Tree, src: seq<string>, dst: seq<string>, excluded: set<string>,
                    shownSrc: string, shownDst: string): (r: Result<Tree, Fault>)
    ensures r.Success? <==>
              IsDir(t, src) && !Exists(t, dst) && !Blocked(t, dst) && !EntersOwnDestination(t, src, dst, excluded)
    ensures !Exists(t, src) ==> r == Failure(NoSuchFile(shownSrc))
    ensures Exists(t, src) && !IsDir(t, src) ==> r == Failure(NotADirectory(shownSrc))
    ensures IsDir(t, src) && Exists(t, dst) ==> r == Failure(FileExists(shownDst))
    ensures IsDir(t, src) && !Exists(t, dst) && Blocked(t, dst) ==> r == Failure(NotADirectory(shownDst))
    ensures (IsDir(t, src) && !Exists(t, dst) && !Blocked(t, dst) && EntersOwnDestination(t, src, dst, excluded))
            ==> r == Failure(EntersDestination(shownDst))
    ensures r.Success? ==> IsDir(r.value, dst)
    ensures r.Success? ==> forall key :: key in t && !Under(key, dst) ==> key in r.value && r.value[key] == t[key]
    ensures r.Success? && WellFormed(t) ==> WellFormed(r.value)
    ensures r.Success? && WellFormed(t) ==>
              forall key :: key in r.value && |dst| < |key| && Under(key, dst) ==> Kept(key[|dst|..], excluded)
  {
    if !Exists(t, src) then Failure(NoSuchFile(shownSrc))
    else if !IsDir(t, src) then Failure(NotADirectory(shownSrc))
    else if Exists(t, dst) then Failure(FileExists(shownDst))
    else
      match MakeDirs(t, dst, shownDst)
      case Failure(f) => Failure(f)
      case Success(t1) =>
        if EntersOwnDestination(t, src, dst, excluded) then Failure(EntersDestination(shownDst))
        else
          var m := CopiedEntries(t, src, dst, excluded);
          var r := t1 + m;
          assert WellFormed(t) ==> WellFormed(r) && forall key :: key in r && |dst| < |key| && Under(key, dst) ==> Kept(key[|dst|..], excluded) by {
            if WellFormed(t) {
              NothingUnderMissing(t, dst);
              assert forall k :: k in t1 ==> !Under(k, dst) || k == dst;
              CopyWellFormed(t, t1, src, dst, excluded);
            }
          }
          Success(r)
  }

  /** The entries a successful copytree leaves below the destination. */
  lemma CopyTreeContents(t: Tree, src: seq<string>, dst: seq<string>, excluded: set<string>,
                         shownSrc: string, shownDst: string, rel: seq<string>)
    requires WellFormed(t)
    requires CopyTree(t, src, dst, excluded, shownSrc, shownDst).Success?
    requires |rel| > 0
    ensures var r := CopyTree(t, src, dst, excluded, shownSrc, shownDst).value;
            (dst + rel in r <==> src + rel in t && Kept(rel, excluded))
            && (dst + rel in r ==> r[dst + rel] == t[src + rel])
  {
    var t1 := MakeDirs(t, dst, shownDst).value;
    var m := CopiedEntries(t, src, dst, excluded);
    NothingUnderMissing(t, dst);
    var key := dst + rel;
    assert key[..|dst|] == dst && key[|dst|..] == rel;
    if src + rel in t && Kept(rel, excluded) {
      CopiedEntry(t, src, dst, excluded, rel);
    }
    if key in m {
      CopiedSource(t, src, dst, excluded, key);
    }
    assert key !in t1;
  }

  /** A new directory directly inside the source is an ordinary destination:
      the copy succeeds, and takes the source as it was before. */
  lemma CopyIntoNewChild(t: Tree, src: seq<string>, name: string, excluded: set<string>,
                         shownSrc: string, shownDst: string)
    requires WellFormed(t) && IsDir(t, src) && src + [name] !in t
    ensures CopyTree(t, src, src + [name], excluded, shownSrc, shownDst).Success?
  {
    var dst := src + [name];
    assert dst[..|src|] == src;
    forall i | 0 < i < |dst| ensures !IsFile(t, dst[..i]) {
      assert dst[..i] == src[..i];
      if i < |src| {
        AncestorsAreDirs(t, src, i);
      } else {
        assert src[..i] == src;
      }
    }
  }

  /** `r` is `t` with some directories added. */
  predicate OnlyAddsDirs(t: Tree, r: Tree)
  {
    Extends(t, r) && forall key :: key in r && key !in t ==> r[key] == Dir
  }

  /** In a well-formed tree every proper ancestor of an entry is a directory. */
  lemma {:induction false} AncestorsAreDirs(t: Tree, k: seq<string>, i: int)
    requires WellFormed(t) && k in t
    requires 0 < i < |k|
    ensures IsDir(t, k[..i])
    decreases |k|
  {
    var up := Up(k);
    if i < |k| - 1 {
      AncestorsAreDirs(t, up, i);
      assert up[..i] == k[..i];
    }
  }

  /** A location below a file is absent from a well-formed tree. */
  lemma BlockedIsAbsent(t: Tree, k: seq<string>)
    requires WellFormed(t) && Blocked(t, k)
    ensures !Exists(t, k)
  {
    var i :| 0 < i < |k| && IsFile(t, k[..i]);
    if k in t {
      AncestorsAreDirs(t, k, i);
    }
  }

  /** Adding directories never turns a file, or a location below a file, into a directory. */
  lemma ObstructionPersists(t: Tree, r: Tree, k: seq<string>)
    requires OnlyAddsDirs(t, r)
    requires IsFile(t, k) || Blocked(t, k)
    ensures IsFile(r, k) || Blocked(r, k)
  {
    if !IsFile(t, k) {
      var i :| 0 < i < |k| && IsFile(t, k[..i]);
      assert IsFile(r, k[..i]);
    }
  }

  /** The file system the publishing code runs against, with the working
      directory that relative paths are taken from. */
  class FileSystem {
    var tree: Tree
    const cwd: seq<string>

    ghost predicate Valid()
      reads this
    {
      WellFormed(tree)
    }

    constructor (t: Tree, cwd: seq<string>)
      requires WellFormed(t)
      ensures Valid() && tree == t && this.cwd == cwd
    {
      tree := t;
      this.cwd := cwd;
    }

    /** Where a path string points from the working directory. */
    function Where(p: Path): seq<string>
    {
      Locate(cwd, p)
    }

    method MakeDirectories(p: Path) returns (fault: Option<Fault>)
      requires Valid()
      modifies this
      ensures Valid()
      ensures var r := MakeDirs(old(tree), Where(p), Show(p));
              fault == (if r.Failure? then Some(r.error) else None)
              && tree == (if r.Success? then r.value else old(tree))
    {
      var r := MakeDirs(tree, Where(p), Show(p));
      if r.Success? {
        tree := r.value;
        fault := None;
      } else {
        fault := Some(r.error);
      }
    }

    method Remove(p: Path)
      requires Valid()
      modifies this
      ensures Valid()
      ensures tree == RemoveTree(old(tree), Where(p))
    {
      tree := RemoveTree(tree, Where(p));
    }

    method Write(p: Path, c: Content) returns (fault: Option<Fault>)
      requires Valid()
      modifies this
      ensures Valid()
      ensures var r := WriteFile(old(tree), Where(p), c, Show(p));
              fault == (if r.Failure? then Some(r.error) else None)
              && tree == (if r.Success? then r.value else old(tree))
    {
      var r := WriteFile(tree, Where(p), c, Show(p));
      if r.Success? {
        tree := r.value;
        fault := None;
      } else {
        fault := Some(r.error);
      }
    }

    method CopyDirectory(src: Path, dst: Path, excluded: set<string>) returns (fault: Option<Fault>)
      requires Valid()
      modifies this
      ensures Valid()
      ensures var r := CopyTree(old(tree), Where(src), Where(dst), excluded, Show(src), Show(dst));
              fault == (if r.Failure? then Some(r.error) else None)
              && tree == (if r.Success? then r.value else old(tree))
    {
      var r := CopyTree(tree, Where(src), Where(dst), excluded, Show(src), Show(dst));
      if r.Success? {
        tree := r.value;
        fault := None;
      } else {
        fault := Some(r.error);
      }
    }
  }
}

=== FILE: github_pr.dfy ===
/**
  * `GitHubCreatePRTool`: checks that a GitHub token is configured, extracts
  * the owner and repository from the repository URL, builds the pull-request
  * creation request for the GitHub REST API. The request itself and the
  * report of its answer are not part of this model.
  */
module GithubPr {

  import opened Results
  import opened Text

  /** The owner and repository a URL names. */
  datatype Repo = Repo(owner: string, name: string)

  /** Why a URL names no repository. */
  datatype UrlError =
    | NotGithub      // no path segment is exactly "github.com"
    | MissingParts   // fewer than two segments follow "github.com"

  /** The request the tool posts: the endpoint, the headers and the JSON
      payload, each header and field as a (key, value) pair in source order. */
  datatype PrRequest = PrRequest(apiUrl: string, headers: seq<(string, string)>, payload: seq<(string, string)>)

  /** The URL of a repository on GitHub. */
  function GithubUrl(owner: string, name: string): string
  {
    "https://github.com/" + owner + "/" + name
  }

  /** Python's `parts.index(x)`, called once `x in parts` holds: the first index of `x`. */
  function IndexOf(parts: seq<string>, x: string): (i: nat)
    requires x in parts
    ensures i < |parts| && parts[i] == x
    ensures forall j :: 0 <= j < i ==> parts[j] != x
  {
    if parts[0] == x then 0 else 1 + IndexOf(parts[1..], x)
  }

  /** The owner and repository are the two segments after the first "github.com". */
  function ExtractRepo(parts: seq<string>): (r: Result<Repo, UrlError>)
    ensures r.Failure? && r.error == NotGithub <==> "github.com" !in parts
    ensures r == Failure(MissingParts) <==>
              exists i :: 0 <= i < |parts| && |parts| < i + 3 && parts[i] == "github.com"
                          && forall j :: 0 <= j < i ==> parts[j] != "github.com"
    ensures r.Success? ==>
              exists i :: 0 <= i < |parts| - 2 && parts[i] == "github.com"
                          && (forall j :: 0 <= j < i ==> parts[j] != "github.com")
                          && r.value == Repo(parts[i + 1], parts[i + 2])
  {
    if "github.com" !in parts then Failure(NotGithub)
    else
      var i := IndexOf(parts, "github.com");
      assert forall k :: (0 <= k < |parts| && parts[k] == "github.com"
                          && forall j :: 0 <= j < k ==> parts[j] != "github.com") ==> k == i;
      if |parts| < i + 3 then Failure(MissingParts)
      else Success(Repo(parts[i + 1], parts[i + 2]))
  }

  /** URL parsing as written: every ".git" anywhere in the URL is removed
      before it is cut at '/'. */
  function ParseRepoUrlAsWritten(url: string): Result<Repo, UrlError>
  {
    ExtractRepo(Split(RemoveAll(url, ".git"), '/'))
  }

  /** The ".git" suffix of a clone URL, and only that, is dropped. */
  function StripGitSuffix(url: string): (r: string)
    ensures EndsWith(url, ".git") ==> r + ".git" == url
    ensures !EndsWith(url, ".git") ==> r == url
  {
    if EndsWith(url, ".git") then url[..|url| - 4] else url
  }

  /** URL parsing as intended: only a trailing ".git" is dropped. */
  function ParseRepoUrl(url: string): Result<Repo, UrlError>
  {
    ExtractRepo(Split(StripGitSuffix(url), '/'))
  }

  /** The path segments of a GitHub repository URL. */
  lemma GithubUrlSegments(owner: string, name: string)
    requires '/' !in owner && '/' !in name
    ensures Split(GithubUrl(owner, name), '/') == ["https:", "", "github.com", owner, name]
  {
    var parts := ["https:", "", "github.com", owner, name];
    assert Join(parts[3..], "/") == owner + "/" + name;
    assert Join(parts[2..], "/") == "github.com" + "/" + (owner + "/" + name);
    assert "https:" + "/" + ("" + "/" + ("github.com" + "/")) == "https://github.com/";
    assert Join(parts, "/") == GithubUrl(owner, name);
    SplitJoin(parts, '/');
  }

  /** The segments of a repository URL name that repository. */
  lemma ExtractGithubSegments(owner: string, name: string)
    ensures ExtractRepo(["https:", "", "github.com", owner, name]) == Success(Repo(owner, name))
  {
    var parts := ["https:", "", "github.com", owner, name];
    assert |parts[0]| == 6 && |parts[1]| == 0;
    assert parts[2..][0] == "github.com" && parts[1..][1..] == parts[2..];
    assert IndexOf(parts, "github.com") == 2;
  }

  /** A repository URL ends with ".git" only when the repository name does. */
  lemma GithubUrlSuffix(owner: string, name: string)
    ensures EndsWith(GithubUrl(owner, name), ".git") ==> EndsWith(name, ".git")
  {
    var url := GithubUrl(owner, name);
    if |name| >= 4 {
      assert url[|url| - 4..] == name[|name| - 4..];
    } else {
      assert url[|url| - 1 - |name|] == '/';
      assert url[|url| - 4..][3 - |name|] == '/';
    }
  }

  /** A repository URL, with or without ".git", names its own owner and repository. */
  lemma {:induction false} ParseRepoUrlRoundTrip(owner: string, name: string)
    requires '/' !in owner && '/' !in name
    ensures ParseRepoUrl(GithubUrl(owner, name) + ".git") == Success(Repo(owner, name))
    ensures !EndsWith(name, ".git") ==> ParseRepoUrl(GithubUrl(owner, name)) == Success(Repo(owner, name))
  {
    var url := GithubUrl(owner, name);
    GithubUrlSegments(owner, name);
    assert EndsWith(url + ".git", ".git");
    assert (url + ".git")[..|url|] == url;
    assert StripGitSuffix(url + ".git") == url;
    ExtractGithubSegments(owner, name);
    GithubUrlSuffix(owner, name);
  }

  /** Removing ".git" from the Pages suffix leaves "hub.io". */
  lemma PagesSuffixRemoveAll()
    ensures RemoveAll(".github.io", ".git") == "hub.io"
  {
    assert ".github.io"[..4] == ".git" && ".github.io"[4..] == "hub" + ".io";
    RemoveAllKeepPrefix("hub", ".io", ".git");
  }

  lemma GithubUrlHead(owner: string, name: string)
    ensures GithubUrl(owner, name) == "https://github.com/" + (owner + "/" + name)
  {
  }

  /** Removing every ".git" from the path of the Pages repository's URL. */
  lemma PagesPathRemoveAll(owner: string)
    requires '.' !in owner
    ensures RemoveAll(".com/" + (owner + "/" + owner + ".github.io"), ".git")
         == "." + ("com/" + (owner + "/" + owner + "hub.io"))
  {
    var pat := ".git";
    var rest := owner + "/" + owner + ".github.io";
    var com := ".com/" + rest;
    assert com[1] == 'c' && pat[1] == 'g';
    assert com[..4] != pat && com[1..] == "com/" + rest;
    assert RemoveAll(com, pat) == "." + RemoveAll("com/" + rest, pat);
    RemoveAllKeepPrefix("com/", rest, pat);
    assert rest == (owner + "/" + owner) + ".github.io";
    RemoveAllKeepPrefix(owner + "/" + owner, ".github.io", pat);
    PagesSuffixRemoveAll();
  }

  /** Removing every ".git" from the Pages repository's URL. */
  lemma PagesRepoRemoveAll(owner: string)
    requires '.' !in owner
    ensures RemoveAll(GithubUrl(owner, owner + ".github.io"), ".git") == GithubUrl(owner, owner + "hub.io")
  {
    var pages := owner + "/" + owner + ".github.io";
    PagesUrlSplit(owner);
    RemoveAllKeepPrefix("https://github", ".com/" + pages, ".git");
    PagesPathRemoveAll(owner);
    PagesUrlJoin(owner);
  }

  /** The Pages repository's URL, cut before the first '.'. */
  lemma PagesUrlSplit(owner: string)
    ensures GithubUrl(owner, owner + ".github.io") == "https://github" + (".com/" + (owner + "/" + owner + ".github.io"))
  {
    var host, pages := "https://github", owner + "/" + owner + ".github.io";
    GithubUrlHead(owner, owner + ".github.io");
    AppendAssoc(owner + "/", owner, ".github.io");
    assert "https://github.com/" == host + ".com/";
    AppendAssoc(host, ".com/", pages);
  }

  /** The URL of the repository named `<owner>hub.io`, put back together. */
  lemma PagesUrlJoin(owner: string)
    ensures "https://github" + ("." + ("com/" + (owner + "/" + owner + "hub.io"))) == GithubUrl(owner, owner + "hub.io")
  {
    var host, kept := "https://github", owner + "/" + owner + "hub.io";
    AppendAssoc(".", "com/", kept);
    assert "https://github.com/" == host + ".com/";
    AppendAssoc(host, ".com/", kept);
    GithubUrlHead(owner, owner + "hub.io");
    AppendAssoc(owner + "/", owner, "hub.io");
  }

  /** The two parses disagree on every GitHub Pages repository URL: only the
      corrected one names the repository the URL points at. */
  lemma PagesRepoAsWritten(owner: string)
    requires '.' !in owner && '/' !in owner
    ensures ParseRepoUrlAsWritten(GithubUrl(owner, owner + ".github.io"))
            != ParseRepoUrl(GithubUrl(owner, owner + ".github.io"))
    ensures ParseRepoUrl(GithubUrl(owner, owner + ".github.io")) == Success(Repo(owner, owner + ".github.io"))
  {
    PagesRepoMisread(owner);
    var name := owner + ".github.io";
    assert name[|name| - 4] == 'b';
    ParseRepoUrlRoundTrip(owner, name);
    assert |owner + "hub.io"| != |name|;
  }

  /** As written, a ".git" inside the repository name is cut out as well: the
      GitHub Pages repository `<owner>.github.io` is read as `<owner>hub.io`. */
  lemma PagesRepoMisread(owner: string)
    requires '.' !in owner && '/' !in owner
    ensures ParseRepoUrlAsWritten(GithubUrl(owner, owner + ".github.io")) == Success(Repo(owner, owner + "hub.io"))
  {
    PagesRepoRemoveAll(owner);
    GithubUrlSegments(owner, owner + "hub.io");
    ExtractGithubSegments(owner, owner + "hub.io");
  }

  /** The request for a repository: POST to its pulls endpoint. */
  function BuildRequest(token: string, repo: Repo, title: string, body: string, head: string, base: string): PrRequest
  {
    PrRequest(
      "https://api.github.com/repos/" + repo.owner + "/" + repo.name + "/pulls",
      [("Accept", "application/vnd.github.v3+json"),
       ("Authorization", "token " + token),
       ("Content-Type", "application/json")],
      [("title", title), ("body", body), ("head", head), ("base", base)])
  }

  const TokenMissing := Error("GITHUB_TOKEN environment variable not set. " + "Cannot create PR.")

  /** `GitHubCreatePRTool._run` up to the API call, given what the URL parse
      returned: the request it posts, or the error report it returns instead. */
  function RequestFrom(token: string, url: string, parsed: Result<Repo, UrlError>,
                       title: string, body: string, head: string, base: string): Result<PrRequest, string>
  {
    if token == "" then Failure(TokenMissing)
    else
      match parsed
      case Failure(NotGithub) => Failure(Error("Invalid GitHub repository URL: " + url))
      case Failure(MissingParts) => Failure(Error("Could not extract owner/repo from URL: " + url))
      case Success(repo) => Success(BuildRequest(token, repo, title, body, head, base))
  }

  /** The tool with the corrected URL parse. */
  function PrepareRequest(token: string, url: string, title: string, body: string, head: string, base: string)
    : Result<PrRequest, string>
  {
    RequestFrom(token, url, ParseRepoUrl(url), title, body, head, base)
  }

  /** The tool as written, with every ".git" removed from the URL. */
  function PrepareRequestAsWritten(token: string, url: string, title: string, body: string, head: string,
                                   base: string): Result<PrRequest, string>
  {
    RequestFrom(token, url, ParseRepoUrlAsWritten(url), title, body, head, base)
  }

  /** No request is built without a token, whatever the URL. */
  lemma TokenCheckedFirst(url: string, title: string, body: string, head: string, base: string)
    ensures PrepareRequest("", url, title, body, head, base) == Failure(TokenMissing)
    ensures StartsWith(TokenMissing, "ERROR: ")
  {
    assert TokenMissing[..7] == "ERROR: ";
  }

  /** A request is built exactly when a token is set and the URL parses to a
      repository; it is addressed to that repository's pulls endpoint, carries
      the token, and its payload is the four given fields and nothing else.
      Every other outcome is an error report. */
  lemma RequestFromIff(token: string, url: string, parsed: Result<Repo, UrlError>,
                       title: string, body: string, head: string, base: string)
    ensures var r := RequestFrom(token, url, parsed, title, body, head, base);
            r.Success? <==> token != "" && parsed.Success?
    ensures var r := RequestFrom(token, url, parsed, title, body, head, base);
            r.Success? ==>
              var repo := parsed.value;
              && StartsWith(r.value.apiUrl, "https://api.github.com/repos/" + repo.owner + "/" + repo.name)
              && EndsWith(r.value.apiUrl, "/pulls")
              && ("Authorization", "token " + token) in r.value.headers
              && r.value.payload == [("title", title), ("body", body), ("head", head), ("base", base)]
    ensures var r := RequestFrom(token, url, parsed, title, body, head, base);
            r.Failure? ==> StartsWith(r.error, "ERROR: ")
  {
    var r := RequestFrom(token, url, parsed, title, body, head, base);
    if r.Success? {
      var repo := parsed.value;
      var p := "https://api.github.com/repos/" + repo.owner + "/" + repo.name;
      assert r.value.apiUrl == p + "/pulls";
      assert r.value.apiUrl[..|p|] == p;
    } else {
      assert r.error[..7] == "ERROR: ";
    }
  }

  /** The corrected tool builds a request exactly when a token is set and
      `ParseRepoUrl` names a repository, and the tool as written exactly when
      `ParseRepoUrlAsWritten` does; each request goes to the repository its
      parse named. */
  lemma PrepareRequestIff(token: string, url: string, title: string, body: string, head: string, base: string)
    ensures var r := PrepareRequest(token, url, title, body, head, base);
            (r.Success? <==> token != "" && ParseRepoUrl(url).Success?)
            && (r.Success? ==>
                  r.value == BuildRequest(token, ParseRepoUrl(url).value, title, body, head, base)
                  && EndsWith(r.value.apiUrl, "/pulls"))
            && (r.Failure? ==> StartsWith(r.error, "ERROR: "))
    ensures var r := PrepareRequestAsWritten(token, url, title, body, head, base);
            (r.Success? <==> token != "" && ParseRepoUrlAsWritten(url).Success?)
            && (r.Success? ==>
                  r.value == BuildRequest(token, ParseRepoUrlAsWritten(url).value, title, body, head, base)
                  && EndsWith(r.value.apiUrl, "/pulls"))
            && (r.Failure? ==> StartsWith(r.error, "ERROR: "))
  {
    RequestFromIff(token, url, ParseRepoUrl(url), title, body, head, base);
    RequestFromIff(token, url, ParseRepoUrlAsWritten(url), title, body, head, base);
  }

  /** A pull request on `https://github.com/<owner>/<name>.git` is posted to
      `repos/<owner>/<name>/pulls`. */
  lemma CreatePrOnRepository(token: string, owner: string, name: string, title: string,
                             body: string, head: string, base: string)
    requires token != "" && '/' !in owner && '/' !in name
    ensures var request := PrepareRequest(token, GithubUrl(owner, name) + ".git", title, body, head, base);
            && request.Success?
            && request.value.apiUrl == "https://api.github.com/repos/" + owner + "/" + name + "/pulls"
  {
    ParseRepoUrlRoundTrip(owner, name);
  }

  /** A repository URL holds ".git" only where its owner or name does. */
  lemma GithubUrlNoGit(owner: string, name: string)
    requires !Contains(owner, ".git") && !Contains(name, ".git")
    ensures !Contains(GithubUrl(owner, name), ".git")
  {
    var host := "https://github.com";
    assert !Contains(".com", ".git") by {
      assert ".com"[0..4] == ".com" && ".com"[1] != ".git"[1];
    }
    assert host == "https://github" + ".com";
    NotContainsAfter("https://github", ".com", ".git");
    NotContainsAround(host, '/', owner, ".git");
    NotContainsAround(host + ['/'] + owner, '/', name, ".git");
    assert GithubUrl(owner, name) == (host + ['/'] + owner) + ['/'] + name;
  }

  /** As written, a URL whose owner and name hold no ".git" is parsed the
      same as by the corrected parse, with or without the ".git" suffix. */
  lemma ParseAsWrittenPlainRepo(owner: string, name: string)
    requires '/' !in owner && '/' !in name
    requires !Contains(owner, ".git") && !Contains(name, ".git")
    ensures ParseRepoUrlAsWritten(GithubUrl(owner, name) + ".git") == Success(Repo(owner, name))
    ensures ParseRepoUrlAsWritten(GithubUrl(owner, name)) == Success(Repo(owner, name))
  {
    var url := GithubUrl(owner, name);
    GithubUrlNoGit(owner, name);
    assert ".git"[1..] == "git";
    RemoveAllThenPattern(url, ".git");
    RemoveAllAbsent(url, ".git");
    GithubUrlSegments(owner, name);
    ExtractGithubSegments(owner, name);
  }

  /** As written, a pull request on a repository whose owner and name hold no
      ".git" goes where the corrected tool sends it. */
  lemma CreatePrOnRepositoryAsWritten(token: string, owner: string, name: string, title: string,
                                      body: string, head: string, base: string)
    requires token != "" && '/' !in owner && '/' !in name
    requires !Contains(owner, ".git") && !Contains(name, ".git")
    ensures var url := GithubUrl(owner, name) + ".git";
            var request := PrepareRequestAsWritten(token, url, title, body, head, base);
            request == PrepareRequest(token, url, title, body, head, base)
            && request.Success?
            && request.value.apiUrl == "https://api.github.com/repos/" + owner + "/" + name + "/pulls"
  {
    ParseAsWrittenPlainRepo(owner, name);
    ParseRepoUrlRoundTrip(owner, name);
  }

  /** As written, a pull request on a GitHub Pages repository `<owner>.github.io`
      is built for, and posted to the pulls endpoint of, `<owner>hub.io`. */
  lemma PagesRequestMisdirected(token: string, owner: string, title: string, body: string, head: string,
                                base: string)
    requires token != "" && '.' !in owner && '/' !in owner
    ensures var url := GithubUrl(owner, owner + ".github.io");
            var asWritten := PrepareRequestAsWritten(token, url, title, body, head, base);
            var corrected := PrepareRequest(token, url, title, body, head, base);
            asWritten == Success(BuildRequest(token, Repo(owner, owner + "hub.io"), title, body, head, base))
            && corrected == Success(BuildRequest(token, Repo(owner, owner + ".github.io"), title, body, head, base))
  {
    PagesRepoAsWritten(owner);
    PagesRepoMisread(owner);
  }
}

=== FILE: list_directory.dfy ===
/**
  * `LimitedListDirectoryTool`: lists a directory through the underlying
  * listing tool, and cuts a listing of more than fifty entries down to its
  * first fifty entries followed by a notice line.
  */
module ListDirectory {

  import opened Results
  import opened Text
  import opened Paths
  import opened FileTree

  const MaxListingItems := 50

  /** The line that closes a cut listing. */
  const TruncateNotice := "... (showing first 50 items, " + "use list_directory on subdirectories)"

  /** `ListDirectoryTool._run(dir_path)`: the listing text, or the exception raised. */
  type Lister = string -> Result<string, Exc>

  /** A line that counts as an entry: not blank and not an error line. */
  predicate Counted(line: string)
  {
    Strip(line) != "" && !StartsWith(line, "ERROR")
  }

  /** The counted lines, in order. */
  function CountedLines(lines: seq<string>): (r: seq<string>)
    ensures |r| <= |lines|
  {
    if |lines| == 0 then []
    else (if Counted(lines[0]) then [lines[0]] else []) + CountedLines(lines[1..])
  }

  /** Every kept line is a counted line of the input. */
  lemma {:induction false} CountedLinesSound(lines: seq<string>)
    ensures forall x :: x in CountedLines(lines) ==> Counted(x) && x in lines
  {
    if |lines| > 0 {
      CountedLinesSound(lines[1..]);
      var head := if Counted(lines[0]) then [lines[0]] else [];
      forall x | x in CountedLines(lines) ensures Counted(x) && x in lines {
        if x !in head {
          assert x in CountedLines(lines[1..]);
        }
      }
    }
  }

  /** A listing whose every line counts is kept whole. */
  lemma {:induction false} CountedLinesAll(lines: seq<string>)
    requires forall i :: 0 <= i < |lines| ==> Counted(lines[i])
    ensures CountedLines(lines) == lines
  {
    if |lines| > 0 {
      assert Counted(lines[0]);
      CountedLinesAll(lines[1..]);
      assert [lines[0]] + lines[1..] == lines;
    }
  }

  /** The entries of a listing. */
  function Items(listing: string): seq<string>
  {
    CountedLines(Split(listing, '\n'))
  }

  /** The listing passed on: unchanged up to fifty entries, otherwise the first
      fifty entries and the notice. */
  function Truncate(listing: string): string
  {
    var items := Items(listing);
    if |items| > MaxListingItems then Join(items[..MaxListingItems], "\n") + "\n" + TruncateNotice
    else listing
  }

  /** `LimitedListDirectoryTool._run`. */
  function ListDirectory(t: Tree, cwd: seq<string>, lister: Lister, dirPath: string): string
  {
    var k := Locate(cwd, ParsePath(dirPath));
    if !Exists(t, k) then Error("Directory " + Quoted(dirPath) + " does not exist.")
    else if !IsDir(t, k) then Error(Quoted(dirPath) + " is not a directory.")
    else
      match lister(dirPath)
      case Failure(e) => Error("Failed to list directory " + Quoted(dirPath) + (": " + e.msg))
      case Success(listing) => Truncate(listing)
  }

  lemma NoticeCounted()
    ensures Counted(TruncateNotice) && '\n' !in TruncateNotice
  {
    var a := "... (showing first 50 items, ";
    var b := "use list_directory on subdirectories)";
    assert '\n' !in a && '\n' !in b;
    assert TruncateNotice[0] == a[0];
    CountedWhenDotted(TruncateNotice);
  }

  /** A line that starts with a dot counts. */
  lemma CountedWhenDotted(line: string)
    requires |line| > 0 && line[0] == '.'
    ensures Counted(line)
  {
    StripEmptyIffBlank(line);
    assert !IsSpace(line[0]);
    assert Strip(line) != "";
    assert !StartsWith(line, "ERROR") by {
      if |line| >= 5 {
        assert line[..5][0] == '.';
      }
    }
  }

  /** A cut listing consists of exactly the first fifty entries, one per line,
      and the notice; read again, its entries are those fifty and the notice. */
  lemma TruncatedLines(listing: string)
    requires |Items(listing)| > MaxListingItems
    ensures Split(Truncate(listing), '\n') == Items(listing)[..MaxListingItems] + [TruncateNotice]
    ensures Items(Truncate(listing)) == Items(listing)[..MaxListingItems] + [TruncateNotice]
  {
    var kept := Items(listing)[..MaxListingItems];
    var lines := kept + [TruncateNotice];
    NoticeCounted();
    JoinAppend(kept, [TruncateNotice], "\n");
    assert Join(lines, "\n") == Truncate(listing);
    CountedLinesSound(Split(listing, '\n'));
    forall i | 0 <= i < |lines| ensures '\n' !in lines[i] && Counted(lines[i]) {
      if i < |kept| {
        assert kept[i] in Items(listing);
      }
    }
    SplitJoin(lines, '\n');
    CountedLinesAll(lines);
  }

  /** Cutting is idempotent: a cut listing passes through unchanged. */
  lemma TruncateIdempotent(listing: string)
    ensures Truncate(Truncate(listing)) == Truncate(listing)
  {
    if |Items(listing)| > MaxListingItems {
      TruncatedLines(listing);
      var kept := Items(listing)[..MaxListingItems];
      assert (kept + [TruncateNotice])[..MaxListingItems] == kept;
    }
  }

  /** The tool lists only existing directories: anything else, and a listing
      that fails, is an error report naming the directory. */
  lemma ListDirectoryErrors(t: Tree, cwd: seq<string>, lister: Lister, dirPath: string)
    ensures var msg := ListDirectory(t, cwd, lister, dirPath);
            var k := Locate(cwd, ParsePath(dirPath));
            (!IsDir(t, k) || lister(dirPath).Failure?) ==>
              StartsWith(msg, "ERROR: ") && Contains(msg, Quoted(dirPath))
  {
    var k := Locate(cwd, ParsePath(dirPath));
    var msg := ListDirectory(t, cwd, lister, dirPath);
    var detail: string;
    if !Exists(t, k) {
      detail := "Directory " + Quoted(dirPath) + " does not exist.";
      ErrorContains("Directory ", Quoted(dirPath), " does not exist.");
    } else if !IsDir(t, k) {
      detail := Quoted(dirPath) + " is not a directory.";
      ErrorContains("", Quoted(dirPath), " is not a directory.");
      assert "" + Quoted(dirPath) == Quoted(dirPath);
    } else if lister(dirPath).Failure? {
      detail := "Failed to list directory " + Quoted(dirPath) + (": " + lister(dirPath).error.msg);
      ErrorContains("Failed to list directory ", Quoted(dirPath), ": " + lister(dirPath).error.msg);
    } else {
      return;
    }
    assert msg == Error(detail);
    assert msg[..7] == "ERROR: ";
  }

  /** A listing of a directory is passed on unchanged up to fifty entries, and
      cut to its first fifty entries and the notice beyond. */
  lemma ListDirectoryListing(t: Tree, cwd: seq<string>, lister: Lister, dirPath: string)
    requires IsDir(t, Locate(cwd, ParsePath(dirPath))) && lister(dirPath).Success?
    ensures var msg := ListDirectory(t, cwd, lister, dirPath);
            var listing := lister(dirPath).value;
            (|Items(listing)| <= MaxListingItems ==> msg == listing)
            && (|Items(listing)| > MaxListingItems ==> Items(msg) == Items(listing)[..MaxListingItems] + [TruncateNotice])
  {
    if |Items(lister(dirPath).value)| > MaxListingItems {
      TruncatedLines(lister(dirPath).value);
    }
  }
}

=== FILE: paths.dfy ===
/**
  * POSIX paths as `pathlib.PurePosixPath` treats them: parsing a string, `str(p)`,
  * `p / s`, `p.parent`, `p.name`, `p.suffix`, and the location a path denotes
  * once the working directory and `..` are taken into account (what
  * `Path.resolve()` computes on a tree without symbolic links).
  */
module Paths {

  import opened Text

  /** A parsed path: whether it starts at the root, and its components.
      Parsing drops empty components and "." (as pathlib does), never "..". */
  datatype Path = Path(absolute: bool, parts: seq<string>)

  predicate IsComponent(c: string)
  {
    c != "" && c != "." && '/' !in c
  }

  predicate ValidPath(p: Path)
  {
    forall i :: 0 <= i < |p.parts| ==> IsComponent(p.parts[i])
  }

  /** The pieces of a split path string that pathlib keeps. */
  function KeepParts(pieces: seq<string>): (r: seq<string>)
    requires forall i :: 0 <= i < |pieces| ==> '/' !in pieces[i]
    ensures forall i :: 0 <= i < |r| ==> IsComponent(r[i])
    ensures |r| <= |pieces|
  {
    if |pieces| == 0 then []
    else (if pieces[0] == "" || pieces[0] == "." then [] else [pieces[0]]) + KeepParts(pieces[1..])
  }

  lemma {:induction false} KeepPartsOfComponents(pieces: seq<string>)
    requires forall i :: 0 <= i < |pieces| ==> '/' !in pieces[i]
    requires forall i :: 0 <= i < |pieces| ==> IsComponent(pieces[i])
    ensures KeepParts(pieces) == pieces
  {
    if |pieces| > 0 {
      KeepPartsOfComponents(pieces[1..]);
      assert [pieces[0]] + pieces[1..] == pieces;
    }
  }

  /** `PurePosixPath(s)`. */
  function ParsePath(s: string): (p: Path)
    ensures ValidPath(p)
    ensures p.absolute <==> StartsWith(s, "/")
  {
    Path(|s| > 0 && s[0] == '/', KeepParts(Split(s, '/')))
  }

  /** `str(p)`. */
  function Show(p: Path): string
  {
    if p.absolute then "/" + Join(p.parts, "/")
    else if |p.parts| == 0 then "."
    else Join(p.parts, "/")
  }

  lemma JoinStartsWithFirst(parts: seq<string>, sep: string)
    requires |parts| >= 1 && |parts[0]| >= 1
    ensures |Join(parts, sep)| >= 1 && Join(parts, sep)[0] == parts[0][0]
  {
  }

  /** Printing a well-formed path and parsing it again gives the path back. */
  lemma ParseShow(p: Path)
    requires ValidPath(p)
    ensures ParsePath(Show(p)) == p
  {
    var s := Show(p);
    if p.absolute {
      SplitAfterSeparator("", '/', Join(p.parts, "/"));
      assert s == "" + ['/'] + Join(p.parts, "/");
      if |p.parts| == 0 {
        assert Split(s, '/') == ["", ""];
      } else {
        SplitJoin(p.parts, '/');
        assert Split(s, '/') == [""] + p.parts;
        assert Split(s, '/')[1..] == p.parts;
        KeepPartsOfComponents(p.parts);
      }
    } else if |p.parts| == 0 {
      SplitNoSeparator(".", '/');
    } else {
      SplitJoin(p.parts, '/');
      KeepPartsOfComponents(p.parts);
      JoinStartsWithFirst(p.parts, "/");
    }
  }

  /** Empty and "." pieces are dropped. */
  lemma KeepPartsSkip(x: string, rest: seq<string>)
    requires x == "" || x == "."
    requires forall i :: 0 <= i < |rest| ==> '/' !in rest[i]
    ensures forall i :: 0 <= i < |[x] + rest| ==> '/' !in ([x] + rest)[i]
    ensures KeepParts([x] + rest) == KeepParts(rest)
  {
    assert ([x] + rest)[1..] == rest;
  }

  /** A leading separator contributes an empty first piece. */
  lemma SplitLeadingSlash(t: string)
    ensures Split("/" + t, '/') == [""] + Split(t, '/')
  {
    SplitAfterSeparator("", '/', t);
    assert "" + ['/'] + t == "/" + t;
  }

  /** "/" followed by "/c1/.../cn" parses to the absolute path c1/.../cn. */
  lemma ParseRootExtend(comps: seq<string>)
    requires |comps| >= 1
    requires forall i :: 0 <= i < |comps| ==> IsComponent(comps[i])
    ensures ParsePath("/" + "/" + Join(comps, "/")) == Path(true, comps)
  {
    var tail := Join(comps, "/");
    var s := "/" + ("/" + tail);
    assert "/" + "/" + tail == s;
    SplitLeadingSlash(tail);
    SplitLeadingSlash("/" + tail);
    SplitJoin(comps, '/');
    var pieces := Split(s, '/');
    assert pieces == [""] + ([""] + comps);
    KeepPartsSkip("", [""] + comps);
    KeepPartsSkip("", comps);
    KeepPartsOfComponents(comps);
  }

  /** "." followed by "/c1/.../cn" parses to the relative path c1/.../cn. */
  lemma ParseDotExtend(comps: seq<string>)
    requires |comps| >= 1
    requires forall i :: 0 <= i < |comps| ==> IsComponent(comps[i])
    ensures ParsePath("." + "/" + Join(comps, "/")) == Path(false, comps)
  {
    var tail := Join(comps, "/");
    var s := "." + "/" + tail;
    SplitJoin(comps, '/');
    SplitAfterSeparator(".", '/', tail);
    assert "." + ['/'] + tail == s;
    var pieces := Split(s, '/');
    assert pieces == ["."] + comps;
    assert pieces[1..] == comps;
    KeepPartsOfComponents(comps);
  }

  /** Appending "/c1/.../cn" to the printed form of a path parses to the path
      extended by those components: the f-string paths of the publisher denote
      the same places as pathlib's `/`. */
  lemma ParseShowExtend(p: Path, comps: seq<string>)
    requires ValidPath(p)
    requires |comps| >= 1
    requires forall i :: 0 <= i < |comps| ==> IsComponent(comps[i])
    ensures ParsePath(Show(p) + "/" + Join(comps, "/")) == Path(p.absolute, p.parts + comps)
  {
    if |p.parts| == 0 {
      assert p.parts + comps == comps;
      if p.absolute {
        assert Show(p) == "/";
        ParseRootExtend(comps);
      } else {
        ParseDotExtend(comps);
      }
    } else {
      var q := Path(p.absolute, p.parts + comps);
      ShowExtend(p, comps);
      ParseShow(q);
    }
  }

  lemma ShowExtend(p: Path, comps: seq<string>)
    requires |p.parts| >= 1 && |comps| >= 1
    ensures Show(p) + "/" + Join(comps, "/") == Show(Path(p.absolute, p.parts + comps))
  {
    var q := Path(p.absolute, p.parts + comps);
    var root := if p.absolute then "/" else "";
    ShowNonEmpty(p);
    ShowNonEmpty(q);
    JoinAppend(p.parts, comps, "/");
    AppendAssoc(root, Join(p.parts, "/"), "/");
    AppendAssoc(root, Join(p.parts, "/") + "/", Join(comps, "/"));
  }

  /** A path with components shows as its root, if any, and the joined components. */
  lemma ShowNonEmpty(p: Path)
    requires |p.parts| >= 1
    ensures Show(p) == (if p.absolute then "/" else "") + Join(p.parts, "/")
  {
  }

  /** `p / s`: an absolute `s` replaces `p`, anything else extends it. */
  function JoinPath(p: Path, s: string): (r: Path)
    requires ValidPath(p)
    ensures ValidPath(r)
  {
    var q := ParsePath(s);
    if q.absolute then q else Path(p.absolute, p.parts + q.parts)
  }

  /** Joining a single component appends it. */
  lemma JoinComponent(p: Path, c: string)
    requires ValidPath(p)
    requires IsComponent(c)
    ensures JoinPath(p, c) == Path(p.absolute, p.parts + [c])
  {
    SplitNoSeparator(c, '/');
    assert Split(c, '/') == [c];
    assert KeepParts([c]) == [c];
  }

  /** `p.parent`: lexical, and the parent of "." or "/" is itself. */
  function Parent(p: Path): (r: Path)
    requires ValidPath(p)
    ensures ValidPath(r)
    ensures r.absolute == p.absolute
    ensures |p.parts| > 0 ==> r.parts + [p.parts[|p.parts| - 1]] == p.parts
    ensures |p.parts| == 0 ==> r == p
  {
    if |p.parts| == 0 then p else Path(p.absolute, p.parts[..|p.parts| - 1])
  }

  /** The location of a path, from the location of its lexical parent: one
      level deeper, or one level up when the last component is "..". */
  lemma LocateParent(cwd: seq<string>, p: Path)
    requires ValidPath(p) && |p.parts| > 0
    ensures var up := Locate(cwd, Parent(p));
            var last := p.parts[|p.parts| - 1];
            Locate(cwd, p) == if last == ".." then (if |up| == 0 then [] else up[..|up| - 1]) else up + [last]
  {
    var base := if p.absolute then [] else cwd;
    assert (base + p.parts)[..|base + p.parts| - 1] == base + Parent(p).parts;
  }

  /** `p.name`. */
  function Name(p: Path): string
  {
    if |p.parts| == 0 then "" else p.parts[|p.parts| - 1]
  }

  /** Index of the last `c` in `s`, or -1 (`s.rfind(c)`). */
  function LastIndexOf(s: string, c: char): (i: int)
    ensures -1 <= i < |s|
    ensures 0 <= i ==> s[i] == c
    ensures forall j :: i < j < |s| ==> s[j] != c
  {
    if |s| == 0 then -1
    else if s[|s| - 1] == c then |s| - 1
    else LastIndexOf(s[..|s| - 1], c)
  }

  /** `p.suffix`: from the last dot of the name, unless that dot leads or ends it. */
  function Suffix(p: Path): (r: string)
    ensures r == "" || (r[0] == '.' && |r| >= 2 && EndsWith(Name(p), r))
  {
    var name := Name(p);
    var i := LastIndexOf(name, '.');
    if 0 < i < |name| - 1 then name[i..] else ""
  }

  /** Folding ".." components: each steps one level up, and stays at the root. */
  function Normalize(parts: seq<string>): (r: seq<string>)
    ensures forall i :: 0 <= i < |r| ==> r[i] != ".."
    ensures |r| <= |parts|
  {
    if |parts| == 0 then []
    else
      var up := Normalize(parts[..|parts| - 1]);
      var last := parts[|parts| - 1];
      if last == ".." then (if |up| == 0 then [] else up[..|up| - 1]) else up + [last]
  }

  /** Normalizing leaves alone components appended after an already normal prefix. */
  lemma {:induction false} NormalizeAppend(a: seq<string>, b: seq<string>)
    requires forall i :: 0 <= i < |b| ==> b[i] != ".."
    ensures Normalize(a + b) == Normalize(a) + b
    decreases |b|
  {
    if |b| == 0 {
      assert a + b == a;
    } else {
      var b' := b[..|b| - 1];
      assert (a + b)[..|a + b| - 1] == a + b';
      NormalizeAppend(a, b');
      assert b' + [b[|b| - 1]] == b;
    }
  }

  lemma NormalizeNormal(a: seq<string>)
    requires forall i :: 0 <= i < |a| ==> a[i] != ".."
    ensures Normalize(a) == a
  {
    NormalizeAppend([], a);
    assert [] + a == a;
  }

  /** The directory chain a path denotes from working directory `cwd`. */
  function Locate(cwd: seq<string>, p: Path): seq<string>
  {
    Normalize((if p.absolute then [] else cwd) + p.parts)
  }

  /** A path printed as absolute (`str(p.resolve())`). */
  function ShowLocation(key: seq<string>): string
  {
    Show(Path(true, key))
  }

  /** A path without ".." denotes the working directory extended by its components. */
  lemma LocatePlain(cwd: seq<string>, p: Path)
    requires forall i :: 0 <= i < |cwd| ==> cwd[i] != ".."
    requires forall i :: 0 <= i < |p.parts| ==> p.parts[i] != ".."
    ensures Locate(cwd, p) == (if p.absolute then [] else cwd) + p.parts
  {
    var base := if p.absolute then [] else cwd;
    NormalizeAppend(base, p.parts);
    NormalizeNormal(base);
  }
}

=== FILE: publish.dfy ===
/**
  * Assembling an Ansible project from migrated roles (`publish_project`) and
  * reporting an AAP sync (`publish_aap`), src/publishers/publish.py.
  *
  * `publish_project` checks its arguments, then runs a fixed pipeline against
  * the file tree: the skeleton directories, one copy per role, one playbook
  * per role, the three project files and the final check. The first
  * exception ends the run, leaving the tree as the failing call left it.
  */
module Publish {

  import opened Results
  import opened Text
  import opened Paths
  import opened YamlValue
  import opened FileTree
  import opened PublisherTools
  import opened AapSync

  // -------------------------------------------------------------- pipeline

  /** The directories created first, below the deployment directory. */
  const Skeleton: seq<string> := ["collections", "inventory", "roles", "playbooks"]

  function RoleDestination(publishDir: string, role: string): string
  {
    publishDir + "/roles/" + role
  }

  function PlaybookFile(publishDir: string, role: string): string
  {
    publishDir + "/playbooks/run_" + role + ".yml"
  }

  /** The three project-wide files, in the order they are checked. */
  function GlobalFiles(publishDir: string): seq<string>
  {
    [publishDir + "/ansible.cfg", publishDir + "/collections/requirements.yml", publishDir + "/inventory/hosts.yml"]
  }

  /** The role directory, then the playbook, for every role in order. */
  function RoleFiles(publishDir: string, names: seq<string>): (r: seq<string>)
    ensures |r| == 2 * |names|
    ensures forall i :: 0 <= i < |names| ==>
              r[2 * i] == RoleDestination(publishDir, names[i]) && r[2 * i + 1] == PlaybookFile(publishDir, names[i])
    decreases |names|
  {
    if |names| == 0 then []
    else
      var front := names[..|names| - 1];
      var last := names[|names| - 1];
      var r := RoleFiles(publishDir, front) + [RoleDestination(publishDir, last), PlaybookFile(publishDir, last)];
      assert forall i :: 0 <= i < |front| ==> front[i] == names[i];
      r
  }

  /** `required_files`: the global files, then two entries per role. */
  function RequiredFiles(publishDir: string, names: seq<string>): (r: seq<string>)
    ensures |r| == 3 + 2 * |names|
    ensures r[..3] == GlobalFiles(publishDir)
    ensures forall i :: 0 <= i < |names| ==>
              r[3 + 2 * i] == RoleDestination(publishDir, names[i])
              && r[3 + 2 * i + 1] == PlaybookFile(publishDir, names[i])
  {
    GlobalFiles(publishDir) + RoleFiles(publishDir, names)
  }

  /** Running one call per item, in order; the first exception ends the
      run, leaving the tree as the failing call left it. */
  function RunEach<X>(step: (Tree, X) -> (Outcome<Exc>, Tree), t: Tree, items: seq<X>): (Outcome<Exc>, Tree)
    decreases |items|
  {
    if |items| == 0 then (Pass, t)
    else
      var prev := RunEach(step, t, items[..|items| - 1]);
      if prev.0.Fail? then prev else step(prev.1, items[|items| - 1])
  }

  /** Once a call has failed, the later items are not processed. */
  lemma {:induction false} RunEachStopsAtFailure<X>(step: (Tree, X) -> (Outcome<Exc>, Tree), t: Tree, items: seq<X>,
                                                    k: int)
    requires 0 <= k <= |items|
    requires RunEach(step, t, items[..k]).0.Fail?
    ensures RunEach(step, t, items) == RunEach(step, t, items[..k])
    decreases |items|
  {
    if k == |items| {
      assert items[..k] == items;
    } else {
      var front := items[..|items| - 1];
      assert front[..k] == items[..k];
      RunEachStopsAtFailure(step, t, front, k);
    }
  }

  /** One more call after a prefix that passed. */
  lemma RunEachSnoc<X>(step: (Tree, X) -> (Outcome<Exc>, Tree), t: Tree, items: seq<X>, i: int, current: Tree)
    requires 0 <= i < |items|
    requires RunEach(step, t, items[..i]) == (Pass, current)
    ensures RunEach(step, t, items[..i + 1]) == step(current, items[i])
  {
    assert items[..i + 1][..i] == items[..i];
  }

  /** One role: its source directory and its name. */
  datatype RoleSource = RoleSource(path: string, name: string)

  function RoleSources(names: seq<string>, paths: seq<string>): (r: seq<RoleSource>)
    requires |names| == |paths|
    ensures |r| == |names|
    ensures forall i :: 0 <= i < |names| ==> r[i] == RoleSource(paths[i], names[i])
  {
    seq(|names|, i requires 0 <= i < |names| => RoleSource(paths[i], names[i]))
  }

  /** `copy_role_directory(role_path, publish_dir / "roles" / role_name)`. */
  function CopyStep(cwd: seq<string>, publishDir: string): (Tree, RoleSource) -> (Outcome<Exc>, Tree)
  {
    (t: Tree, r: RoleSource) => CopyRoleEffect(t, cwd, r.path, RoleDestination(publishDir, r.name))
  }

  /** The playbook `publish_project` generates for one role. */
  function PlaybookStep(cwd: seq<string>, publishDir: string): (Tree, string) -> (Outcome<Exc>, Tree)
  {
    (t: Tree, role: string) =>
      PlaybookEffect(t, cwd, PlaybookFile(publishDir, role), "Run " + role, role, "all", false, None)
  }

  lemma CopyStepIs(cwd: seq<string>, publishDir: string, t: Tree, r: RoleSource)
    ensures CopyStep(cwd, publishDir)(t, r) == CopyRoleEffect(t, cwd, r.path, RoleDestination(publishDir, r.name))
  {
  }

  lemma PlaybookStepIs(cwd: seq<string>, publishDir: string, t: Tree, role: string)
    ensures PlaybookStep(cwd, publishDir)(t, role)
            == PlaybookEffect(t, cwd, PlaybookFile(publishDir, role), "Run " + role, role, "all", false, None)
  {
  }

  /** The three project-wide files. */
  datatype ProjectFile = AnsibleCfgFile | RequirementsFile(collections: Option<Yaml>) | HostsFile(inventory: Option<Yaml>)

  function ProjectFileStep(cwd: seq<string>, publishDir: string): (Tree, ProjectFile) -> (Outcome<Exc>, Tree)
  {
    (t: Tree, f: ProjectFile) =>
      match f
      case AnsibleCfgFile => AnsibleCfgEffect(t, cwd, publishDir + "/ansible.cfg")
      case RequirementsFile(c) => CollectionsEffect(t, cwd, publishDir + "/collections/requirements.yml", c)
      case HostsFile(i) => InventoryEffect(t, cwd, publishDir + "/inventory/hosts.yml", i)
  }

  function ProjectFiles(collections: Option<Yaml>, inventory: Option<Yaml>): seq<ProjectFile>
  {
    [AnsibleCfgFile, RequirementsFile(collections), HostsFile(inventory)]
  }

  lemma ProjectFileStepIs(cwd: seq<string>, publishDir: string, t: Tree, f: ProjectFile)
    ensures ProjectFileStep(cwd, publishDir)(t, f)
            == match f
               case AnsibleCfgFile => AnsibleCfgEffect(t, cwd, publishDir + "/ansible.cfg")
               case RequirementsFile(c) => CollectionsEffect(t, cwd, publishDir + "/collections/requirements.yml", c)
               case HostsFile(i) => InventoryEffect(t, cwd, publishDir + "/inventory/hosts.yml", i)
  {
  }

  /** The three project files, then the check of every required file. */
  function FinalEffect(t: Tree, cwd: seq<string>, publishDir: string, names: seq<string>,
                       collections: Option<Yaml>, inventory: Option<Yaml>): (Outcome<Exc>, Tree)
  {
    var g := RunEach(ProjectFileStep(cwd, publishDir), t, ProjectFiles(collections, inventory));
    if g.0.Fail? then g else (VerifyEffect(g.1, cwd, RequiredFiles(publishDir, names)), g.1)
  }

  /** Once the arguments are checked: skeleton, copies, playbooks, files. */
  function Pipeline(t: Tree, cwd: seq<string>, publishDir: string, names: seq<string>, paths: seq<string>,
                    collections: Option<Yaml>, inventory: Option<Yaml>): (Outcome<Exc>, Tree)
    requires |names| == |paths|
  {
    var s := CreateStructureEffect(t, cwd, publishDir, Skeleton);
    if s.0.Fail? then s
    else
      var r := RunEach(CopyStep(cwd, publishDir), s.1, RoleSources(names, paths));
      if r.0.Fail? then r
      else
        var p := RunEach(PlaybookStep(cwd, publishDir), r.1, names);
        if p.0.Fail? then p
        else FinalEffect(p.1, cwd, publishDir, names, collections, inventory)
  }

  /** The final check passes only when every required file is present. */
  lemma FinalCheck(t: Tree, cwd: seq<string>, publishDir: string, names: seq<string>,
                   collections: Option<Yaml>, inventory: Option<Yaml>)
    ensures var (o, t') := FinalEffect(t, cwd, publishDir, names, collections, inventory);
            var required := RequiredFiles(publishDir, names);
            o.Pass? ==> forall j :: 0 <= j < |required| ==> PathExists(t', cwd, required[j])
  {
    var g := RunEach(ProjectFileStep(cwd, publishDir), t, ProjectFiles(collections, inventory));
    VerifyIffAllExist(g.1, cwd, RequiredFiles(publishDir, names));
  }

  /** A pipeline that passes has passed its final check: every required file
      is present. */
  lemma PipelinePassed(t: Tree, cwd: seq<string>, publishDir: string, names: seq<string>, paths: seq<string>,
                       collections: Option<Yaml>, inventory: Option<Yaml>)
    requires |names| == |paths|
    ensures var (o, t') := Pipeline(t, cwd, publishDir, names, paths, collections, inventory);
            var required := RequiredFiles(publishDir, names);
            o.Pass? ==> forall j :: 0 <= j < |required| ==> PathExists(t', cwd, required[j])
  {
    var s := CreateStructureEffect(t, cwd, publishDir, Skeleton);
    if s.0.Pass? {
      var r := RunEach(CopyStep(cwd, publishDir), s.1, RoleSources(names, paths));
      if r.0.Pass? {
        var p := RunEach(PlaybookStep(cwd, publishDir), r.1, names);
        if p.0.Pass? {
          assert Pipeline(t, cwd, publishDir, names, paths, collections, inventory)
                 == FinalEffect(p.1, cwd, publishDir, names, collections, inventory);
          FinalCheck(p.1, cwd, publishDir, names, collections, inventory);
        }
      }
    }
  }

  // ------------------------------------------------------ deployment path

  /** The last component of the deployment directory. */
  function Leaf(names: seq<string>): string
    requires |names| > 0
  {
    if |names| == 1 then names[0] else "ansible-project"
  }

  /** Where the project goes: below `base/ansible/deployments` when a base
      is given, otherwise next to the first role's `roles` directory. */
  function DeploymentPath(names: seq<string>, paths: seq<string>, basePath: string): (p: Path)
    requires |names| > 0 && |paths| > 0
    ensures ValidPath(p)
  {
    if basePath != "" then
      JoinPath(JoinPath(JoinPath(ParsePath(basePath), "ansible"), "deployments"), Leaf(names))
    else
      JoinPath(JoinPath(Parent(Parent(ParsePath(paths[0]))), "deployments"), Leaf(names))
  }

  /** With a base path and a plain leaf name, the deployment directory is
      `base/ansible/deployments/<leaf>`. */
  lemma DeploymentUnderBase(names: seq<string>, paths: seq<string>, basePath: string)
    requires |names| > 0 && |paths| > 0 && basePath != ""
    requires IsComponent(Leaf(names))
    ensures var b := ParsePath(basePath);
            DeploymentPath(names, paths, basePath) == Path(b.absolute, b.parts + ["ansible", "deployments", Leaf(names)])
  {
    JoinThree(ParsePath(basePath), "ansible", "deployments", Leaf(names));
  }

  /** Without a base path, it is `deployments/<leaf>` beside the directory
      that holds the first role's `roles` directory. */
  lemma DeploymentBesideRoles(names: seq<string>, paths: seq<string>)
    requires |names| > 0 && |paths| > 0
    requires IsComponent(Leaf(names))
    ensures var g := Parent(Parent(ParsePath(paths[0])));
            DeploymentPath(names, paths, "") == Path(g.absolute, g.parts + ["deployments", Leaf(names)])
  {
    JoinTwo(Parent(Parent(ParsePath(paths[0]))), "deployments", Leaf(names));
  }

  lemma JoinThree(p: Path, c1: string, c2: string, c3: string)
    requires ValidPath(p) && IsComponent(c1) && IsComponent(c2) && IsComponent(c3)
    ensures JoinPath(JoinPath(JoinPath(p, c1), c2), c3) == Path(p.absolute, p.parts + [c1, c2, c3])
  {
    JoinComponent(p, c1);
    JoinTwo(JoinPath(p, c1), c2, c3);
    assert p.parts + [c1] + [c2, c3] == p.parts + [c1, c2, c3];
  }

  lemma JoinTwo(p: Path, c1: string, c2: string)
    requires ValidPath(p) && IsComponent(c1) && IsComponent(c2)
    ensures JoinPath(JoinPath(p, c1), c2) == Path(p.absolute, p.parts + [c1, c2])
  {
    JoinComponent(p, c1);
    JoinComponent(JoinPath(p, c1), c2);
    assert p.parts + [c1] + [c2] == p.parts + [c1, c2];
  }

  /** The f-string destination of a role denotes `deployment / "roles" / r`. */
  lemma RoleDestinationLocation(deploy: Path, role: string)
    requires ValidPath(deploy) && IsComponent(role)
    ensures ParsePath(RoleDestination(Show(deploy), role)) == Path(deploy.absolute, deploy.parts + ["roles", role])
  {
    ParseShowExtend(deploy, ["roles", role]);
    assert Join(["roles", role], "/") == "roles" + "/" + role;
    assert Show(deploy) + "/" + ("roles" + "/" + role) == RoleDestination(Show(deploy), role);
  }

  /** The f-string playbook path denotes `deployment / "playbooks" / run_r.yml`. */
  lemma PlaybookFileLocation(deploy: Path, role: string)
    requires ValidPath(deploy) && IsComponent(role)
    ensures ParsePath(PlaybookFile(Show(deploy), role))
              == Path(deploy.absolute, deploy.parts + ["playbooks", "run_" + role + ".yml"])
  {
    var file := "run_" + role + ".yml";
    RunFileComponent(role);
    ParseShowExtend(deploy, ["playbooks", file]);
    PlaybookFileText(Show(deploy), role);
  }

  /** The playbook file name of a role is itself one path component. */
  lemma RunFileComponent(role: string)
    requires IsComponent(role)
    ensures IsComponent("run_" + role + ".yml")
  {
    var file := "run_" + role + ".yml";
    forall j | 0 <= j < |file| ensures file[j] != '/' {
      if 4 <= j < 4 + |role| {
        assert file[j] == role[j - 4];
      }
    }
  }

  /** The f-string is the directory joined with `playbooks` and the file name. */
  lemma PlaybookFileText(publishDir: string, role: string)
    ensures PlaybookFile(publishDir, role) == publishDir + "/" + Join(["playbooks", "run_" + role + ".yml"], "/")
  {
    var file := "run_" + role + ".yml";
    assert Join(["playbooks", file], "/") == "playbooks" + "/" + file;
    assert publishDir + "/playbooks/run_" + role + ".yml" == publishDir + "/" + ("playbooks" + "/" + file);
  }


  // -------------------------------------------------------- publish_project

  /** `load_collections_file` / `load_inventory_file` are consulted only when
      no value was passed and a file was named. */
  function Argument(t: Tree, cwd: seq<string>, parse: Parser, explicit: Option<Yaml>, file: string, kind: FileKind)
    : (r: Result<Option<Yaml>, Exc>)
    ensures explicit.Some? || file == "" ==> r == Success(explicit)
  {
    if explicit.None? && file != "" then LoadFile(t, cwd, parse, file, kind) else Success(explicit)
  }

  function LengthMessage(names: nat, paths: nat): string
  {
    "Number of role names (" + IntToString(names) + ") " + "must match"
    + " number of role paths (" + IntToString(paths) + ")"
  }

  lemma LengthMessageMustMatch(names: nat, paths: nat)
    ensures Contains(LengthMessage(names, paths), "must match")
  {
    var head := "Number of role names (" + IntToString(names) + ") ";
    var tail := " number of role paths (" + IntToString(paths) + ")";
    assert LengthMessage(names, paths) == head + "must match" + tail;
    ContainsMiddle(head, "must match", tail);
  }

  /** `publish_project(...)`: the resolved deployment directory, or the
      exception raised, together with the tree afterwards. An absent
      `base_path` or file argument is the empty string. */
  function PublishSpec(t: Tree, cwd: seq<string>, parse: Parser, names: seq<string>, paths: seq<string>,
                       basePath: string, collectionsFile: string, inventoryFile: string,
                       collections: Option<Yaml>, inventory: Option<Yaml>): (Result<string, Exc>, Tree)
  {
    var c := Argument(t, cwd, parse, collections, collectionsFile, CollectionsFile);
    if c.Failure? then (Failure(c.error), t)
    else
      var i := Argument(t, cwd, parse, inventory, inventoryFile, InventoryFile);
      if i.Failure? then (Failure(i.error), t)
      else if |names| != |paths| then (Failure(ValueError(LengthMessage(|names|, |paths|))), t)
      else if |paths| == 0 then (Failure(IndexError("list index out of range")), t)
      else
        var deploy := DeploymentPath(names, paths, basePath);
        var run := Pipeline(t, cwd, Show(deploy), names, paths, c.value, i.value);
        if run.0.Fail? then (Failure(run.0.error), run.1)
        else (Success(ShowLocation(Locate(cwd, deploy))), run.1)
  }

  /** Unequal numbers of names and paths are refused before anything is
      written, with a ValueError that says they must match (once the
      requested files have loaded). */
  lemma MismatchWritesNothing(t: Tree, cwd: seq<string>, parse: Parser, names: seq<string>, paths: seq<string>,
                              basePath: string, collectionsFile: string, inventoryFile: string,
                              collections: Option<Yaml>, inventory: Option<Yaml>)
    requires |names| != |paths|
    ensures var (r, t') := PublishSpec(t, cwd, parse, names, paths, basePath, collectionsFile, inventoryFile,
                                       collections, inventory);
            t' == t && r.Failure?
            && (Argument(t, cwd, parse, collections, collectionsFile, CollectionsFile).Success?
                && Argument(t, cwd, parse, inventory, inventoryFile, InventoryFile).Success? ==>
                  r.error.ValueError? && Contains(r.error.msg, "must match"))
  {
    var c := Argument(t, cwd, parse, collections, collectionsFile, CollectionsFile);
    var i := Argument(t, cwd, parse, inventory, inventoryFile, InventoryFile);
    if c.Success? && i.Success? {
      LengthMessageMustMatch(|names|, |paths|);
      assert PublishSpec(t, cwd, parse, names, paths, basePath, collectionsFile, inventoryFile, collections, inventory)
             == (Failure(ValueError(LengthMessage(|names|, |paths|))), t);
    }
  }

  /** Loading comes first: a file that fails to load is reported even when
      the numbers of names and paths differ. */
  lemma LoadingPrecedesLengthCheck(t: Tree, cwd: seq<string>, parse: Parser, names: seq<string>, paths: seq<string>,
                                   basePath: string, collectionsFile: string, inventoryFile: string,
                                   collections: Option<Yaml>, inventory: Option<Yaml>)
    requires collections.None? && collectionsFile != ""
    requires LoadCollectionsFile(t, cwd, parse, collectionsFile).Failure?
    ensures PublishSpec(t, cwd, parse, names, paths, basePath, collectionsFile, inventoryFile, collections, inventory)
            == (Failure(LoadCollectionsFile(t, cwd, parse, collectionsFile).error), t)
  {
  }

  /** A successful run ends with every required file in place: the three
      project files, each role directory and each playbook. */
  lemma SuccessMeansRequiredFilesExist(t: Tree, cwd: seq<string>, parse: Parser, names: seq<string>,
                                       paths: seq<string>, basePath: string, collectionsFile: string,
                                       inventoryFile: string, collections: Option<Yaml>, inventory: Option<Yaml>)
    requires PublishSpec(t, cwd, parse, names, paths, basePath, collectionsFile, inventoryFile,
                         collections, inventory).0.Success?
    ensures |names| == |paths| > 0
    ensures var t' := PublishSpec(t, cwd, parse, names, paths, basePath, collectionsFile, inventoryFile,
                                  collections, inventory).1;
            var publishDir := Show(DeploymentPath(names, paths, basePath));
            var required := RequiredFiles(publishDir, names);
            forall j :: 0 <= j < |required| ==> PathExists(t', cwd, required[j])
  {
    var c := Argument(t, cwd, parse, collections, collectionsFile, CollectionsFile);
    var i := Argument(t, cwd, parse, inventory, inventoryFile, InventoryFile);
    PipelinePassed(t, cwd, Show(DeploymentPath(names, paths, basePath)), names, paths, c.value, i.value);
  }

  /** A successful run returns the resolved deployment directory. */
  lemma PublishReturnsDeployment(t: Tree, cwd: seq<string>, parse: Parser, names: seq<string>,
                                 paths: seq<string>, basePath: string, collectionsFile: string,
                                 inventoryFile: string, collections: Option<Yaml>, inventory: Option<Yaml>)
    requires PublishSpec(t, cwd, parse, names, paths, basePath, collectionsFile, inventoryFile,
                         collections, inventory).0.Success?
    ensures |names| == |paths| > 0
    ensures PublishSpec(t, cwd, parse, names, paths, basePath, collectionsFile, inventoryFile,
                        collections, inventory).0.value
            == ShowLocation(Locate(cwd, DeploymentPath(names, paths, basePath)))
  {
  }

  /** An absolute location ends with its last component. */
  lemma ShowLocationLast(prefix: seq<string>, name: string)
    ensures EndsWith(ShowLocation(prefix + [name]), "/" + name)
    ensures Contains(ShowLocation(prefix + [name]), name)
  {
    var r := ShowLocation(prefix + [name]);
    if |prefix| == 0 {
      assert Join([name], "/") == name;
      assert r == "/" + name;
      ContainsMiddle("/", name, "");
      assert "/" + name + "" == r;
    } else {
      JoinAppend(prefix, [name], "/");
      assert Join([name], "/") == name;
      assert r == "/" + Join(prefix, "/") + "/" + name;
      assert r[|r| - |"/" + name|..] == "/" + name;
      ContainsMiddle("/" + Join(prefix, "/") + "/", name, "");
      assert "/" + Join(prefix, "/") + "/" + name + "" == r;
    }
  }

  /** With a base path and a single plain role name, the returned directory
      ends with that name (`<base>/ansible/deployments/<name>`). */
  lemma SingleRoleResultEndsWithName(t: Tree, cwd: seq<string>, parse: Parser, names: seq<string>,
                                     paths: seq<string>, basePath: string, collectionsFile: string,
                                     inventoryFile: string, collections: Option<Yaml>, inventory: Option<Yaml>)
    requires |names| == 1 && basePath != ""
    requires IsComponent(names[0]) && names[0] != ".."
    requires forall j :: 0 <= j < |cwd| ==> cwd[j] != ".."
    requires var b := ParsePath(basePath); forall j :: 0 <= j < |b.parts| ==> b.parts[j] != ".."
    requires PublishSpec(t, cwd, parse, names, paths, basePath, collectionsFile, inventoryFile,
                         collections, inventory).0.Success?
    ensures var r := PublishSpec(t, cwd, parse, names, paths, basePath, collectionsFile, inventoryFile,
                                 collections, inventory).0.value;
            EndsWith(r, "/" + names[0]) && Contains(r, names[0])
  {
    PublishReturnsDeployment(t, cwd, parse, names, paths, basePath, collectionsFile, inventoryFile,
                             collections, inventory);
    ResolvedDeploymentEndsWithName(cwd, names, paths, basePath);
  }

  lemma ResolvedDeploymentEndsWithName(cwd: seq<string>, names: seq<string>, paths: seq<string>, basePath: string)
    requires |names| == 1 && |paths| > 0 && basePath != ""
    requires IsComponent(names[0]) && names[0] != ".."
    requires forall j :: 0 <= j < |cwd| ==> cwd[j] != ".."
    requires var b := ParsePath(basePath); forall j :: 0 <= j < |b.parts| ==> b.parts[j] != ".."
    ensures var r := ShowLocation(Locate(cwd, DeploymentPath(names, paths, basePath)));
            EndsWith(r, "/" + names[0]) && Contains(r, names[0])
  {
    DeploymentPlain(names, paths, basePath);
    LocatedEndsWithLast(cwd, DeploymentPath(names, paths, basePath));
  }

  /** With a base path free of `..` and a single plain role name, the
      deployment directory has no `..` and ends with that name. */
  lemma DeploymentPlain(names: seq<string>, paths: seq<string>, basePath: string)
    requires |names| == 1 && |paths| > 0 && basePath != ""
    requires IsComponent(names[0]) && names[0] != ".."
    requires var b := ParsePath(basePath); forall j :: 0 <= j < |b.parts| ==> b.parts[j] != ".."
    ensures var p := DeploymentPath(names, paths, basePath);
            |p.parts| > 0 && p.parts[|p.parts| - 1] == names[0]
            && forall j :: 0 <= j < |p.parts| ==> p.parts[j] != ".."
  {
    var b := ParsePath(basePath);
    assert Leaf(names) == names[0];
    DeploymentUnderBase(names, paths, basePath);
    PlainDeploymentParts(b.parts, names[0]);
  }

  /** `base/ansible/deployments/<name>` keeps a `..`-free base free of `..`. */
  lemma PlainDeploymentParts(base: seq<string>, name: string)
    requires forall j :: 0 <= j < |base| ==> base[j] != ".."
    requires name != ".."
    ensures var q := base + ["ansible", "deployments", name];
            q[|q| - 1] == name && forall j :: 0 <= j < |q| ==> q[j] != ".."
  {
    var q := base + ["ansible", "deployments", name];
    forall j | 0 <= j < |q| ensures q[j] != ".." {
      if j < |base| {
        assert q[j] == base[j];
      }
    }
  }

  /** A plain path, located, ends with its last component. */
  lemma LocatedEndsWithLast(cwd: seq<string>, p: Path)
    requires |p.parts| > 0
    requires forall j :: 0 <= j < |cwd| ==> cwd[j] != ".."
    requires forall j :: 0 <= j < |p.parts| ==> p.parts[j] != ".."
    ensures var r := ShowLocation(Locate(cwd, p));
            var name := p.parts[|p.parts| - 1];
            EndsWith(r, "/" + name) && Contains(r, name)
  {
    var name := p.parts[|p.parts| - 1];
    var prefix := (if p.absolute then [] else cwd) + p.parts[..|p.parts| - 1];
    LocatePlain(cwd, p);
    assert Locate(cwd, p) == prefix + [name];
    ShowLocationLast(prefix, name);
  }

  /** `publish_project`, step by step against the file system. */
  method PublishProject(fs: FileSystem, parse: Parser, names: seq<string>, paths: seq<string>, basePath: string,
                        collectionsFile: string, inventoryFile: string,
                        collections: Option<Yaml>, inventory: Option<Yaml>)
    returns (r: Result<string, Exc>)
    requires fs.Valid()
    modifies fs
    ensures fs.Valid()
    ensures (r, fs.tree) == PublishSpec(old(fs.tree), fs.cwd, parse, names, paths, basePath, collectionsFile,
                                        inventoryFile, collections, inventory)
  {
    var c := collections;
    if collections.None? && collectionsFile != "" {
      var loaded := LoadCollectionsFile(fs.tree, fs.cwd, parse, collectionsFile);
      if loaded.Failure? {
        return Failure(loaded.error);
      }
      c := loaded.value;
    }
    var inv := inventory;
    if inventory.None? && inventoryFile != "" {
      var loaded := LoadInventoryFile(fs.tree, fs.cwd, parse, inventoryFile);
      if loaded.Failure? {
        return Failure(loaded.error);
      }
      inv := loaded.value;
    }
    if |names| != |paths| {
      return Failure(ValueError(LengthMessage(|names|, |paths|)));
    }
    if |paths| == 0 {
      return Failure(IndexError("list index out of range"));
    }
    var deploy := DeploymentPath(names, paths, basePath);
    var o := RunPipeline(fs, Show(deploy), names, paths, c, inv);
    if o.Fail? {
      return Failure(o.error);
    }
    return Success(ShowLocation(fs.Where(deploy)));
  }

  /** The pipeline, one call after another, stopping at the first exception. */
  method RunPipeline(fs: FileSystem, publishDir: string, names: seq<string>, paths: seq<string>,
                     collections: Option<Yaml>, inventory: Option<Yaml>)
    returns (o: Outcome<Exc>)
    requires fs.Valid() && |names| == |paths|
    modifies fs
    ensures fs.Valid()
    ensures (o, fs.tree) == Pipeline(old(fs.tree), fs.cwd, publishDir, names, paths, collections, inventory)
  {
    o := CreateDirectoryStructure(fs, publishDir, Skeleton);
    if o.Fail? {
      return;
    }
    o := RunCopies(fs, publishDir, names, paths);
    if o.Fail? {
      return;
    }
    o := RunPlaybooks(fs, publishDir, names);
    if o.Fail? {
      return;
    }
    o := RunFinalSteps(fs, publishDir, names, collections, inventory);
  }

  /** The copy loop of `publish_project`. */
  method RunCopies(fs: FileSystem, publishDir: string, names: seq<string>, paths: seq<string>)
    returns (o: Outcome<Exc>)
    requires fs.Valid() && |names| == |paths|
    modifies fs
    ensures fs.Valid()
    ensures (o, fs.tree) == RunEach(CopyStep(fs.cwd, publishDir), old(fs.tree), RoleSources(names, paths))
  {
    ghost var t0 := fs.tree;
    ghost var step := CopyStep(fs.cwd, publishDir);
    ghost var roles := RoleSources(names, paths);
    o := Pass;
    for i := 0 to |names|
      invariant fs.Valid() && o.Pass?
      invariant RunEach(step, t0, roles[..i]) == (Pass, fs.tree)
    {
      ghost var before := fs.tree;
      o := CopyRoleDirectory(fs, paths[i], publishDir + "/roles/" + names[i]);
      CopyStepIs(fs.cwd, publishDir, before, roles[i]);
      RunEachSnoc(step, t0, roles, i, before);
      if o.Fail? {
        RunEachStopsAtFailure(step, t0, roles, i + 1);
        return;
      }
    }
    assert roles[..|names|] == roles;
  }

  /** The playbook loop of `publish_project`. */
  method RunPlaybooks(fs: FileSystem, publishDir: string, names: seq<string>)
    returns (o: Outcome<Exc>)
    requires fs.Valid()
    modifies fs
    ensures fs.Valid()
    ensures (o, fs.tree) == RunEach(PlaybookStep(fs.cwd, publishDir), old(fs.tree), names)
  {
    ghost var t0 := fs.tree;
    ghost var step := PlaybookStep(fs.cwd, publishDir);
    o := Pass;
    for i := 0 to |names|
      invariant fs.Valid() && o.Pass?
      invariant RunEach(step, t0, names[..i]) == (Pass, fs.tree)
    {
      ghost var before := fs.tree;
      o := GeneratePlaybookYaml(fs, publishDir + "/playbooks/run_" + names[i] + ".yml", "Run " + names[i], names[i],
                                "all", false, None);
      PlaybookStepIs(fs.cwd, publishDir, before, names[i]);
      RunEachSnoc(step, t0, names, i, before);
      if o.Fail? {
        RunEachStopsAtFailure(step, t0, names, i + 1);
        return;
      }
    }
    assert names[..|names|] == names;
  }

  /** The list `verify_files_exist` is given, built role by role. */
  method RequiredList(publishDir: string, names: seq<string>) returns (required: seq<string>)
    ensures required == RequiredFiles(publishDir, names)
  {
    required := [publishDir + "/ansible.cfg", publishDir + "/collections/requirements.yml",
                 publishDir + "/inventory/hosts.yml"];
    for i := 0 to |names|
      invariant required == GlobalFiles(publishDir) + RoleFiles(publishDir, names[..i])
    {
      assert names[..i + 1][..i] == names[..i];
      required := required + [publishDir + "/roles/" + names[i]];
      required := required + [publishDir + "/playbooks/run_" + names[i] + ".yml"];
    }
    assert names[..|names|] == names;
  }

  /** The three project files and the final check. */
  method RunFinalSteps(fs: FileSystem, publishDir: string, names: seq<string>,
                       collections: Option<Yaml>, inventory: Option<Yaml>)
    returns (o: Outcome<Exc>)
    requires fs.Valid()
    modifies fs
    ensures fs.Valid()
    ensures (o, fs.tree) == FinalEffect(old(fs.tree), fs.cwd, publishDir, names, collections, inventory)
  {
    o := WriteProjectFiles(fs, publishDir, collections, inventory);
    if o.Fail? {
      return;
    }
    var required := RequiredList(publishDir, names);
    o := VerifyFilesExist(fs, required);
  }

  /** `generate_ansible_cfg`, `generate_collections_requirements` and
      `generate_inventory_file`, in that order. */
  method WriteProjectFiles(fs: FileSystem, publishDir: string, collections: Option<Yaml>, inventory: Option<Yaml>)
    returns (o: Outcome<Exc>)
    requires fs.Valid()
    modifies fs
    ensures fs.Valid()
    ensures (o, fs.tree) == RunEach(ProjectFileStep(fs.cwd, publishDir), old(fs.tree),
                                    ProjectFiles(collections, inventory))
  {
    ghost var t0 := fs.tree;
    ghost var step := ProjectFileStep(fs.cwd, publishDir);
    var files := ProjectFiles(collections, inventory);
    o := Pass;
    for i := 0 to |files|
      invariant fs.Valid() && o.Pass?
      invariant RunEach(step, t0, files[..i]) == (Pass, fs.tree)
    {
      ghost var before := fs.tree;
      o := WriteProjectFile(fs, publishDir, files[i]);
      RunEachSnoc(step, t0, files, i, before);
      if o.Fail? {
        RunEachStopsAtFailure(step, t0, files, i + 1);
        return;
      }
    }
    assert files[..|files|] == files;
  }

  /** The generator for one project file. */
  method WriteProjectFile(fs: FileSystem, publishDir: string, f: ProjectFile) returns (o: Outcome<Exc>)
    requires fs.Valid()
    modifies fs
    ensures fs.Valid()
    ensures (o, fs.tree) == ProjectFileStep(fs.cwd, publishDir)(old(fs.tree), f)
  {
    ghost var before := fs.tree;
    match f {
      case AnsibleCfgFile =>
        o := GenerateAnsibleCfg(fs, publishDir + "/ansible.cfg");
      case RequirementsFile(c) =>
        o := GenerateCollectionsRequirements(fs, publishDir + "/collections/requirements.yml", c);
      case HostsFile(i) =>
        o := GenerateInventoryFile(fs, publishDir + "/inventory/hosts.yml", i);
    }
    ProjectFileStepIs(fs.cwd, publishDir, before, f);
  }

  // ------------------------------------------------------------ publish_aap

  /** `publish_aap`'s decision on the sync result: not enabled and a recorded
      error both raise RuntimeError; otherwise the result is returned as is. */
  function PublishAap(result: AAPSyncResult): (r: Result<AAPSyncResult, Exc>)
    ensures r.Success? <==> result.enabled && result.error == ""
    ensures r.Success? ==> r.value == result
    ensures r.Failure? ==> r.error.RuntimeError?
    ensures !result.enabled ==> Contains(r.error.msg, "not configured")
    ensures result.enabled && result.error != "" ==> Contains(r.error.msg, result.error)
  {
    if !result.enabled then
      var tail := ". Set AAP_CONTROLLER_URL and related environment variables.";
      ContainsMiddle("AAP is ", "not configured", tail);
      Failure(RuntimeError("AAP is " + "not configured" + tail))
    else if result.error != "" then
      ContainsMiddle("AAP sync failed: ", result.error, "");
      assert "AAP sync failed: " + result.error + "" == "AAP sync failed: " + result.error;
      Failure(RuntimeError("AAP sync failed: " + result.error))
    else Success(result)
  }

  /** `publish_aap(repo_url, branch)`: an exception that escapes the sync
      propagates; otherwise the result is judged by `PublishAap`. */
  function PublishAapRun(run: SyncRun): Result<AAPSyncResult, Exc>
  {
    if run.outcome.Failure? then Failure(run.outcome.error) else PublishAap(run.outcome.value)
  }

  /** Publishing to AAP returns a result only after a sync that created or
      updated a project with a nonzero id and started its update. */
  lemma PublishAapMeansSynced(cfg: ConfigLoad, settings: AapSettings, client: Client, inferName: string -> string,
                              inferDescription: (string, string) -> string, repositoryUrl: string, branch: string)
    ensures var run := SyncToAap(cfg, settings, client, inferName, inferDescription, repositoryUrl, branch);
            var r := PublishAapRun(run);
            r.Success? ==>
              r.value.projectId.Some? && r.value.projectId.value != 0
              && |run.calls| == 4 && run.calls[3] == StartProjectUpdate(r.value.projectId.value)
  {
  }

  /** As written, a caught exception with an empty message is recorded as an
      empty error, and `publish_aap` then returns it as a success although no
      project was synced. */
  lemma EmptyErrorPassesAsWritten(org: string, settings: AapSettings, client: Client, inferName: string -> string,
                                  inferDescription: (string, string) -> string, repositoryUrl: string,
                                  branch: string, e: Exc)
    requires org != "" && client.construct.Pass?
    requires client.findOrganizationId(org) == Failure(e) && Caught(e) && e.msg == ""
    ensures var run := SyncToAapAsWritten(Configured(org), settings, client, inferName, inferDescription,
                                          repositoryUrl, branch);
            PublishAapRun(run) == Success(FromError("")) && PublishAapRun(run).value.projectId.None?
  {
  }

  /** With the corrected error text the same sync is refused, naming the
      exception's class. */
  lemma EmptyErrorRefusedWhenCorrected(org: string, settings: AapSettings, client: Client, inferName: string -> string,
                                       inferDescription: (string, string) -> string, repositoryUrl: string,
                                       branch: string, e: Exc)
    requires org != "" && client.construct.Pass?
    requires client.findOrganizationId(org) == Failure(e) && Caught(e) && e.msg == ""
    ensures var run := SyncToAap(Configured(org), settings, client, inferName, inferDescription,
                                 repositoryUrl, branch);
            PublishAapRun(run) == Failure(RuntimeError("AAP sync failed: " + e.KindName()))
  {
  }
}

=== FILE: publisher_tools.dfy ===
/**
  * The deterministic building blocks of publishing (src/publishers/tools.py):
  * loading the collections and inventory files, creating the project skeleton,
  * copying a role, generating the project files, and checking that the
  * required files exist.
  */
module PublisherTools {

  import opened Results
  import opened Text
  import opened Paths
  import opened YamlValue
  import opened FileTree

  /** Reading a file with the chosen loader; YAML and JSON parsing themselves
      are not modelled. */
  type Parser = (Format, Content) -> ParseOutcome

  /** `yaml.safe_load` on a string: a document, or the text of a `yaml.YAMLError`. */
  type TextParser = string -> Result<Yaml, string>

  // ---------------------------------------------------------------- loaders

  /** `LOADERS.get(path.suffix.lower(), json.load)`. */
  function LoaderFor(p: Path): Format
  {
    var s := Lower(Suffix(p));
    if s == ".yaml" || s == ".yml" then YamlFormat else JsonFormat
  }

  /** What opening and loading the file at `filePath` gives, or `None` when
      nothing exists there. Opening a directory fails with IsADirectoryError. */
  function DocumentAt(t: Tree, cwd: seq<string>, parse: Parser, filePath: string): Option<ParseOutcome>
  {
    var p := ParsePath(filePath);
    var k := Locate(cwd, p);
    if !Exists(t, k) then None
    else if IsDir(t, k) then Some(ReadFailure(FaultText(IsADirectory(Show(p)))))
    else Some(parse(LoaderFor(p), t[k].content))
  }

  datatype FileKind = CollectionsFile | InventoryFile

  function KindWord(kind: FileKind): string
  {
    if kind.CollectionsFile? then "collections" else "inventory"
  }

  /** The top-level shape each file must have: a list of collections, or an
      inventory mapping. */
  predicate HasShape(kind: FileKind, v: Yaml)
  {
    if kind.CollectionsFile? then v.YList? else v.YDict?
  }

  function ShapeMessage(kind: FileKind, p: Path, v: Yaml): string
  {
    if kind.CollectionsFile? then
      "Invalid collections file format. File: " + Show(p) + ". Expected: list, got: " + TypeName(v)
      + ". Hint: Check that `--collections-file` points to the correct YAML/JSON file. "
      + "The top-level value must be a list of collection entries."
    else
      "Invalid inventory file format. File: " + Show(p) + ". Expected: dict, got: " + TypeName(v)
      + ". Hint: Check that `--inventory-file` points to the correct YAML/JSON file. "
      + "The top-level value must be a mapping (dict) in Ansible inventory format."
  }

  /** The decision sequence shared by both loaders: absent, then parse error,
      then any other read error, and only after a successful parse the shape. */
  function LoadFile(t: Tree, cwd: seq<string>, parse: Parser, filePath: string, kind: FileKind)
    : (r: Result<Option<Yaml>, Exc>)
    ensures r == Success(None) <==> DocumentAt(t, cwd, parse, filePath).None?
    ensures (r.Failure? && r.error.ValueError?) <==>
              DocumentAt(t, cwd, parse, filePath).Some? && DocumentAt(t, cwd, parse, filePath).value.SyntaxError?
    ensures (r.Failure? && r.error.RuntimeError?) <==>
              DocumentAt(t, cwd, parse, filePath).Some? && DocumentAt(t, cwd, parse, filePath).value.ReadFailure?
    ensures (r.Failure? && r.error.TypeError?) <==>
              DocumentAt(t, cwd, parse, filePath).Some? && DocumentAt(t, cwd, parse, filePath).value.Parsed?
              && !HasShape(kind, DocumentAt(t, cwd, parse, filePath).value.doc)
    ensures r.Success? && r.value.Some? <==>
              DocumentAt(t, cwd, parse, filePath).Some? && DocumentAt(t, cwd, parse, filePath).value.Parsed?
              && HasShape(kind, DocumentAt(t, cwd, parse, filePath).value.doc)
    ensures r.Success? && r.value.Some? ==> r.value.value == DocumentAt(t, cwd, parse, filePath).value.doc
  {
    match DocumentAt(t, cwd, parse, filePath)
    case None => Success(None)
    case Some(SyntaxError(m)) =>
      Failure(ValueError("Failed to parse " + KindWord(kind) + " file " + filePath + ": " + m))
    case Some(ReadFailure(m)) =>
      Failure(RuntimeError("Failed to load " + KindWord(kind) + " file " + filePath + ": " + m))
    case Some(Parsed(v)) =>
      if HasShape(kind, v) then Success(Some(v))
      else Failure(TypeError(ShapeMessage(kind, ParsePath(filePath), v)))
  }

  /** `load_collections_file`. */
  function LoadCollectionsFile(t: Tree, cwd: seq<string>, parse: Parser, filePath: string)
    : (r: Result<Option<Yaml>, Exc>)
    ensures r.Success? && r.value.Some? ==> r.value.value.YList?
    ensures r.Failure? ==> r.error.ValueError? || r.error.RuntimeError? || r.error.TypeError?
  {
    LoadFile(t, cwd, parse, filePath, CollectionsFile)
  }

  /** `load_inventory_file`. */
  function LoadInventoryFile(t: Tree, cwd: seq<string>, parse: Parser, filePath: string)
    : (r: Result<Option<Yaml>, Exc>)
    ensures r.Success? && r.value.Some? ==> r.value.value.YDict?
    ensures r.Failure? ==> r.error.ValueError? || r.error.RuntimeError? || r.error.TypeError?
  {
    LoadFile(t, cwd, parse, filePath, InventoryFile)
  }

  /** The reader is picked by the lower-cased suffix, JSON when it is neither
      ".yaml" nor ".yml". */
  lemma LoaderBySuffix(t: Tree, cwd: seq<string>, parse: Parser, filePath: string)
    requires WellFormed(t)
    requires IsFile(t, Locate(cwd, ParsePath(filePath)))
    ensures var p := ParsePath(filePath);
            var s := Lower(Suffix(p));
            DocumentAt(t, cwd, parse, filePath)
              == Some(parse(if s == ".yaml" || s == ".yml" then YamlFormat else JsonFormat,
                            t[Locate(cwd, p)].content))
  {
  }

  /** The messages name the file as given, and say which step failed. */
  lemma LoadMessages(t: Tree, cwd: seq<string>, parse: Parser, filePath: string, kind: FileKind)
    ensures var r := LoadFile(t, cwd, parse, filePath, kind);
            (r.Failure? && r.error.ValueError? ==>
               StartsWith(r.error.msg, "Failed to parse " + KindWord(kind) + " file " + filePath + ": "))
            && (r.Failure? && r.error.RuntimeError? ==>
               StartsWith(r.error.msg, "Failed to load " + KindWord(kind) + " file " + filePath + ": "))
  {
    var r := LoadFile(t, cwd, parse, filePath, kind);
    if r.Failure? && (r.error.ValueError? || r.error.RuntimeError?) {
      var m := if DocumentAt(t, cwd, parse, filePath).value.SyntaxError?
               then DocumentAt(t, cwd, parse, filePath).value.msg
               else DocumentAt(t, cwd, parse, filePath).value.msg;
      var prefix := (if r.error.ValueError? then "Failed to parse " else "Failed to load ")
                    + KindWord(kind) + " file " + filePath + ": ";
      assert r.error.msg == prefix + m;
      assert (prefix + m)[..|prefix|] == prefix;
    }
  }

  // ---------------------------------------------------- directory skeleton

  /** An entry of the skeleton: its name, where `base / name` points, and how
      the path prints. */
  datatype DirEntry = DirEntry(name: string, loc: seq<string>, shown: string)

  function Entry(cwd: seq<string>, base: Path, d: string): DirEntry
    requires ValidPath(base)
  {
    var full := JoinPath(base, d);
    DirEntry(d, Locate(cwd, full), Show(full))
  }

  /** Where `base / d` points. */
  function EntryLocation(cwd: seq<string>, base: Path, d: string): seq<string>
    requires ValidPath(base)
  {
    Entry(cwd, base, d).loc
  }

  /** The entries of `structure`, in order. */
  function Entries(cwd: seq<string>, base: Path, structure: seq<string>): (r: seq<DirEntry>)
    requires ValidPath(base)
    ensures |r| == |structure|
    ensures forall i :: 0 <= i < |structure| ==> r[i] == Entry(cwd, base, structure[i])
  {
    seq(|structure|, i requires 0 <= i < |structure| => Entry(cwd, base, structure[i]))
  }

  datatype StructureState = StructureState(tree: Tree, created: seq<string>, errors: seq<string>)

  /** One step of the loop: create the entry, and record it as created or failed. */
  function MakeEntry(s: StructureState, e: DirEntry): StructureState
  {
    match MakeDirs(s.tree, e.loc, e.shown)
    case Success(t1) => StructureState(t1, s.created + [e.shown], s.errors)
    case Failure(f) => StructureState(s.tree, s.created, s.errors + ["Failed to create " + e.name + ": " + FaultText(f)])
  }

  /** The loop of `create_directory_structure` after the entries `es`: every
      entry is tried whatever happened to the ones before it. */
  function MakeEach(t: Tree, es: seq<DirEntry>): (s: StructureState)
    ensures |s.created| + |s.errors| == |es|
    decreases |es|
  {
    if |es| == 0 then StructureState(t, [], [])
    else MakeEntry(MakeEach(t, es[..|es| - 1]), es[|es| - 1])
  }

  function StructureLoop(t: Tree, cwd: seq<string>, base: Path, structure: seq<string>): StructureState
    requires ValidPath(base)
  {
    MakeEach(t, Entries(cwd, base, structure))
  }

  function StructureReport(errors: seq<string>, created: seq<string>): string
  {
    "Some directories failed to create:\n" + Join(errors, "\n") + "\n\nSuccessfully created:\n" + Join(created, "\n")
  }

  /** `create_directory_structure(base_path, structure)`: the base is created
      first (its failure propagates as raised); then every entry; an OSError
      listing failures and successes iff some entry failed. */
  function CreateStructureEffect(t: Tree, cwd: seq<string>, basePath: string, structure: seq<string>)
    : (Outcome<Exc>, Tree)
  {
    var base := ParsePath(basePath);
    match MakeDirs(t, Locate(cwd, base), Show(base))
    case Failure(f) => (Fail(FaultExc(f)), t)
    case Success(t1) =>
      var s := StructureLoop(t1, cwd, base, structure);
      if |s.errors| > 0 then (Fail(OSError(StructureReport(s.errors, s.created))), s.tree)
      else (Pass, s.tree)
  }

  /** Entry `d` could not be created: it, or an ancestor, is a file. */
  predicate Obstructed(t: Tree, k: seq<string>)
  {
    IsFile(t, k) || Blocked(t, k)
  }

  lemma MakeEachStep(t: Tree, es: seq<DirEntry>, i: int)
    requires 0 <= i < |es|
    ensures MakeEach(t, es[..i + 1]) == MakeEntry(MakeEach(t, es[..i]), es[i])
  {
    assert es[..i + 1][..i] == es[..i];
  }

  /** The loop only adds directories and keeps the tree well formed. */
  lemma {:induction false} MakeEachGrows(t: Tree, es: seq<DirEntry>)
    requires WellFormed(t)
    ensures WellFormed(MakeEach(t, es).tree) && OnlyAddsDirs(t, MakeEach(t, es).tree)
    decreases |es|
  {
    if |es| > 0 {
      var s := MakeEach(t, es[..|es| - 1]);
      MakeEachGrows(t, es[..|es| - 1]);
      var e := es[|es| - 1];
      var r := MakeDirs(s.tree, e.loc, e.shown);
      if r.Success? {
        assert OnlyAddsDirs(s.tree, r.value);
      }
    }
  }

  /** With no error recorded, every entry is a directory. */
  lemma {:induction false} MakeEachAllDirs(t: Tree, es: seq<DirEntry>)
    ensures var s := MakeEach(t, es);
            |s.errors| == 0 ==> forall i :: 0 <= i < |es| ==> IsDir(s.tree, es[i].loc)
    decreases |es|
  {
    if |es| > 0 {
      var front := es[..|es| - 1];
      var s := MakeEach(t, front);
      var e := es[|es| - 1];
      var r := MakeDirs(s.tree, e.loc, e.shown);
      if r.Success? && |s.errors| == 0 {
        MakeEachAllDirs(t, front);
        forall i | 0 <= i < |es| ensures IsDir(r.value, es[i].loc) {
          if i < |front| {
            assert front[i] == es[i];
            DirPersists(s.tree, r.value, front[i].loc);
          }
        }
      }
    }
  }

  /** With an error recorded, some entry is obstructed by a file. */
  lemma {:induction false} MakeEachObstructed(t: Tree, es: seq<DirEntry>)
    ensures var s := MakeEach(t, es);
            |s.errors| > 0 ==> exists i :: 0 <= i < |es| && Obstructed(s.tree, es[i].loc)
    decreases |es|
  {
    if |es| > 0 {
      var front := es[..|es| - 1];
      var s := MakeEach(t, front);
      var e := es[|es| - 1];
      var r := MakeDirs(s.tree, e.loc, e.shown);
      if r.Failure? {
        assert Obstructed(s.tree, e.loc);
        assert es[|front|] == e;
      } else if |s.errors| > 0 {
        MakeEachObstructed(t, front);
        var i :| 0 <= i < |front| && Obstructed(s.tree, front[i].loc);
        assert front[i] == es[i];
        ObstructionPersists(s.tree, r.value, front[i].loc);
      }
    }
  }

  /** The loop only adds directories, and it reports no error exactly when
      every entry ends up a directory; a failed entry stays obstructed. */
  lemma StructureLoopOutcome(t: Tree, cwd: seq<string>, base: Path, structure: seq<string>)
    requires ValidPath(base) && WellFormed(t)
    ensures var s := StructureLoop(t, cwd, base, structure);
            WellFormed(s.tree) && OnlyAddsDirs(t, s.tree)
            && (|s.errors| == 0 ==>
                  forall i :: 0 <= i < |structure| ==> IsDir(s.tree, EntryLocation(cwd, base, structure[i])))
            && (|s.errors| > 0 ==>
                  exists i :: 0 <= i < |structure| && Obstructed(s.tree, EntryLocation(cwd, base, structure[i])))
  {
    var es := Entries(cwd, base, structure);
    var s := MakeEach(t, es);
    MakeEachGrows(t, es);
    MakeEachAllDirs(t, es);
    MakeEachObstructed(t, es);
    if |s.errors| > 0 {
      var i :| 0 <= i < |es| && Obstructed(s.tree, es[i].loc);
      assert es[i].loc == EntryLocation(cwd, base, structure[i]);
    }
  }

  /** The entry paths that are directories in `t`, in order. */
  function CreatedIn(t: Tree, es: seq<DirEntry>): seq<string>
    decreases |es|
  {
    if |es| == 0 then []
    else CreatedIn(t, es[..|es| - 1]) + (if IsDir(t, es[|es| - 1].loc) then [es[|es| - 1].shown] else [])
  }

  /** The line recorded for an entry `makedirs` refused: NotADirectory below
      a file, FileExists on a file. */
  function FailureLine(t: Tree, e: DirEntry): string
  {
    "Failed to create " + e.name + ": "
    + FaultText(if Blocked(t, e.loc) then NotADirectory(e.shown) else FileExists(e.shown))
  }

  /** The failure lines of the entries that are not directories in `t`, in order. */
  function FailedIn(t: Tree, es: seq<DirEntry>): seq<string>
    decreases |es|
  {
    if |es| == 0 then []
    else FailedIn(t, es[..|es| - 1]) + (if IsDir(t, es[|es| - 1].loc) then [] else [FailureLine(t, es[|es| - 1])])
  }

  /** Adding directories changes no file, so what blocks a path stays the same. */
  lemma FilesKept(t: Tree, r: Tree, k: seq<string>)
    requires OnlyAddsDirs(t, r)
    ensures IsFile(r, k) <==> IsFile(t, k)
    ensures Blocked(r, k) <==> Blocked(t, k)
  {
    if Blocked(r, k) {
      var i :| 0 < i < |k| && IsFile(r, k[..i]);
      assert IsFile(t, k[..i]);
    }
    if Blocked(t, k) {
      var i :| 0 < i < |k| && IsFile(t, k[..i]);
      assert IsFile(r, k[..i]);
    }
  }

  /** An entry that is a directory or obstructed keeps that state, and its
      record, when only directories are added. */
  lemma {:induction false} RecordsStable(t: Tree, r: Tree, es: seq<DirEntry>)
    requires WellFormed(r) && OnlyAddsDirs(t, r)
    requires forall i :: 0 <= i < |es| ==> IsDir(t, es[i].loc) || Obstructed(t, es[i].loc)
    ensures forall i :: 0 <= i < |es| ==> IsDir(r, es[i].loc) || Obstructed(r, es[i].loc)
    ensures CreatedIn(r, es) == CreatedIn(t, es) && FailedIn(r, es) == FailedIn(t, es)
    decreases |es|
  {
    forall i | 0 <= i < |es|
      ensures (IsDir(r, es[i].loc) <==> IsDir(t, es[i].loc)) && (IsDir(r, es[i].loc) || Obstructed(r, es[i].loc))
      ensures Blocked(r, es[i].loc) <==> Blocked(t, es[i].loc)
    {
      var k := es[i].loc;
      FilesKept(t, r, k);
      if !IsDir(t, k) && Blocked(t, k) {
        BlockedIsAbsent(r, k);
      }
    }
    if |es| > 0 {
      var front := es[..|es| - 1];
      forall i | 0 <= i < |front| ensures IsDir(t, front[i].loc) || Obstructed(t, front[i].loc) {
        assert front[i] == es[i];
      }
      RecordsStable(t, r, front);
    }
  }

  /** What the loop records, read off the tree it leaves: every entry is a
      directory or obstructed by a file; `created` lists the entries that are
      directories and `errors` the failure lines of the others, each in order. */
  lemma {:induction false} MakeEachRecords(t: Tree, es: seq<DirEntry>)
    requires WellFormed(t)
    ensures var s := MakeEach(t, es);
            (forall i :: 0 <= i < |es| ==> IsDir(s.tree, es[i].loc) || Obstructed(s.tree, es[i].loc))
            && s.created == CreatedIn(s.tree, es) && s.errors == FailedIn(s.tree, es)
    decreases |es|
  {
    if |es| > 0 {
      var front := es[..|es| - 1];
      var s0 := MakeEach(t, front);
      var e := es[|es| - 1];
      var s := MakeEntry(s0, e);
      assert s == MakeEach(t, es);
      MakeEachGrows(t, front);
      MakeEachRecords(t, front);
      var m := MakeDirs(s0.tree, e.loc, e.shown);
      assert OnlyAddsDirs(s0.tree, s.tree);
      MakeEachGrows(t, es);
      RecordsStable(s0.tree, s.tree, front);
      if m.Failure? {
        if Blocked(s.tree, e.loc) {
          BlockedIsAbsent(s.tree, e.loc);
        }
        assert !IsDir(s.tree, e.loc);
      }
      forall i | 0 <= i < |es| ensures IsDir(s.tree, es[i].loc) || Obstructed(s.tree, es[i].loc) {
        if i < |front| {
          assert front[i] == es[i];
        }
      }
    }
  }

  lemma DirPersists(t: Tree, r: Tree, k: seq<string>)
    requires Extends(t, r) && IsDir(t, k)
    ensures IsDir(r, k)
  {
  }

  /** The skeleton step fails with an OSError exactly when some entry could not
      be created, and otherwise leaves every entry a directory. Every entry
      ends a directory or obstructed by a file, and the error lists, in
      order, the failure line of each obstructed entry and then the path of
      each created one. */
  lemma CreateStructureReportsFailures(t: Tree, cwd: seq<string>, basePath: string, structure: seq<string>)
    requires WellFormed(t)
    ensures var base := ParsePath(basePath);
            var es := Entries(cwd, base, structure);
            var (o, t') := CreateStructureEffect(t, cwd, basePath, structure);
            MakeDirs(t, Locate(cwd, base), Show(base)).Success? ==>
              WellFormed(t') && IsDir(t', Locate(cwd, base))
              && (forall i :: 0 <= i < |es| ==> IsDir(t', es[i].loc) || Obstructed(t', es[i].loc))
              && (o.Pass? <==> forall i :: 0 <= i < |structure| ==> IsDir(t', EntryLocation(cwd, base, structure[i])))
              && (o.Fail? ==>
                    o == Fail(OSError(StructureReport(FailedIn(t', es), CreatedIn(t', es))))
                    && StartsWith(o.error.msg, "Some directories failed to create:\n"))
  {
    var base := ParsePath(basePath);
    var m := MakeDirs(t, Locate(cwd, base), Show(base));
    if m.Success? {
      var s := StructureLoop(m.value, cwd, base, structure);
      StructureLoopIff(m.value, cwd, base, structure);
      MakeEachRecords(m.value, Entries(cwd, base, structure));
      if |s.errors| > 0 {
        StructureReportHead(s.errors, s.created);
      }
    }
  }

  /** The entry loop reports no error exactly when every entry ends up a directory. */
  lemma StructureLoopIff(t: Tree, cwd: seq<string>, base: Path, structure: seq<string>)
    requires ValidPath(base) && WellFormed(t)
    ensures var s := StructureLoop(t, cwd, base, structure);
            WellFormed(s.tree) && OnlyAddsDirs(t, s.tree)
            && (|s.errors| == 0 <==>
                  forall i :: 0 <= i < |structure| ==> IsDir(s.tree, EntryLocation(cwd, base, structure[i])))
  {
    var s := StructureLoop(t, cwd, base, structure);
    StructureLoopOutcome(t, cwd, base, structure);
    if |s.errors| > 0 {
      var i :| 0 <= i < |structure| && Obstructed(s.tree, EntryLocation(cwd, base, structure[i]));
      var k := EntryLocation(cwd, base, structure[i]);
      if IsFile(s.tree, k) {
        assert !IsDir(s.tree, k);
      } else {
        BlockedIsAbsent(s.tree, k);
      }
    }
  }

  lemma StructureReportHead(errors: seq<string>, created: seq<string>)
    ensures StartsWith(StructureReport(errors, created), "Some directories failed to create:\n")
  {
    var head := "Some directories failed to create:\n";
    var rest := Join(errors, "\n") + "\n\nSuccessfully created:\n" + Join(created, "\n");
    assert StructureReport(errors, created) == head + rest;
    assert (head + rest)[..|head|] == head;
  }

  method CreateDirectoryStructure(fs: FileSystem, basePath: string, structure: seq<string>)
    returns (o: Outcome<Exc>)
    requires fs.Valid()
    modifies fs
    ensures fs.Valid()
    ensures (o, fs.tree) == CreateStructureEffect(old(fs.tree), fs.cwd, basePath, structure)
  {
    var base := ParsePath(basePath);
    var fault := fs.MakeDirectories(base);
    if fault.Some? {
      return Fail(FaultExc(fault.value));
    }
    var created, errors := CreateEntries(fs, base, structure);
    if |errors| > 0 {
      return Fail(OSError(StructureReport(errors, created)));
    }
    return Pass;
  }

  /** The loop of `create_directory_structure`: each entry below `base` in turn. */
  method CreateEntries(fs: FileSystem, base: Path, structure: seq<string>)
    returns (created: seq<string>, errors: seq<string>)
    requires fs.Valid() && ValidPath(base)
    modifies fs
    ensures fs.Valid()
    ensures StructureLoop(old(fs.tree), fs.cwd, base, structure) == StructureState(fs.tree, created, errors)
  {
    ghost var t0 := fs.tree;
    ghost var es := Entries(fs.cwd, base, structure);
    created, errors := [], [];
    var i := 0;
    while i < |structure|
      invariant 0 <= i <= |structure|
      invariant fs.Valid()
      invariant MakeEach(t0, es[..i]) == StructureState(fs.tree, created, errors)
    {
      created, errors := CreateEntry(fs, base, structure[i], created, errors);
      MakeEachStep(t0, es, i);
      i := i + 1;
    }
    assert es[..i] == es;
  }

  /** One pass of the loop: `base / d` is created, or the failure recorded. */
  method CreateEntry(fs: FileSystem, base: Path, d: string, created: seq<string>, errors: seq<string>)
    returns (created': seq<string>, errors': seq<string>)
    requires fs.Valid() && ValidPath(base)
    modifies fs
    ensures fs.Valid()
    ensures StructureState(fs.tree, created', errors')
         == MakeEntry(StructureState(old(fs.tree), created, errors), Entry(fs.cwd, base, d))
  {
    var full := JoinPath(base, d);
    var f := fs.MakeDirectories(full);
    if f.None? {
      created', errors' := created + [Show(full)], errors;
    } else {
      created', errors' := created, errors + ["Failed to create " + d + ": " + FaultText(f.value)];
    }
  }

  // ------------------------------------------------------------ role copy

  /** The names copytree skips in every directory it enters. */
  const ExcludedItems: set<string> := {"export-output.md", ".checklist.json", ".ansible"}

  /** The ignore callback handed to copytree: the names among `names` to skip. */
  method IgnoreFiles(names: seq<string>) returns (ignored: seq<string>)
    ensures forall n :: n in ignored <==> n in names && n in ExcludedItems
    ensures |ignored| <= |names|
  {
    ignored := [];
    for i := 0 to |names|
      invariant forall n :: n in ignored <==> n in names[..i] && n in ExcludedItems
      invariant |ignored| <= i
    {
      if names[i] in ExcludedItems {
        ignored := ignored + [names[i]];
      }
      assert names[..i + 1] == names[..i] + [names[i]];
    }
    assert names[..|names|] == names;
  }

  /** The preparation inside the `try` of `copy_role_directory`: the lexical
      parent of the destination is created, then whatever is at the
      destination is removed (`rmtree` or `unlink`). */
  function ClearDestination(t: Tree, cwd: seq<string>, dp: Path): (r: Result<Tree, Fault>)
    requires ValidPath(dp)
    ensures r.Success? && WellFormed(t) ==> WellFormed(r.value)
    ensures r.Success? && WellFormed(t) ==> forall key :: key in r.value ==> !Under(key, Locate(cwd, dp))
    ensures r.Success? ==>
              forall key :: key in t && !Under(key, Locate(cwd, dp)) ==> key in r.value && r.value[key] == t[key]
    ensures r.Success? ==> forall key :: key in r.value && key !in t ==> Under(Locate(cwd, Parent(dp)), key)
  {
    var pp := Parent(dp);
    var dk := Locate(cwd, dp);
    match MakeDirs(t, Locate(cwd, pp), Show(pp))
    case Failure(f) => Failure(f)
    case Success(t1) =>
      if Exists(t1, dk) then Success(RemoveTree(t1, dk))
      else
        assert WellFormed(t) ==> forall key :: key in t1 ==> !Under(key, dk) by {
          if WellFormed(t) {
            NothingUnderMissing(t1, dk);
          }
        }
        Success(t1)
  }

  /** `copy_role_directory(source, destination)`: the source is checked before
      anything is written; then the destination is cleared and the source
      copied there without the excluded names. A `shutil.Error` and any other
      failure are both re-raised as OSError, with different prefixes. */
  function CopyRoleEffect(t: Tree, cwd: seq<string>, source: string, destination: string): (Outcome<Exc>, Tree)
  {
    var sp := ParsePath(source);
    var dp := ParsePath(destination);
    var sk := Locate(cwd, sp);
    var dk := Locate(cwd, dp);
    if !Exists(t, sk) then (Fail(FileNotFoundError("Source role path does not exist: " + source)), t)
    else if !IsDir(t, sk) then (Fail(ValueError("Source path is not a directory: " + source)), t)
    else
      match ClearDestination(t, cwd, dp)
      case Failure(f) => (Fail(OSError("Unexpected error copying role: " + FaultText(f))), t)
      case Success(t2) =>
        CopyStepEffect(CopyTree(t2, sk, dk, ExcludedItems, Show(sp), Show(dp)), t2)
  }

  /** The outcome of the `copytree` call on the cleared tree `t2`. */
  function CopyStepEffect(r: Result<Tree, Fault>, t2: Tree): (Outcome<Exc>, Tree)
  {
    match r
    case Failure(EntersDestination(p)) =>
      (Fail(OSError("Failed to copy role directory: " + FaultText(EntersDestination(p)))), t2)
    case Failure(f) => (Fail(OSError("Unexpected error copying role: " + FaultText(f))), t2)
    case Success(t3) => (Pass, t3)
  }

  /** Missing or non-directory sources are reported before anything is written. */
  lemma CopyRoleChecksSourceFirst(t: Tree, cwd: seq<string>, source: string, destination: string)
    ensures var sk := Locate(cwd, ParsePath(source));
            var (o, t') := CopyRoleEffect(t, cwd, source, destination);
            (!Exists(t, sk) ==> o == Fail(FileNotFoundError("Source role path does not exist: " + source)) && t' == t)
            && (Exists(t, sk) && !IsDir(t, sk) ==>
                  o == Fail(ValueError("Source path is not a directory: " + source)) && t' == t)
  {
  }

  /** After a successful copy, the entries below the destination are exactly
      the kept entries below the source, with the same nodes, leaving out
      what lay inside the old destination: nothing of an earlier destination
      survives, and no excluded name is copied. */
  lemma CopyRoleReplacesDestination(t: Tree, cwd: seq<string>, source: string, destination: string,
                                    rel: seq<string>)
    requires WellFormed(t)
    requires CopyRoleEffect(t, cwd, source, destination).0.Pass?
    requires |rel| > 0
    ensures var sk := Locate(cwd, ParsePath(source));
            var dk := Locate(cwd, ParsePath(destination));
            var t' := CopyRoleEffect(t, cwd, source, destination).1;
            IsDir(t', dk)
            && (dk + rel in t' <==> sk + rel in t && Kept(rel, ExcludedItems) && !Under(sk + rel, dk))
            && (dk + rel in t' ==> t'[dk + rel] == t[sk + rel])
  {
    var sp := ParsePath(source);
    var dp := ParsePath(destination);
    var sk := Locate(cwd, sp);
    var dk := Locate(cwd, dp);
    var t2 := ClearDestination(t, cwd, dp).value;
    var r := CopyTree(t2, sk, dk, ExcludedItems, Show(sp), Show(dp));
    assert CopyRoleEffect(t, cwd, source, destination) == CopyStepEffect(r, t2);
    CopyStepPasses(r, t2);
    CopyAfterClear(t, t2, cwd, dp, sk, rel, Show(sp), Show(dp));
  }

  /** Only a successful copy passes, and it leaves the copied tree. */
  lemma CopyStepPasses(r: Result<Tree, Fault>, t2: Tree)
    ensures CopyStepEffect(r, t2).0.Pass? <==> r.Success?
    ensures r.Success? ==> CopyStepEffect(r, t2).1 == r.value
  {
  }

  /** A successful copy onto the cleared destination holds exactly the kept
      source entries that lay outside the old destination. */
  lemma CopyAfterClear(t: Tree, t2: Tree, cwd: seq<string>, dp: Path, sk: seq<string>, rel: seq<string>,
                       shownSrc: string, shownDst: string)
    requires WellFormed(t) && ValidPath(dp) && |rel| > 0
    requires ClearDestination(t, cwd, dp) == Success(t2)
    requires CopyTree(t2, sk, Locate(cwd, dp), ExcludedItems, shownSrc, shownDst).Success?
    ensures var dk := Locate(cwd, dp);
            var t' := CopyTree(t2, sk, dk, ExcludedItems, shownSrc, shownDst).value;
            IsDir(t', dk)
            && (dk + rel in t' <==> sk + rel in t && Kept(rel, ExcludedItems) && !Under(sk + rel, dk))
            && (dk + rel in t' ==> t'[dk + rel] == t[sk + rel])
  {
    CopyTreeContents(t2, sk, Locate(cwd, dp), ExcludedItems, shownSrc, shownDst, rel);
    SourceSurvives(t, t2, cwd, dp, sk, rel);
  }

  /** Clearing the destination keeps every kept entry below the source that
      lay outside the destination, and adds none: a directory the parent's
      creation adds below the source leads to the destination, and a copy
      that keeps it would walk into the destination. */
  lemma SourceSurvives(t: Tree, t2: Tree, cwd: seq<string>, dp: Path, sk: seq<string>, rel: seq<string>)
    requires ValidPath(dp) && |rel| > 0 && WellFormed(t2)
    requires !EntersOwnDestination(t2, sk, Locate(cwd, dp), ExcludedItems)
    requires forall key :: key in t2 ==> !Under(key, Locate(cwd, dp))
    requires forall key :: key in t && !Under(key, Locate(cwd, dp)) ==> key in t2 && t2[key] == t[key]
    requires forall key :: key in t2 && key !in t ==> Under(Locate(cwd, Parent(dp)), key)
    ensures sk + rel in t2 && Kept(rel, ExcludedItems)
            <==> sk + rel in t && Kept(rel, ExcludedItems) && !Under(sk + rel, Locate(cwd, dp))
    ensures sk + rel in t2 && Kept(rel, ExcludedItems) ==> sk + rel in t && t2[sk + rel] == t[sk + rel]
  {
    var dk := Locate(cwd, dp);
    var key := sk + rel;
    assert Under(key, sk) && |key| > |sk| by { assert key[..|sk|] == sk; }
    if key in t2 && key !in t {
      ClearedAncestorAboveDestination(cwd, dp, key);
      var n := |sk| + 1;
      assert dk[..n] == key[..n];
      assert Under(dk, sk) by { assert dk[..|sk|] == key[..|sk|]; }
      if n < |key| {
        AncestorsAreDirs(t2, key, n);
      } else {
        assert key[..n] == key;
      }
      assert dk[|sk|] == rel[0];
    }
  }

  /** A location that clearing the destination adds, and so lies on the way
      to the destination's parent, lies strictly above the destination. */
  lemma ClearedAncestorAboveDestination(cwd: seq<string>, dp: Path, key: seq<string>)
    requires ValidPath(dp)
    requires Under(Locate(cwd, Parent(dp)), key) && !Under(key, Locate(cwd, dp))
    ensures Under(Locate(cwd, dp), key) && |key| < |Locate(cwd, dp)|
  {
    var up := Locate(cwd, Parent(dp));
    var dk := Locate(cwd, dp);
    if |dp.parts| > 0 {
      LocateParent(cwd, dp);
      if dp.parts[|dp.parts| - 1] == ".." {
        assert Under(up, dk) by {
          if |up| > 0 { assert up[..|dk|] == dk; }
        }
        PrefixesComparable(up, key, dk);
      } else {
        assert dk[..|key|] == up[..|key|];
      }
    }
  }

  /** Two prefixes of the same location are prefixes of one another. */
  lemma PrefixesComparable(key: seq<string>, a: seq<string>, b: seq<string>)
    ensures Under(key, a) && Under(key, b) ==> Under(a, b) || Under(b, a)
  {
    if Under(key, a) && Under(key, b) {
      if |a| <= |b| {
        assert b[..|a|] == key[..|a|];
      } else {
        assert a[..|b|] == key[..|b|];
      }
    }
  }

  method CopyRoleDirectory(fs: FileSystem, source: string, destination: string) returns (o: Outcome<Exc>)
    requires fs.Valid()
    modifies fs
    ensures fs.Valid()
    ensures (o, fs.tree) == CopyRoleEffect(old(fs.tree), fs.cwd, source, destination)
  {
    var sp := ParsePath(source);
    var dp := ParsePath(destination);
    var sk := fs.Where(sp);
    if !Exists(fs.tree, sk) {
      return Fail(FileNotFoundError("Source role path does not exist: " + source));
    }
    if !IsDir(fs.tree, sk) {
      return Fail(ValueError("Source path is not a directory: " + source));
    }
    var f := ClearDestinationIn(fs, dp);
    if f.Some? {
      return Fail(OSError("Unexpected error copying role: " + FaultText(f.value)));
    }
    ghost var t2 := fs.tree;
    assert ClearDestination(old(fs.tree), fs.cwd, dp) == Success(t2);
    assert CopyRoleEffect(old(fs.tree), fs.cwd, source, destination)
        == CopyStepEffect(CopyTree(t2, sk, fs.Where(dp), ExcludedItems, Show(sp), Show(dp)), t2);
    var g := fs.CopyDirectory(sp, dp, ExcludedItems);
    if g.Some? {
      if g.value.EntersDestination? {
        return Fail(OSError("Failed to copy role directory: " + FaultText(g.value)));
      }
      return Fail(OSError("Unexpected error copying role: " + FaultText(g.value)));
    }
    return Pass;
  }

  method ClearDestinationIn(fs: FileSystem, dp: Path) returns (fault: Option<Fault>)
    requires fs.Valid() && ValidPath(dp)
    modifies fs
    ensures fs.Valid()
    ensures var r := ClearDestination(old(fs.tree), fs.cwd, dp);
            fault == (if r.Failure? then Some(r.error) else None)
            && fs.tree == (if r.Success? then r.value else old(fs.tree))
  {
    fault := fs.MakeDirectories(Parent(dp));
    if fault.None? && Exists(fs.tree, fs.Where(dp)) {
      fs.Remove(dp);
    }
  }

  /** The ignore callback skips exactly the names whose entries `Kept` leaves
      out, one directory level at a time. */
  lemma IgnoredIffNotKept(name: string)
    ensures name in ExcludedItems <==> !Kept([name], ExcludedItems)
  {
    assert [name][0] == name;
  }

  // ------------------------------------------------------------ generators

  /** The common tail of every generator: create the parent directory, then
      write the file; any failure becomes an OSError naming what was being
      generated. */
  function GenerateFileEffect(t: Tree, cwd: seq<string>, filePath: string, c: Content, what: string)
    : (Outcome<Exc>, Tree)
  {
    var p := ParsePath(filePath);
    var pp := Parent(p);
    match MakeDirs(t, Locate(cwd, pp), Show(pp))
    case Failure(f) => (Fail(OSError("Failed to generate " + what + ": " + FaultText(f))), t)
    case Success(t1) =>
      match WriteFile(t1, Locate(cwd, p), c, Show(p))
      case Failure(f) => (Fail(OSError("Failed to generate " + what + ": " + FaultText(f))), t1)
      case Success(t2) => (Pass, t2)
  }

  /** A successful generation leaves the content at the path, keeps every other
      entry, adds only directories besides the file, and keeps the tree well
      formed; a failure is an OSError naming what was being generated. */
  lemma GenerateFileResult(t: Tree, cwd: seq<string>, filePath: string, c: Content, what: string)
    requires WellFormed(t)
    ensures var k := Locate(cwd, ParsePath(filePath));
            var (o, t') := GenerateFileEffect(t, cwd, filePath, c, what);
            WellFormed(t')
            && (o.Pass? ==> k in t' && t'[k] == File(c))
            && (forall key :: key in t && key != k ==> key in t' && t'[key] == t[key])
            && (forall key :: key in t' && key !in t && key != k ==> t'[key] == Dir)
            && (o.Fail? ==> o.error.OSError? && StartsWith(o.error.msg, "Failed to generate " + what + ": "))
  {
    var p := ParsePath(filePath);
    var pp := Parent(p);
    var k := Locate(cwd, p);
    var r := MakeDirs(t, Locate(cwd, pp), Show(pp));
    if r.Success? {
      var t1 := r.value;
      var w := WriteFile(t1, k, c, Show(p));
      if w.Failure? {
        PrefixOf("Failed to generate " + what + ": ", FaultText(w.error));
        GrowthKept(t, t1, k);
      } else {
        assert w.value == t1[k := File(c)];
        WrittenKept(t, t1, k, c);
      }
    } else {
      PrefixOf("Failed to generate " + what + ": ", FaultText(r.error));
    }
  }

  /** Directories added to `t` leave its other entries alone. */
  lemma GrowthKept(t: Tree, t1: Tree, k: seq<string>)
    requires OnlyAddsDirs(t, t1)
    ensures forall key :: key in t && key != k ==> key in t1 && t1[key] == t[key]
    ensures forall key :: key in t1 && key !in t && key != k ==> t1[key] == Dir
  {
  }

  /** Writing one file after adding directories leaves every other entry alone. */
  lemma WrittenKept(t: Tree, t1: Tree, k: seq<string>, c: Content)
    requires OnlyAddsDirs(t, t1)
    ensures var t2 := t1[k := File(c)];
            && (forall key :: key in t && key != k ==> key in t2 && t2[key] == t[key])
            && (forall key :: key in t2 && key !in t && key != k ==> t2[key] == Dir)
  {
    var t2 := t1[k := File(c)];
    forall key | key in t && key != k ensures key in t2 && t2[key] == t[key] {
      assert key in t1;
    }
    forall key | key in t2 && key !in t && key != k ensures t2[key] == Dir {
      assert key in t1;
    }
  }

  lemma PrefixOf(a: string, b: string)
    ensures StartsWith(a + b, a)
  {
    assert (a + b)[..|a|] == a;
  }

  /** For a path that does not end in "..", over a well-formed tree,
      generation succeeds exactly when no ancestor of the file is a file and
      the path is not a directory. */
  lemma GenerateFileSucceeds(t: Tree, cwd: seq<string>, filePath: string, c: Content, what: string)
    requires WellFormed(t)
    requires var p := ParsePath(filePath); |p.parts| > 0 && p.parts[|p.parts| - 1] != ".."
    ensures var k := Locate(cwd, ParsePath(filePath));
            GenerateFileEffect(t, cwd, filePath, c, what).0.Pass? <==> !Blocked(t, k) && !IsDir(t, k)
  {
    var p := ParsePath(filePath);
    var pp := Parent(p);
    var k := Locate(cwd, p);
    LocateParent(cwd, p);
    assert Locate(cwd, pp) == Up(k);
    WriteBelowParent(t, k, c, Show(pp), Show(p));
  }

  /** Creating the parent of `k` and then writing `k` succeeds exactly when no
      ancestor of `k` is a file and `k` is not a directory. */
  lemma WriteBelowParent(t: Tree, k: seq<string>, c: Content, shownParent: string, shown: string)
    requires WellFormed(t) && |k| > 0
    ensures var r := MakeDirs(t, Up(k), shownParent);
            (r.Success? && WriteFile(r.value, k, c, shown).Success?) <==> !Blocked(t, k) && !IsDir(t, k)
  {
    var pk := Up(k);
    BlockedParent(t, k);
    var r := MakeDirs(t, pk, shownParent);
    if r.Success? {
      var t1 := r.value;
      assert !Under(pk, k);
      BlockedShrinks(t, t1, k);
    }
  }

  /** Adding directories never blocks a location that was reachable. */
  lemma BlockedShrinks(t: Tree, r: Tree, k: seq<string>)
    requires OnlyAddsDirs(t, r)
    ensures Blocked(r, k) ==> Blocked(t, k)
  {
    if Blocked(r, k) {
      var i :| 0 < i < |k| && IsFile(r, k[..i]);
      assert IsFile(t, k[..i]);
    }
  }

  /** Walking to `k` meets a file exactly when walking to its parent does, or
      the parent itself is a file. */
  lemma BlockedParent(t: Tree, k: seq<string>)
    requires WellFormed(t) && |k| > 0
    ensures Blocked(t, k) <==> Blocked(t, k[..|k| - 1]) || IsFile(t, k[..|k| - 1])
  {
    var pk := k[..|k| - 1];
    if Blocked(t, k) {
      var i :| 0 < i < |k| && IsFile(t, k[..i]);
      if i < |pk| {
        assert pk[..i] == k[..i];
      } else {
        assert k[..i] == pk;
      }
    }
    if Blocked(t, pk) {
      var i :| 0 < i < |pk| && IsFile(t, pk[..i]);
      assert pk[..i] == k[..i];
    }
    if IsFile(t, pk) {
      assert pk != [];
      assert k[..|pk|] == pk;
    }
  }

  /** `generate_playbook_yaml`: `role_name` is checked before anything is
      rendered or written. */
  function PlaybookEffect(t: Tree, cwd: seq<string>, filePath: string, name: string, roleName: string,
                          hosts: string, become: bool, vars: Option<seq<(string, Yaml)>>): (Outcome<Exc>, Tree)
  {
    if roleName == "" then (Fail(ValueError("role_name is required for playbook generation")), t)
    else
      var params := [("name", YStr(name)), ("role_name", YStr(roleName)), ("hosts", YStr(hosts)),
                     ("become", YBool(become)), ("vars", YDict(vars.GetOr([])))];
      GenerateFileEffect(t, cwd, filePath, Rendered("playbook.yml", params), "playbook YAML")
  }

  /** An empty role name fails with a ValueError and writes nothing; any other
      name renders the playbook template with it. */
  lemma PlaybookGuard(t: Tree, cwd: seq<string>, filePath: string, name: string, roleName: string,
                      hosts: string, become: bool, vars: Option<seq<(string, Yaml)>>)
    requires WellFormed(t)
    ensures var (o, t') := PlaybookEffect(t, cwd, filePath, name, roleName, hosts, become, vars);
            (roleName == "" ==> o == Fail(ValueError("role_name is required for playbook generation")) && t' == t)
            && (roleName != "" && o.Pass? ==>
                  var k := Locate(cwd, ParsePath(filePath));
                  k in t' && t'[k].File? && t'[k].content.Rendered? && t'[k].content.template == "playbook.yml"
                  && Lookup(t'[k].content.params, "role_name") == Some(YStr(roleName)))
  {
    if roleName != "" {
      var params := [("name", YStr(name)), ("role_name", YStr(roleName)), ("hosts", YStr(hosts)),
                     ("become", YBool(become)), ("vars", YDict(vars.GetOr([])))];
      GenerateFileResult(t, cwd, filePath, Rendered("playbook.yml", params), "playbook YAML");
      assert "role_name" != "name";
    }
  }

  /** The value the template receives for `extra_vars`: nothing when the
      argument is empty, the parsed document when it parses to something,
      and the raw text when parsing fails or yields nothing. */
  function ExtraVarsValue(parseText: TextParser, extraVars: string): (v: Yaml)
    ensures extraVars == "" ==> v == YNull
    ensures extraVars != "" && (parseText(extraVars).Failure? || parseText(extraVars).value == YNull) ==>
              v == YStr(extraVars)
    ensures extraVars != "" && parseText(extraVars).Success? && parseText(extraVars).value != YNull ==>
              v == parseText(extraVars).value
  {
    if extraVars == "" then YNull
    else
      match parseText(extraVars)
      case Failure(_) => YStr(extraVars)
      case Success(YNull) => YStr(extraVars)
      case Success(v) => v
  }

  /** `generate_job_template_yaml`: both required arguments are checked, in
      order, before anything is written. */
  function JobTemplateEffect(t: Tree, cwd: seq<string>, parseText: TextParser, filePath: string, name: string,
                             playbookPath: string, inventory: string, roleName: string, description: string,
                             extraVars: string): (Outcome<Exc>, Tree)
  {
    if playbookPath == "" then (Fail(ValueError("playbook_path is required for job_template generation")), t)
    else if inventory == "" then (Fail(ValueError("inventory is required for job_template generation")), t)
    else
      var params := [("name", YStr(name)), ("playbook_path", YStr(playbookPath)), ("inventory", YStr(inventory)),
                     ("description", YStr(description)), ("role_name", YStr(roleName)),
                     ("extra_vars", ExtraVarsValue(parseText, extraVars))];
      GenerateFileEffect(t, cwd, filePath, Rendered("job_template.yaml", params), "job template YAML")
  }

  lemma JobTemplateGuards(t: Tree, cwd: seq<string>, parseText: TextParser, filePath: string, name: string,
                          playbookPath: string, inventory: string, roleName: string, description: string,
                          extraVars: string)
    ensures var (o, t') := JobTemplateEffect(t, cwd, parseText, filePath, name, playbookPath, inventory,
                                             roleName, description, extraVars);
            (playbookPath == "" ==>
               o == Fail(ValueError("playbook_path is required for job_template generation")) && t' == t)
            && (playbookPath != "" && inventory == "" ==>
               o == Fail(ValueError("inventory is required for job_template generation")) && t' == t)
            && (o.Fail? && !o.error.ValueError? ==> o.error.OSError?)
  {
  }

  function AnsibleCfgEffect(t: Tree, cwd: seq<string>, filePath: string): (Outcome<Exc>, Tree)
  {
    GenerateFileEffect(t, cwd, filePath, Rendered("ansible.cfg", []), "ansible.cfg")
  }

  /** `generate_github_actions_workflow`. */
  function WorkflowEffect(t: Tree, cwd: seq<string>, filePath: string): (Outcome<Exc>, Tree)
  {
    GenerateFileEffect(t, cwd, filePath, Rendered("github_actions_workflow.yml", []), "GitHub Actions workflow")
  }

  /** `generate_collections_requirements`; `None` reaches the template as such. */
  function CollectionsEffect(t: Tree, cwd: seq<string>, filePath: string, collections: Option<Yaml>)
    : (Outcome<Exc>, Tree)
  {
    GenerateFileEffect(t, cwd, filePath, Rendered("collections_requirements.yml", [("collections", collections.GetOr(YNull))]),
                       "collections/requirements.yml")
  }

  /** `generate_inventory_file`; `None` reaches the template as such. */
  function InventoryEffect(t: Tree, cwd: seq<string>, filePath: string, inventory: Option<Yaml>)
    : (Outcome<Exc>, Tree)
  {
    GenerateFileEffect(t, cwd, filePath, Rendered("inventory_hosts.yml", [("inventory", inventory.GetOr(YNull))]),
                       "inventory file")
  }

  method GenerateFile(fs: FileSystem, filePath: string, c: Content, what: string) returns (o: Outcome<Exc>)
    requires fs.Valid()
    modifies fs
    ensures fs.Valid()
    ensures (o, fs.tree) == GenerateFileEffect(old(fs.tree), fs.cwd, filePath, c, what)
  {
    var p := ParsePath(filePath);
    var f := fs.MakeDirectories(Parent(p));
    if f.Some? {
      return Fail(OSError("Failed to generate " + what + ": " + FaultText(f.value)));
    }
    var g := fs.Write(p, c);
    if g.Some? {
      return Fail(OSError("Failed to generate " + what + ": " + FaultText(g.value)));
    }
    return Pass;
  }

  method GeneratePlaybookYaml(fs: FileSystem, filePath: string, name: string, roleName: string,
                              hosts: string, become: bool, vars: Option<seq<(string, Yaml)>>)
    returns (o: Outcome<Exc>)
    requires fs.Valid()
    modifies fs
    ensures fs.Valid()
    ensures (o, fs.tree) == PlaybookEffect(old(fs.tree), fs.cwd, filePath, name, roleName, hosts, become, vars)
  {
    if roleName == "" {
      return Fail(ValueError("role_name is required for playbook generation"));
    }
    var params := [("name", YStr(name)), ("role_name", YStr(roleName)), ("hosts", YStr(hosts)),
                   ("become", YBool(become)), ("vars", YDict(vars.GetOr([])))];
    o := GenerateFile(fs, filePath, Rendered("playbook.yml", params), "playbook YAML");
  }

  method GenerateJobTemplateYaml(fs: FileSystem, parseText: TextParser, filePath: string, name: string,
                                 playbookPath: string, inventory: string, roleName: string, description: string,
                                 extraVars: string)
    returns (o: Outcome<Exc>)
    requires fs.Valid()
    modifies fs
    ensures fs.Valid()
    ensures (o, fs.tree) == JobTemplateEffect(old(fs.tree), fs.cwd, parseText, filePath, name, playbookPath,
                                              inventory, roleName, description, extraVars)
  {
    if playbookPath == "" {
      return Fail(ValueError("playbook_path is required for job_template generation"));
    }
    if inventory == "" {
      return Fail(ValueError("inventory is required for job_template generation"));
    }
    var parsed := YNull;
    if extraVars != "" {
      var r := parseText(extraVars);
      parsed := if r.Failure? || r.value == YNull then YStr(extraVars) else r.value;
    }
    var params := [("name", YStr(name)), ("playbook_path", YStr(playbookPath)), ("inventory", YStr(inventory)),
                   ("description", YStr(description)), ("role_name", YStr(roleName)),
                   ("extra_vars", parsed)];
    o := GenerateFile(fs, filePath, Rendered("job_template.yaml", params), "job template YAML");
  }

  method GenerateAnsibleCfg(fs: FileSystem, filePath: string) returns (o: Outcome<Exc>)
    requires fs.Valid()
    modifies fs
    ensures fs.Valid()
    ensures (o, fs.tree) == AnsibleCfgEffect(old(fs.tree), fs.cwd, filePath)
  {
    o := GenerateFile(fs, filePath, Rendered("ansible.cfg", []), "ansible.cfg");
  }

  method GenerateGithubActionsWorkflow(fs: FileSystem, filePath: string) returns (o: Outcome<Exc>)
    requires fs.Valid()
    modifies fs
    ensures fs.Valid()
    ensures (o, fs.tree) == WorkflowEffect(old(fs.tree), fs.cwd, filePath)
  {
    o := GenerateFile(fs, filePath, Rendered("github_actions_workflow.yml", []), "GitHub Actions workflow");
  }

  method GenerateCollectionsRequirements(fs: FileSystem, filePath: string, collections: Option<Yaml>)
    returns (o: Outcome<Exc>)
    requires fs.Valid()
    modifies fs
    ensures fs.Valid()
    ensures (o, fs.tree) == CollectionsEffect(old(fs.tree), fs.cwd, filePath, collections)
  {
    o := GenerateFile(fs, filePath, Rendered("collections_requirements.yml", [("collections", collections.GetOr(YNull))]),
                      "collections/requirements.yml");
  }

  method GenerateInventoryFile(fs: FileSystem, filePath: string, inventory: Option<Yaml>) returns (o: Outcome<Exc>)
    requires fs.Valid()
    modifies fs
    ensures fs.Valid()
    ensures (o, fs.tree) == InventoryEffect(old(fs.tree), fs.cwd, filePath, inventory)
  {
    o := GenerateFile(fs, filePath, Rendered("inventory_hosts.yml", [("inventory", inventory.GetOr(YNull))]),
                      "inventory file");
  }

  // ------------------------------------------------------- required files

  predicate PathExists(t: Tree, cwd: seq<string>, filePath: string)
  {
    Exists(t, Locate(cwd, ParsePath(filePath)))
  }

  /** The paths among `files` for which `present` fails, in their input order. */
  function Missing(present: string -> bool, files: seq<string>): (m: seq<string>)
    ensures |m| <= |files|
  {
    if |files| == 0 then []
    else
      var last := files[|files| - 1];
      Missing(present, files[..|files| - 1]) + (if present(last) then [] else [last])
  }

  /** A path is reported exactly when it is listed and missing. */
  lemma {:induction false} MissingMembers(present: string -> bool, files: seq<string>)
    ensures forall f :: f in Missing(present, files) <==> f in files && !present(f)
  {
    if |files| > 0 {
      var front := files[..|files| - 1];
      MissingMembers(present, front);
      assert files == front + [files[|files| - 1]];
    }
  }

  /** The check of a concatenation reports the first part's missing paths,
      then the second's: input order is kept. */
  lemma {:induction false} MissingAppend(present: string -> bool, a: seq<string>, b: seq<string>)
    ensures Missing(present, a + b) == Missing(present, a) + Missing(present, b)
    decreases |b|
  {
    if |b| == 0 {
      assert a + b == a;
    } else {
      var b' := b[..|b| - 1];
      assert (a + b)[..|a + b| - 1] == a + b';
      MissingAppend(present, a, b');
    }
  }

  /** The listed paths that do not exist in `t`. */
  function MissingFiles(t: Tree, cwd: seq<string>, files: seq<string>): seq<string>
  {
    Missing(f => PathExists(t, cwd, f), files)
  }

  function Bullets(m: seq<string>): (r: seq<string>)
    ensures |r| == |m|
  {
    seq(|m|, i requires 0 <= i < |m| => "  - " + m[i])
  }

  function MissingMessage(m: seq<string>): string
  {
    IntToString(|m|) + " files are missing:\n" + Join(Bullets(m), "\n")
  }

  /** `verify_files_exist`. */
  function VerifyEffect(t: Tree, cwd: seq<string>, files: seq<string>): Outcome<Exc>
  {
    var m := MissingFiles(t, cwd, files);
    if |m| > 0 then Fail(FileNotFoundError(MissingMessage(m))) else Pass
  }

  /** Verification fails exactly when some listed path is missing. */
  lemma VerifyIffAllExist(t: Tree, cwd: seq<string>, files: seq<string>)
    ensures VerifyEffect(t, cwd, files).Pass? <==> forall i :: 0 <= i < |files| ==> PathExists(t, cwd, files[i])
  {
    MissingMembers(f => PathExists(t, cwd, f), files);
    var m := MissingFiles(t, cwd, files);
    if |m| > 0 {
      assert m[0] in m;
    }
    if exists i :: 0 <= i < |files| && !PathExists(t, cwd, files[i]) {
      var i :| 0 <= i < |files| && !PathExists(t, cwd, files[i]);
      assert files[i] in m;
    }
  }

  /** The message's lines: the count of missing paths, then one bullet per
      missing path in order. */
  lemma MissingMessageLines(m: seq<string>)
    requires |m| > 0
    requires forall i :: 0 <= i < |m| ==> '\n' !in m[i]
    ensures Split(MissingMessage(m), '\n') == [IntToString(|m|) + " files are missing:"] + Bullets(m)
  {
    var head := IntToString(|m|) + " files are missing:";
    var bs := Bullets(m);
    forall i | 0 <= i < |bs| ensures '\n' !in bs[i] {
      assert bs[i] == "  - " + m[i];
    }
    assert '\n' !in head by {
      var n := NatToString(|m|);
      assert IntToString(|m|) == n;
      forall j | 0 <= j < |head| ensures head[j] != '\n' {
        if j < |n| {
          assert head[j] == n[j];
        }
      }
    }
    SplitJoin(bs, '\n');
    SplitAfterSeparator(head, '\n', Join(bs, "\n"));
    assert MissingMessage(m) == head + ['\n'] + Join(bs, "\n");
  }

  /** The loop of `verify_files_exist` that collects the missing paths. */
  method CollectMissing(fs: FileSystem, files: seq<string>) returns (missing: seq<string>)
    ensures missing == MissingFiles(fs.tree, fs.cwd, files)
  {
    missing := [];
    for i := 0 to |files|
      invariant missing == MissingFiles(fs.tree, fs.cwd, files[..i])
    {
      assert files[..i + 1][..i] == files[..i];
      if !Exists(fs.tree, fs.Where(ParsePath(files[i]))) {
        missing := missing + [files[i]];
      }
    }
    assert files[..|files|] == files;
  }

  method VerifyFilesExist(fs: FileSystem, files: seq<string>) returns (o: Outcome<Exc>)
    ensures o == VerifyEffect(fs.tree, fs.cwd, files)
    ensures o.Pass? <==> forall i :: 0 <= i < |files| ==> PathExists(fs.tree, fs.cwd, files[i])
  {
    var missing := CollectMissing(fs, files);
    VerifyIffAllExist(fs.tree, fs.cwd, files);
    if |missing| > 0 {
      var bullets := BulletLines(missing);
      return Fail(FileNotFoundError(IntToString(|missing|) + " files are missing:\n" + Join(bullets, "\n")));
    }
    return Pass;
  }

  /** The bullet list of the missing paths, one line per path. */
  method BulletLines(missing: seq<string>) returns (bullets: seq<string>)
    ensures bullets == Bullets(missing)
  {
    bullets := [];
    for j := 0 to |missing|
      invariant |bullets| == j
      invariant forall k :: 0 <= k < j ==> bullets[k] == "  - " + missing[k]
    {
      bullets := bullets + ["  - " + missing[j]];
    }
  }
}

=== FILE: results.dfy ===
/**
  * Failure-carrying values shared by every module, and the Python exception
  * kinds the publishing code raises or catches.
  */
module Results {

  datatype Option<T> = None | Some(value: T) {
    function GetOr(default: T): T
    {
      if Some? then value else default
    }
  }

  /** A value, or the exception a Python function would have raised instead. */
  datatype Result<T, E> = Success(value: T) | Failure(error: E)

  /** Success without a value (a Python function returning `None`), or an exception. */
  datatype Outcome<E> = Pass | Fail(error: E)

  /** The exception classes that appear in the modelled code; `msg` is `str(e)`. */
  datatype Exc =
    | ValueError(msg: string)
    | TypeError(msg: string)
    | RuntimeError(msg: string)
    | OSError(msg: string)
    | FileNotFoundError(msg: string)
    | FileExistsError(msg: string)
    | NotADirectoryError(msg: string)
    | IsADirectoryError(msg: string)
    | IndexError(msg: string)
    | KeyError(msg: string)
    | AssertionError(msg: string)
    | RequestException(msg: string)
  {
    /** `type(e).__name__`. */
    function KindName(): string
    {
      match this
      case ValueError(_) => "ValueError"
      case TypeError(_) => "TypeError"
      case RuntimeError(_) => "RuntimeError"
      case OSError(_) => "OSError"
      case FileNotFoundError(_) => "FileNotFoundError"
      case FileExistsError(_) => "FileExistsError"
      case NotADirectoryError(_) => "NotADirectoryError"
      case IsADirectoryError(_) => "IsADirectoryError"
      case IndexError(_) => "IndexError"
      case KeyError(_) => "KeyError"
      case AssertionError(_) => "AssertionError"
      case RequestException(_) => "RequestException"
    }
  }
}

=== FILE: text.dfy ===
/**
  * The string operations of Python that the publishing code relies on:
  * `sep.join`, `s.split(c)`, `strip`/`rstrip`, `startswith`, `in`,
  * `replace(old, "")`, ASCII `lower`, and decimal `str(int)` / `int(str)`.
  */
module Text {

  import opened Results

  /** Python's `sep.join(parts)`. */
  function Join(parts: seq<string>, sep: string): string
  {
    if |parts| == 0 then ""
    else if |parts| == 1 then parts[0]
    else parts[0] + sep + Join(parts[1..], sep)
  }

  /** Python's `s.split(sep)` with a one-character separator: never empty,
      and no piece contains the separator. */
  function Split(s: string, sep: char): (r: seq<string>)
    ensures |r| >= 1
    ensures forall i :: 0 <= i < |r| ==> sep !in r[i]
  {
    if |s| == 0 then [""]
    else if s[0] == sep then [""] + Split(s[1..], sep)
    else
      var rest := Split(s[1..], sep);
      [[s[0]] + rest[0]] + rest[1..]
  }

  lemma {:induction false} SplitNoSeparator(s: string, sep: char)
    requires sep !in s
    ensures Split(s, sep) == [s]
  {
    if |s| > 0 {
      assert sep !in s[1..];
      SplitNoSeparator(s[1..], sep);
      assert [s[0]] + s[1..] == s;
    }
  }

  /** Splitting `a + sep + b` where `a` holds no separator yields `a` first. */
  lemma {:induction false} SplitAfterSeparator(a: string, sep: char, b: string)
    requires sep !in a
    ensures Split(a + [sep] + b, sep) == [a] + Split(b, sep)
  {
    var s := a + [sep] + b;
    if |a| == 0 {
      assert s == [sep] + b;
      assert s[1..] == b;
    } else {
      assert s[1..] == a[1..] + [sep] + b;
      assert sep !in a[1..];
      SplitAfterSeparator(a[1..], sep, b);
      assert [a[0]] + a[1..] == a;
    }
  }

  /** Joining pieces that hold no separator and splitting again gives the pieces back. */
  lemma {:induction false} SplitJoin(parts: seq<string>, sep: char)
    requires |parts| >= 1
    requires forall i :: 0 <= i < |parts| ==> sep !in parts[i]
    ensures Split(Join(parts, [sep]), sep) == parts
  {
    if |parts| == 1 {
      SplitNoSeparator(parts[0], sep);
    } else {
      SplitJoin(parts[1..], sep);
      SplitAfterSeparator(parts[0], sep, Join(parts[1..], [sep]));
      assert [parts[0]] + parts[1..] == parts;
    }
  }

  /** Splitting and joining again gives the original string back. */
  lemma {:induction false} JoinSplit(s: string, sep: char)
    ensures Join(Split(s, sep), [sep]) == s
  {
    if |s| > 0 {
      JoinSplit(s[1..], sep);
      var rest := Split(s[1..], sep);
      if s[0] == sep {
        assert Split(s, sep) == [""] + rest;
        assert Split(s, sep)[1..] == rest;
        assert [s[0]] + s[1..] == s;
      } else {
        var r := Split(s, sep);
        assert r == [[s[0]] + rest[0]] + rest[1..];
        if |rest| == 1 {
          assert rest == [rest[0]];
          assert [s[0]] + s[1..] == s;
        } else {
          assert r[1..] == rest[1..];
          assert Join(rest, [sep]) == rest[0] + [sep] + Join(rest[1..], [sep]);
          assert [s[0]] + s[1..] == s;
        }
      }
    }
  }

  /** Joining `a` and then `b` with the same separator equals joining `a + b`. */
  lemma {:induction false} JoinAppend(a: seq<string>, b: seq<string>, sep: string)
    requires |a| >= 1 && |b| >= 1
    ensures Join(a + b, sep) == Join(a, sep) + sep + Join(b, sep)
  {
    if |a| == 1 {
      assert (a + b)[1..] == b;
    } else {
      assert (a + b)[1..] == a[1..] + b;
      JoinAppend(a[1..], b, sep);
    }
  }

  /** String concatenation regroups. */
  lemma AppendAssoc(x: string, a: string, b: string)
    ensures x + a + b == x + (a + b)
  {
  }

  /** The characters Python's `str.isspace` accepts (and `strip` removes). */
  predicate IsSpace(c: char)
  {
    c == ' ' || ('\t' <= c <= '\r') || ('\U{1C}' <= c <= '\U{1F}') || c == '\U{85}'
    || c == '\U{A0}' || c == '\U{1680}' || ('\U{2000}' <= c <= '\U{200A}')
    || c == '\U{2028}' || c == '\U{2029}' || c == '\U{202F}' || c == '\U{205F}'
    || c == '\U{3000}'
  }

  /** Python's `s.rstrip()`: the longest prefix that does not end in whitespace. */
  function RStrip(s: string): (r: string)
    ensures |r| <= |s| && r == s[..|r|]
    ensures r == "" || !IsSpace(r[|r| - 1])
    ensures forall i :: |r| <= i < |s| ==> IsSpace(s[i])
  {
    if |s| > 0 && IsSpace(s[|s| - 1]) then RStrip(s[..|s| - 1]) else s
  }

  /** Python's `s.lstrip()`: the longest suffix that does not start with whitespace. */
  function LStrip(s: string): (r: string)
    ensures |r| <= |s| && r == s[|s| - |r|..]
    ensures r == "" || !IsSpace(r[0])
    ensures forall i :: 0 <= i < |s| - |r| ==> IsSpace(s[i])
  {
    if |s| > 0 && IsSpace(s[0]) then LStrip(s[1..]) else s
  }

  /** Python's `s.strip()`. */
  function Strip(s: string): string
  {
    RStrip(LStrip(s))
  }

  /** `s.strip()` is empty exactly when every character of `s` is whitespace. */
  lemma StripEmptyIffBlank(s: string)
    ensures Strip(s) == "" <==> forall i :: 0 <= i < |s| ==> IsSpace(s[i])
  {
    var l := LStrip(s);
    if Strip(s) == "" {
      assert |l| == 0;
    } else {
      var r := RStrip(l);
      assert !IsSpace(r[|r| - 1]);
      assert r[|r| - 1] == s[|s| - |l| + |r| - 1];
    }
  }

  /** Python's `s.startswith(prefix)`. */
  predicate StartsWith(s: string, prefix: string)
  {
    |prefix| <= |s| && s[..|prefix|] == prefix
  }

  /** Python's `s.endswith(suffix)`. */
  predicate EndsWith(s: string, suffix: string)
  {
    |suffix| <= |s| && s[|s| - |suffix|..] == suffix
  }

  /** Python's `sub in s`. */
  predicate Contains(s: string, sub: string)
  {
    exists i :: 0 <= i <= |s| && OccursAt(s, sub, i)
  }

  /** `sub` occurs in `s` starting at index `i`. */
  predicate OccursAt(s: string, sub: string, i: nat)
  {
    i + |sub| <= |s| && s[i..i + |sub|] == sub
  }

  /** A value quoted the way the messages print it: `f"'{s}'"`. */
  function Quoted(s: string): string
  {
    "'" + s + "'"
  }

  /** A message built as `head`, a quoted value and `tail` starts with `head`
      and shows the quoted value. */
  lemma QuotedIn(head: string, s: string, tail: string)
    ensures StartsWith(head + Quoted(s) + tail, head)
    ensures Contains(head + Quoted(s) + tail, Quoted(s))
  {
    ContainsMiddle(head, Quoted(s), tail);
    assert (head + Quoted(s) + tail)[..|head|] == head;
  }

  /** `sub` occurs in `a + sub + b`. */
  lemma ContainsMiddle(a: string, sub: string, b: string)
    ensures Contains(a + sub + b, sub)
  {
    var s := a + sub + b;
    assert OccursAt(s, sub, |a|);
  }

  /** An error report, as the tools return it. */
  function Error(detail: string): string
  {
    "ERROR: " + detail
  }

  /** An error report built around `sub` shows `sub`. */
  lemma ErrorContains(a: string, sub: string, b: string)
    ensures StartsWith(Error(a + sub + b), "ERROR: ")
    ensures Contains(Error(a + sub + b), sub)
  {
    assert Error(a + sub + b)[..7] == "ERROR: ";
    ContainsMiddle("ERROR: " + a, sub, b);
    assert Error(a + sub + b) == ("ERROR: " + a) + sub + b;
  }

  /** "ERROR: " before a text that starts with `p` starts with "ERROR: " + `p`. */
  lemma ErrorPrefix(text: string, p: string)
    requires StartsWith(text, p)
    ensures StartsWith(Error(text), "ERROR: " + p)
  {
    assert Error(text)[..|"ERROR: " + p|] == "ERROR: " + text[..|p|];
  }

  /** Python's `s.replace(pat, "")`: every non-overlapping occurrence of `pat`,
      scanning left to right, is removed. */
  function RemoveAll(s: string, pat: string): (r: string)
    requires |pat| > 0
    ensures |r| <= |s|
    decreases |s|
  {
    if |s| < |pat| then s
    else if s[..|pat|] == pat then RemoveAll(s[|pat|..], pat)
    else [s[0]] + RemoveAll(s[1..], pat)
  }

  /** A string in which `pat` never occurs is left unchanged by `RemoveAll`. */
  lemma {:induction false} RemoveAllAbsent(s: string, pat: string)
    requires |pat| > 0
    requires !Contains(s, pat)
    ensures RemoveAll(s, pat) == s
    decreases |s|
  {
    if |s| >= |pat| {
      assert !OccursAt(s, pat, 0);
      assert !Contains(s[1..], pat) by {
        forall i: nat | OccursAt(s[1..], pat, i) ensures false {
          assert s[1..][i..i + |pat|] == s[i + 1..i + 1 + |pat|];
          assert OccursAt(s, pat, i + 1);
        }
      }
      RemoveAllAbsent(s[1..], pat);
      assert [s[0]] + s[1..] == s;
    }
  }

  /** A prefix that never holds the pattern's first character passes through
      `RemoveAll` untouched. */
  lemma {:induction false} RemoveAllKeepPrefix(p: string, s: string, pat: string)
    requires |pat| > 0 && pat[0] !in p
    ensures RemoveAll(p + s, pat) == p + RemoveAll(s, pat)
    decreases |p|
  {
    if |p| > 0 {
      var t := p + s;
      assert t[1..] == p[1..] + s;
      RemoveAllKeepPrefix(p[1..], s, pat);
      assert [p[0]] + p[1..] == p;
      if |t| >= |pat| {
        assert t[..|pat|][0] == p[0] && t[..|pat|] != pat;
        assert RemoveAll(t, pat) == [t[0]] + RemoveAll(t[1..], pat);
        assert RemoveAll(t, pat) == [p[0]] + (p[1..] + RemoveAll(s, pat));
      } else {
        assert RemoveAll(s, pat) == s;
      }
    } else {
      assert p + s == s;
    }
  }

  /** A pattern whose first character never recurs, at the end of a string
      that does not hold it, is the only occurrence `RemoveAll` removes. */
  lemma {:induction false} RemoveAllThenPattern(s: string, pat: string)
    requires |pat| > 0 && pat[0] !in pat[1..]
    requires !Contains(s, pat)
    ensures RemoveAll(s + pat, pat) == s
    decreases |s|
  {
    var t := s + pat;
    if |s| == 0 {
      assert t == pat && t[|pat|..] == [];
    } else {
      if |s| >= |pat| {
        assert !OccursAt(s, pat, 0);
        assert t[..|pat|] == s[..|pat|];
      } else {
        assert pat[1..][|s| - 1] == pat[|s|];
        assert t[..|pat|][|s|] == pat[0];
      }
      assert !Contains(s[1..], pat) by {
        forall i: nat | OccursAt(s[1..], pat, i) ensures false {
          assert s[1..][i..i + |pat|] == s[i + 1..i + 1 + |pat|];
          assert OccursAt(s, pat, i + 1);
        }
      }
      RemoveAllThenPattern(s[1..], pat);
      assert t[1..] == s[1..] + pat;
      assert [s[0]] + s[1..] == s;
    }
  }

  /** Each character of an occurrence of `pat` is a character of `pat`. */
  lemma OccurrenceChar(s: string, pat: string, i: nat, j: nat)
    requires OccursAt(s, pat, i) && i <= j < i + |pat|
    ensures s[j] in pat
  {
    assert s[j] == s[i..i + |pat|][j - i];
  }

  /** `pat` does not occur across a character it does not contain. */
  lemma NotContainsAround(a: string, c: char, b: string, pat: string)
    requires c !in pat && !Contains(a, pat) && !Contains(b, pat)
    ensures !Contains(a + [c] + b, pat)
  {
    var s := a + [c] + b;
    forall i: nat | OccursAt(s, pat, i) ensures false {
      if i + |pat| <= |a| {
        assert s[i..i + |pat|] == a[i..i + |pat|];
        assert OccursAt(a, pat, i);
      } else if i <= |a| {
        OccurrenceChar(s, pat, i, |a|);
        assert false;
      } else {
        assert s[i..i + |pat|] == b[i - |a| - 1..i - |a| - 1 + |pat|];
        assert OccursAt(b, pat, i - |a| - 1);
      }
    }
  }

  /** `pat` does not occur in `a + b` when no character of `a` can start it. */
  lemma NotContainsAfter(a: string, b: string, pat: string)
    requires |pat| > 0 && pat[0] !in a && !Contains(b, pat)
    ensures !Contains(a + b, pat)
  {
    var s := a + b;
    forall i: nat | OccursAt(s, pat, i) ensures false {
      if i >= |a| {
        assert s[i..i + |pat|] == b[i - |a|..i - |a| + |pat|];
        assert OccursAt(b, pat, i - |a|);
      }
    }
  }

  /** Python's `s.lower()` on ASCII letters. */
  function LowerChar(c: char): (r: char)
    ensures 'A' <= c <= 'Z' ==> r as int == c as int + 32
    ensures !('A' <= c <= 'Z') ==> r == c
  {
    if 'A' <= c <= 'Z' then (c as int + 32) as char else c
  }

  function Lower(s: string): (r: string)
    ensures |r| == |s|
    ensures forall i :: 0 <= i < |s| ==> r[i] == LowerChar(s[i])
  {
    if |s| == 0 then "" else [LowerChar(s[0])] + Lower(s[1..])
  }

  /** The decimal digit for `d`. */
  function DigitChar(d: nat): char
    requires d < 10
  {
    "0123456789"[d]
  }

  predicate IsDigit(c: char)
  {
    '0' <= c <= '9'
  }

  /** `str(n)` for a natural number. */
  function NatToString(n: nat): (r: string)
    ensures |r| >= 1
    ensures forall i :: 0 <= i < |r| ==> IsDigit(r[i])
    ensures r[0] == '0' ==> n == 0
    decreases n
  {
    if n < 10 then [DigitChar(n)] else NatToString(n / 10) + [DigitChar(n % 10)]
  }

  /** `str(i)` for an integer. */
  function IntToString(i: int): (r: string)
    ensures |r| >= 1
  {
    if i < 0 then "-" + NatToString(-i) else NatToString(i)
  }

  /** The value of a non-empty string of decimal digits, read left to right. */
  function DigitsValue(s: string): nat
    requires forall i :: 0 <= i < |s| ==> IsDigit(s[i])
  {
    if |s| == 0 then 0
    else
      assert IsDigit(s[|s| - 1]);
      DigitsValue(s[..|s| - 1]) * 10 + (s[|s| - 1] as int - '0' as int)
  }

  /** `int(s)` for base 10: surrounding whitespace, one optional sign, then digits. */
  function ParseInt(s: string): (r: Option<int>)
  {
    var t := Strip(s);
    if |t| == 0 then None
    else
      var digits := if t[0] == '-' || t[0] == '+' then t[1..] else t;
      if |digits| > 0 && forall i :: 0 <= i < |digits| ==> IsDigit(digits[i])
      then Some(if t[0] == '-' then -(DigitsValue(digits) as int) else DigitsValue(digits))
      else None
  }

  lemma {:induction false} DigitsOfNat(n: nat)
    ensures DigitsValue(NatToString(n)) == n
    decreases n
  {
    var s := NatToString(n);
    if n < 10 {
      assert s[..0] == "";
    } else {
      DigitsOfNat(n / 10);
      assert s[..|s| - 1] == NatToString(n / 10);
    }
  }

  /** Reading back what `str(i)` printed gives `i`. */
  lemma ParseIntToString(i: int)
    ensures ParseInt(IntToString(i)) == Some(i)
  {
    var n := if i < 0 then -i else i;
    var digits := NatToString(n);
    DigitsOfNat(n);
    if i < 0 {
      ParseNegative(digits);
    } else {
      ParseUnsigned(digits);
    }
  }

  /** A run of digits reads as its value. */
  lemma ParseUnsigned(digits: string)
    requires |digits| > 0 && forall i :: 0 <= i < |digits| ==> IsDigit(digits[i])
    ensures ParseInt(digits) == Some(DigitsValue(digits))
  {
    StripUnpadded(digits);
    assert digits[0] != '-' && digits[0] != '+';
  }

  /** A minus sign before a run of digits negates its value. */
  lemma ParseNegative(digits: string)
    requires |digits| > 0 && forall i :: 0 <= i < |digits| ==> IsDigit(digits[i])
    ensures ParseInt("-" + digits) == Some(-(DigitsValue(digits) as int))
  {
    var s := "-" + digits;
    assert s[|s| - 1] == digits[|digits| - 1];
    StripUnpadded(s);
    assert s[1..] == digits;
    ParseSigned(s, digits);
  }

  /** A stripped minus sign followed by digits reads as the negated digits. */
  lemma ParseSigned(s: string, digits: string)
    requires Strip(s) == s && |s| > 1 && s[0] == '-' && s[1..] == digits
    requires forall i :: 0 <= i < |digits| ==> IsDigit(digits[i])
    ensures ParseInt(s) == Some(-(DigitsValue(digits) as int))
  {
  }

  /** A string that neither starts nor ends with whitespace is its own strip. */
  lemma StripUnpadded(s: string)
    requires |s| > 0 && !IsSpace(s[0]) && !IsSpace(s[|s| - 1])
    ensures Strip(s) == s
  {
    assert LStrip(s) == s;
  }
}

=== FILE: usage_docs.dfy ===
/**
  * The usage-documentation generator: it renders two Markdown pages, one for
  * running the tool natively and one for running it in a container, from the
  * same content (front matter, a preamble and five sections, one per CLI
  * command). In the container page every command is wrapped into a
  * `podman run` invocation carrying the environment variables its kind needs.
  * Reading the content file and writing the pages are outside the model: the
  * content is a parameter and each generator returns its output path and text.
  */
module UsageDocs {

  import opened Results
  import opened Text

  /** One value per CLI command, in the order the pages present them. */
  datatype Commands<C> = Commands(init: C, analyze: C, migrate: C, publishProject: C, publishAap: C)
  {
    function Each(): seq<C>
    {
      [init, analyze, migrate, publishProject, publishAap]
    }
  }

  /** `content["shared"]`: the text both pages use. */
  datatype Shared = Shared(quickReference: string, requirementsIntro: string, envExports: string,
                           descriptions: Commands<string>, publishProjectOutputPaths: string,
                           notesSection: string)

  /** The per-page settings of `content["local"]` and `content["docker"]`;
      the two flags are the truthiness of the optional keys. */
  datatype Page = Page(title: string, navOrder: int, intro: string, includeEnvExports: bool,
                       includeNotes: bool, outputFile: string)

  /** A command of the container page: the command line and the kind of
      environment it needs. */
  datatype DockerCommandConfig = DockerCommandConfig(cmd: string, envType: string)

  datatype LocalConfig = LocalConfig(page: Page, commands: Commands<string>)

  datatype DockerConfig = DockerConfig(page: Page, commands: Commands<DockerCommandConfig>,
                                       envVars: map<string, seq<string>>, image: string, volumeMount: string)

  datatype Content = Content(shared: Shared, local: LocalConfig, docker: DockerConfig)

  /* ---------------- the podman command ---------------- */

  const PodmanLine := "podman run --rm -ti \\"

  function EnvLine(v: string): string
  {
    "  -e " + v + " \\"
  }

  /** One `-e` line per variable, in order. */
  function EnvLines(vars: seq<string>): (r: seq<string>)
    ensures |r| == |vars|
    ensures forall i :: 0 <= i < |vars| ==> r[i] == EnvLine(vars[i])
  {
    if |vars| == 0 then [] else EnvLines(vars[..|vars| - 1]) + [EnvLine(vars[|vars| - 1])]
  }

  /** The lines of the `podman run` invocation of `command`. */
  function DockerParts(command: string, vars: seq<string>, image: string, volumeMount: string): seq<string>
  {
    [PodmanLine, "  -v " + volumeMount + " \\"] + EnvLines(vars) + ["  " + image + " \\", "  " + command]
  }

  /** `docker_command(command, env_vars, image, volume_mount)`. */
  method DockerCommand(command: string, vars: seq<string>, image: string, volumeMount: string)
    returns (text: string)
    ensures text == Join(DockerParts(command, vars, image, volumeMount), "\n")
  {
    var parts := [PodmanLine, "  -v " + volumeMount + " \\"];
    for i := 0 to |vars|
      invariant parts == [PodmanLine, "  -v " + volumeMount + " \\"] + EnvLines(vars[..i])
    {
      assert vars[..i + 1][..i] == vars[..i];
      assert EnvLines(vars[..i + 1]) == EnvLines(vars[..i]) + [EnvLine(vars[i])];
      parts := parts + ["  -e " + vars[i] + " \\"];
    }
    assert vars[..|vars|] == vars;
    parts := parts + ["  " + image + " \\"];
    parts := parts + ["  " + command];
    assert parts == DockerParts(command, vars, image, volumeMount);
    text := Join(parts, "\n");
  }

  /** The invocation opens with `podman run`, mounts the volume, passes each
      variable in order, names the image and ends with the command:
      `|vars| + 4` lines in all. */
  lemma DockerPartsShape(command: string, vars: seq<string>, image: string, volumeMount: string)
    ensures var parts := DockerParts(command, vars, image, volumeMount);
            && |parts| == |vars| + 4
            && parts[0] == "podman run --rm -ti \\"
            && parts[1] == "  -v " + volumeMount + " \\"
            && (forall i :: 0 <= i < |vars| ==> parts[2 + i] == "  -e " + vars[i] + " \\")
            && parts[|vars| + 2] == "  " + image + " \\"
            && parts[|vars| + 3] == "  " + command
  {
  }

  /** Read back line by line, the invocation gives exactly its parts, as long
      as no input holds a line break. */
  lemma DockerCommandLines(command: string, vars: seq<string>, image: string, volumeMount: string)
    requires '\n' !in command && '\n' !in image && '\n' !in volumeMount
    requires forall i :: 0 <= i < |vars| ==> '\n' !in vars[i]
    ensures Split(Join(DockerParts(command, vars, image, volumeMount), "\n"), '\n')
         == DockerParts(command, vars, image, volumeMount)
  {
    var parts := DockerParts(command, vars, image, volumeMount);
    DockerPartsShape(command, vars, image, volumeMount);
    forall i | 0 <= i < |parts| ensures '\n' !in parts[i] {
      if i == 0 {
        assert parts[i] == PodmanLine;
      } else if i == 1 {
        assert parts[i] == "  -v " + volumeMount + " \\";
      } else if i < |vars| + 2 {
        assert parts[i] == "  -e " + vars[i - 2] + " \\";
      } else if i == |vars| + 2 {
        assert parts[i] == "  " + image + " \\";
      } else {
        assert parts[i] == "  " + command;
      }
    }
    SplitJoin(parts, '\n');
  }

  /* ---------------- the page layout ---------------- */

  /** The Jekyll front matter that opens each page. */
  function FrontMatter(page: Page): seq<string>
  {
    ["---", "layout: default", "title: " + page.title, "parent: Getting Started",
     "nav_order: " + IntToString(page.navOrder), "---"]
  }

  /** Title, introduction, quick reference and requirements, with the
      environment exports only when the page asks for them. */
  function Preamble(page: Page, shared: Shared): seq<string>
  {
    ["", "# " + page.title, "", page.intro, "", RStrip(shared.quickReference), "",
     RStrip(shared.requirementsIntro)]
    + (if page.includeEnvExports then [RStrip(shared.envExports)] else [])
    + [""]
  }

  const InitLead := "The first thing we need to do is create " + "the migration-plan.md file which will be "
                    + "used as a reference file:"

  /** A section: heading, optional lead paragraph, fenced command block and description. */
  function Section(heading: string, lead: seq<string>, block: string, description: string): seq<string>
  {
    [heading, ""] + lead + ["```bash", block, "```", "", description]
  }

  /** Front matter and preamble. */
  function Head(page: Page, shared: Shared): seq<string>
  {
    FrontMatter(page) + Preamble(page, shared)
  }

  function InitPart(shared: Shared, blocks: Commands<string>): seq<string>
  {
    Section("## Initialization", [InitLead, ""], blocks.init, shared.descriptions.init) + [""]
  }

  function AnalyzePart(shared: Shared, blocks: Commands<string>): seq<string>
  {
    Section("## Analyze:", [], blocks.analyze, shared.descriptions.analyze) + [""]
  }

  function MigratePart(shared: Shared, blocks: Commands<string>): seq<string>
  {
    Section("## Migrate", [], blocks.migrate, shared.descriptions.migrate) + [""]
  }

  function PublishProjectPart(shared: Shared, blocks: Commands<string>): seq<string>
  {
    Section("## Publish Project", [], blocks.publishProject, shared.descriptions.publishProject)
    + [RStrip(shared.publishProjectOutputPaths), ""]
  }

  function PublishAapPart(page: Page, shared: Shared, blocks: Commands<string>): seq<string>
  {
    Section("## Publish to AAP (Optional)", [], blocks.publishAap, shared.descriptions.publishAap)
    + (if page.includeNotes then ["", RStrip(shared.notesSection)] else [])
  }

  /** The lines of a page whose five command blocks are `blocks`. */
  function DocLines(page: Page, shared: Shared, blocks: Commands<string>): seq<string>
  {
    Head(page, shared) + InitPart(shared, blocks) + AnalyzePart(shared, blocks) + MigratePart(shared, blocks)
    + PublishProjectPart(shared, blocks) + PublishAapPart(page, shared, blocks)
  }

  /** The text written: the lines joined by line breaks, with one final line break. */
  function Render(lines: seq<string>): string
  {
    Join(lines, "\n") + "\n"
  }

  /** The lines of a page, appended one at a time. */
  method AssembleDoc(page: Page, shared: Shared, blocks: Commands<string>) returns (lines: seq<string>)
    ensures lines == DocLines(page, shared, blocks)
  {
    lines := HeadLines(page, shared);
    var d := shared.descriptions;
    lines := AppendSection(lines, "## Initialization", [InitLead, ""], blocks.init, d.init);
    lines := lines + [""];
    assert lines == Head(page, shared) + InitPart(shared, blocks);
    lines := AppendSection(lines, "## Analyze:", [], blocks.analyze, d.analyze);
    lines := lines + [""];
    assert lines == Head(page, shared) + InitPart(shared, blocks) + AnalyzePart(shared, blocks);
    lines := AppendSection(lines, "## Migrate", [], blocks.migrate, d.migrate);
    lines := lines + [""];
    assert lines == Head(page, shared) + InitPart(shared, blocks) + AnalyzePart(shared, blocks)
                    + MigratePart(shared, blocks);
    lines := AppendSection(lines, "## Publish Project", [], blocks.publishProject, d.publishProject);
    lines := lines + [RStrip(shared.publishProjectOutputPaths)];
    lines := lines + [""];
    assert lines == Head(page, shared) + InitPart(shared, blocks) + AnalyzePart(shared, blocks)
                    + MigratePart(shared, blocks) + PublishProjectPart(shared, blocks);
    var done := lines;
    lines := AppendSection(lines, "## Publish to AAP (Optional)", [], blocks.publishAap, d.publishAap);
    if page.includeNotes {
      lines := lines + [""];
      lines := lines + [RStrip(shared.notesSection)];
    }
    assert lines == done + PublishAapPart(page, shared, blocks);
  }

  /** The front matter and the preamble, appended one line at a time. */
  method HeadLines(page: Page, shared: Shared) returns (lines: seq<string>)
    ensures lines == Head(page, shared)
  {
    lines := FrontMatterLines(page);
    lines := lines + [""];
    lines := lines + ["# " + page.title];
    lines := lines + [""];
    lines := lines + [page.intro];
    lines := lines + [""];
    lines := lines + [RStrip(shared.quickReference)];
    lines := lines + [""];
    lines := lines + [RStrip(shared.requirementsIntro)];
    assert lines == FrontMatter(page) + ["", "# " + page.title, "", page.intro, "", RStrip(shared.quickReference), "",
                                         RStrip(shared.requirementsIntro)];
    if page.includeEnvExports {
      lines := lines + [RStrip(shared.envExports)];
    }
    lines := lines + [""];
  }

  /** The front matter, appended one line at a time. */
  method FrontMatterLines(page: Page) returns (lines: seq<string>)
    ensures lines == FrontMatter(page)
  {
    lines := [];
    lines := lines + ["---"];
    lines := lines + ["layout: default"];
    lines := lines + ["title: " + page.title];
    lines := lines + ["parent: Getting Started"];
    lines := lines + ["nav_order: " + IntToString(page.navOrder)];
    lines := lines + ["---"];
  }

  /** Appends one section to `lines`. */
  method AppendSection(lines: seq<string>, heading: string, lead: seq<string>, block: string, description: string)
    returns (r: seq<string>)
    ensures r == lines + Section(heading, lead, block, description)
  {
    r := lines + [heading];
    r := r + [""];
    r := r + lead;
    r := r + ["```bash"];
    r := r + [block];
    r := r + ["```"];
    r := r + [""];
    r := r + [description];
  }

  /** Where everything sits on a page: the front matter first, the optional
      environment exports right after the requirements, the five sections in
      fixed order with their command blocks and descriptions, and the notes
      last and only when asked for. */
  lemma DocLayout(page: Page, shared: Shared, blocks: Commands<string>)
    ensures var lines := DocLines(page, shared, blocks);
            var p := if page.includeEnvExports then 16 else 15;
            && |lines| == p + 42 + (if page.includeNotes then 2 else 0)
            && lines[..6] == FrontMatter(page)
            && (page.includeEnvExports ==> lines[14] == RStrip(shared.envExports))
            && lines[p] == "## Initialization" && lines[p + 5] == blocks.init
            && lines[p + 8] == shared.descriptions.init
            && lines[p + 10] == "## Analyze:" && lines[p + 13] == blocks.analyze
            && lines[p + 16] == shared.descriptions.analyze
            && lines[p + 18] == "## Migrate" && lines[p + 21] == blocks.migrate
            && lines[p + 24] == shared.descriptions.migrate
            && lines[p + 26] == "## Publish Project" && lines[p + 29] == blocks.publishProject
            && lines[p + 32] == shared.descriptions.publishProject
            && lines[p + 35] == "## Publish to AAP (Optional)" && lines[p + 38] == blocks.publishAap
            && lines[p + 41] == shared.descriptions.publishAap
            && (page.includeNotes ==> lines[p + 43] == RStrip(shared.notesSection))
  {
    var lines := DocLines(page, shared, blocks);
    var p := if page.includeEnvExports then 16 else 15;
    var x := Head(page, shared) + InitPart(shared, blocks);
    var y := x + AnalyzePart(shared, blocks) + MigratePart(shared, blocks);
    assert |x| == p + 10 && |y| == p + 26;
    assert lines[..6] == Head(page, shared)[..6];
    assert lines[p + 5] == x[p + 5] == blocks.init;
    assert lines[p + 13] == y[p + 13] == blocks.analyze;
    assert lines[p + 21] == y[p + 21] == blocks.migrate;
  }

  /** The text read back line by line gives the lines and an empty last piece
      after the final line break, when no line holds a line break itself. */
  lemma RenderLines(lines: seq<string>)
    requires |lines| >= 1
    requires forall i :: 0 <= i < |lines| ==> '\n' !in lines[i]
    ensures Split(Render(lines), '\n') == lines + [""]
  {
    JoinAppend(lines, [""], "\n");
    assert Join(lines + [""], "\n") == Render(lines);
    SplitJoin(lines + [""], '\n');
  }

  /* ---------------- the two pages ---------------- */

  /** `generate_usage_doc(content)`: the output path and the page text. */
  method GenerateUsageDoc(content: Content) returns (outputFile: string, text: string)
    ensures outputFile == content.local.page.outputFile
    ensures text == Render(DocLines(content.local.page, content.shared, content.local.commands))
  {
    var lines := AssembleDoc(content.local.page, content.shared, content.local.commands);
    outputFile := content.local.page.outputFile;
    text := Join(lines, "\n") + "\n";
  }

  /** The block of one command on the container page; an environment kind
      missing from `env_vars` raises `KeyError`. */
  function WrappedCommand(config: DockerConfig, c: DockerCommandConfig): Result<string, Exc>
  {
    if c.envType !in config.envVars then Failure(KeyError(Quoted(c.envType)))
    else Success(Join(DockerParts(c.cmd, config.envVars[c.envType], config.image, config.volumeMount), "\n"))
  }

  /** The five blocks of the container page, or the error of the first command,
      in page order, that cannot be wrapped. */
  function DockerBlocks(config: DockerConfig): Result<Commands<string>, Exc>
  {
    var c := config.commands;
    match (WrappedCommand(config, c.init), WrappedCommand(config, c.analyze), WrappedCommand(config, c.migrate),
           WrappedCommand(config, c.publishProject), WrappedCommand(config, c.publishAap))
    case (Failure(e), _, _, _, _) => Failure(e)
    case (_, Failure(e), _, _, _) => Failure(e)
    case (_, _, Failure(e), _, _) => Failure(e)
    case (_, _, _, Failure(e), _) => Failure(e)
    case (_, _, _, _, Failure(e)) => Failure(e)
    case (Success(a), Success(b), Success(m), Success(p), Success(q)) => Success(Commands(a, b, m, p, q))
  }

  /** `wrap_cmd(cmd_config)`. */
  method WrapCommand(config: DockerConfig, c: DockerCommandConfig) returns (r: Result<string, Exc>)
    ensures r == WrappedCommand(config, c)
  {
    if c.envType !in config.envVars {
      return Failure(KeyError(Quoted(c.envType)));
    }
    var text := DockerCommand(c.cmd, config.envVars[c.envType], config.image, config.volumeMount);
    return Success(text);
  }

  /** `generate_docker_usage_doc(content)`: the output path and the page text,
      or the `KeyError` that stops it before anything is written. */
  method GenerateDockerUsageDoc(content: Content) returns (r: Result<(string, string), Exc>)
    ensures DockerBlocks(content.docker).Failure? ==> r == Failure(DockerBlocks(content.docker).error)
    ensures DockerBlocks(content.docker).Success? ==>
              r == Success((content.docker.page.outputFile,
                            Render(DocLines(content.docker.page, content.shared, DockerBlocks(content.docker).value))))
  {
    var config := content.docker;
    var c := config.commands;
    var a := WrapCommand(config, c.init);
    if a.Failure? { return Failure(a.error); }
    var b := WrapCommand(config, c.analyze);
    if b.Failure? { return Failure(b.error); }
    var m := WrapCommand(config, c.migrate);
    if m.Failure? { return Failure(m.error); }
    var p := WrapCommand(config, c.publishProject);
    if p.Failure? { return Failure(p.error); }
    var q := WrapCommand(config, c.publishAap);
    if q.Failure? { return Failure(q.error); }
    var lines := AssembleDoc(config.page, content.shared, Commands(a.value, b.value, m.value, p.value, q.value));
    return Success((config.page.outputFile, Join(lines, "\n") + "\n"));
  }

  /** The container page is produced exactly when every command's environment
      kind is configured, and then each of its blocks is the `podman run`
      invocation of that command with the variables of its kind, the
      configured image and the configured mount. */
  lemma DockerBlocksIff(config: DockerConfig)
    ensures DockerBlocks(config).Success?
            <==> forall k :: 0 <= k < 5 ==> config.commands.Each()[k].envType in config.envVars
    ensures DockerBlocks(config).Success? ==>
              forall k :: 0 <= k < 5 ==>
                var c := config.commands.Each()[k];
                DockerBlocks(config).value.Each()[k]
                == Join(DockerParts(c.cmd, config.envVars[c.envType], config.image, config.volumeMount), "\n")
    ensures DockerBlocks(config).Failure? ==>
              exists k :: 0 <= k < 5 && config.commands.Each()[k].envType !in config.envVars
                          && DockerBlocks(config).error == KeyError(Quoted(config.commands.Each()[k].envType))
                          && forall j :: 0 <= j < k ==> config.commands.Each()[j].envType in config.envVars
  {
    var c := config.commands;
    var e := c.Each();
    if DockerBlocks(config).Failure? {
      if e[0].envType !in config.envVars {
        assert WrappedCommand(config, e[0]).Failure?;
      } else if e[1].envType !in config.envVars {
        assert WrappedCommand(config, e[1]).Failure?;
      } else if e[2].envType !in config.envVars {
        assert WrappedCommand(config, e[2]).Failure?;
      } else if e[3].envType !in config.envVars {
        assert WrappedCommand(config, e[3]).Failure?;
      } else {
        assert WrappedCommand(config, e[4]).Failure?;
      }
    }
  }


  /** `generate_usage_docs()`: the native page is produced first and whatever
      the container settings hold; the container page follows exactly when
      every command's environment kind is configured. */
  method GenerateUsageDocs(content: Content) returns (local: (string, string), docker: Result<(string, string), Exc>)
    ensures local == (content.local.page.outputFile,
                      Render(DocLines(content.local.page, content.shared, content.local.commands)))
    ensures docker.Success?
            <==> forall k :: 0 <= k < 5 ==> content.docker.commands.Each()[k].envType in content.docker.envVars
    ensures docker == (if DockerBlocks(content.docker).Failure? then Failure(DockerBlocks(content.docker).error)
                       else Success((content.docker.page.outputFile,
                                     Render(DocLines(content.docker.page, content.shared,
                                                     DockerBlocks(content.docker).value)))))
  {
    var outputFile, text := GenerateUsageDoc(content);
    local := (outputFile, text);
    docker := GenerateDockerUsageDoc(content);
    DockerBlocksIff(content.docker);
  }

}

=== FILE: yaml_value.dfy ===
/**
  * The values that `yaml.safe_load` and `json.load` produce, the way Python's
  * `int()` converts them, and the outcome of reading a document from a file.
  */
module YamlValue {

  import opened Results
  import opened Text

  /** A loaded document. Mappings keep their insertion order; a float keeps its
      printed text and the integer `int()` truncates it to. */
  datatype Yaml =
    | YNull
    | YBool(b: bool)
    | YInt(i: int)
    | YFloat(text: string, truncated: int)
    | YStr(s: string)
    | YList(items: seq<Yaml>)
    | YDict(entries: seq<(string, Yaml)>)

  /** `type(v).__name__`. */
  function TypeName(v: Yaml): string
  {
    match v
    case YNull => "NoneType"
    case YBool(_) => "bool"
    case YInt(_) => "int"
    case YFloat(_, _) => "float"
    case YStr(_) => "str"
    case YList(_) => "list"
    case YDict(_) => "dict"
  }

  /** The message of the TypeError `int()` raises for an argument of type `name`. */
  function IntArgumentMessage(name: string): string
  {
    "int() argument must be a string, " + "a bytes-like object or a real number, not '" + name + "'"
  }

  /** Python's `int(v)`: booleans count as 0 or 1, floats truncate, strings are
      read in base 10, and everything else is a TypeError. */
  function PyInt(v: Yaml): (r: Result<int, Exc>)
    ensures v.YInt? ==> r == Success(v.i)
    ensures (v.YNull? || v.YList? || v.YDict?) ==> r.Failure? && r.error.TypeError?
    ensures v.YStr? && r.Failure? ==> r.error.ValueError? && ParseInt(v.s).None?
  {
    match v
    case YNull => Failure(TypeError(IntArgumentMessage("NoneType")))
    case YBool(b) => Success(if b then 1 else 0)
    case YInt(i) => Success(i)
    case YFloat(_, t) => Success(t)
    case YStr(s) =>
      (match ParseInt(s)
       case Some(i) => Success(i)
       case None => Failure(ValueError("invalid literal for int() with base 10: '" + s + "'")))
    case YList(_) => Failure(TypeError(IntArgumentMessage("list")))
    case YDict(_) => Failure(TypeError(IntArgumentMessage("dict")))
  }

  /** `int(str(i))` reads back `i`. */
  lemma PyIntOfPrinted(i: int)
    ensures PyInt(YStr(IntToString(i))) == Success(i)
  {
    ParseIntToString(i);
    PyIntOfParsed(IntToString(i), i);
  }

  /** A string Python's `int` parses converts to the parsed value. */
  lemma PyIntOfParsed(s: string, i: int)
    requires ParseInt(s) == Some(i)
    ensures PyInt(YStr(s)) == Success(i)
  {
  }

  /** The value stored under `key` in a mapping (`d.get(key)`): the value of
      the first entry with that key. */
  function Lookup(entries: seq<(string, Yaml)>, key: string): (r: Option<Yaml>)
    ensures r.Some? <==> exists i :: 0 <= i < |entries| && entries[i].0 == key
  {
    if |entries| == 0 then None
    else if entries[0].0 == key then Some(entries[0].1)
    else
      var rest := Lookup(entries[1..], key);
      assert forall i :: 1 <= i < |entries| ==> entries[i] == entries[1..][i - 1];
      rest
  }

  /** The value `d.get(key)` finds is the one stored in the first entry with
      that key. */
  lemma {:induction false} LookupFirst(entries: seq<(string, Yaml)>, key: string)
    ensures Lookup(entries, key).Some? ==>
              exists i :: 0 <= i < |entries| && entries[i] == (key, Lookup(entries, key).value)
                          && forall j :: 0 <= j < i ==> entries[j].0 != key
  {
    if |entries| > 0 && entries[0].0 == key {
      assert entries[0] == (key, Lookup(entries, key).value);
    } else if |entries| > 0 && Lookup(entries, key).Some? {
      var rest := entries[1..];
      LookupFirst(rest, key);
      var i :| 0 <= i < |rest| && rest[i] == (key, Lookup(rest, key).value)
               && forall j :: 0 <= j < i ==> rest[j].0 != key;
      assert entries[i + 1] == rest[i];
      assert forall j :: 1 <= j < i + 1 ==> entries[j] == rest[j - 1];
    }
  }

  /** In a mapping whose earlier keys differ from entry `j`'s, looking up
      that key finds entry `j`'s value. */
  lemma {:induction false} LookupDistinct(entries: seq<(string, Yaml)>, j: int)
    requires 0 <= j < |entries|
    requires forall i :: 0 <= i < j ==> entries[i].0 != entries[j].0
    ensures Lookup(entries, entries[j].0) == Some(entries[j].1)
  {
    if j > 0 {
      LookupDistinct(entries[1..], j - 1);
    }
  }

  /** Which reader `_load_yaml_or_json` picks for a file. */
  datatype Format = YamlFormat | JsonFormat

  /** What reading and parsing a file gives: a document, a syntax error of the
      chosen format (`yaml.YAMLError` / `json.JSONDecodeError`), or any other
      failure while reading (an undecodable byte, say). */
  datatype ParseOutcome = Parsed(doc: Yaml) | SyntaxError(msg: string) | ReadFailure(msg: string)
}
